=== FILE: README.md ===
# WASM deployment gateway and device agent, in Dafny

This project models both ends of a small system that deploys WebAssembly
modules to microcontroller boards and runs them there.

**The gateway** (`gateway.py`) is a TCP server. It takes one JSON request per
connection (`deploy`, `start`, `stop`, `status`, `build_and_deploy`) and turns
it into a short line-oriented exchange with a board. It reaches the board over
a serial port or over a `tcp:host:port` socket.

**The agent** (`firmware/agent/src/main.c`) runs on the board under Zephyr
with the WAMR runtime. Its parts are:

- a UART interrupt handler that cuts the byte stream into command lines, or
  stores a binary module image;
- a command thread that parses `LOAD`, `START`, `STOP` and `STATUS` lines and
  answers each one;
- a runner thread that calls the requested export and reports one `RESULT`
  line.

Modules, one file per source module:

| file | models |
|---|---|
| `common.dfy` | `Option`, prefix and substring predicates, ASCII |
| `numerals.dfy` | decimal and `%08x`/`%08lx` printing; newlib's `atoi` and `strtoul(…, 16)`; the cast to `uint32_t`; each printing/reading pair is proved to round-trip |
| `crc32.dfy` | `crc32_calc`: a bit-level reference definition, the loop that computes it, and the standard check value |
| `transport.dfy` | `Transport.read_line`/`write_line` over a stream of receive events, and the endpoint parsing of `open_transport` |
| `device_protocol.dfy` | `read_until_prefix` and the four gateway operations as exchanges: the actions taken (open, flush, send, wait, close) and the reply given, for every sequence of device lines and timeouts |
| `gateway_server.dfy` | `handle_client`: request collection, routing with defaults, and the reply or its absence |
| `agent_params.dfy` | `find_param`, `copy_param_value`, and the `args="…"` parser of `handle_start_cmd` |
| `agent_rx.dfy` | `serial_cb` (line mode, binary mode, the four-slot queue) and `agent_read_line` |
| `command_thread.dfy` | the command thread's loop: read the oldest queued line, skip it when empty, hand it to `handle_command_line` |
| `agent.dfy` | the agent's globals and the handlers `handle_load_cmd`, `handle_start_cmd`, `handle_stop_cmd`, `handle_status_cmd`, `handle_command_line`, and the `RESULT` formatting of `runner_thread_entry` |
| `end_to_end.dfy` | the two ends composed: the line the gateway writes is the line the agent reads, and the agent's answer is the reply the gateway gives |

WAMR, `malloc` and the payload wait are oracles (`LoadEnv`, `RunEnv`): each
handler is proved correct for every answer they may give. Clocks and sockets
become explicit event sequences (`RxEvent`, `Event`).

## Model

| member | source | states |
|---|---|---|
| Crc32.Crc32Calc | firmware/agent/src/main.c:118-135 | the loop computes the bitwise CRC-32 reference (reflected polynomial 0xEDB88320, seed all ones, final inversion) of the whole buffer; the empty buffer gives 0 |
| Crc32.AbsorbByte | firmware/agent/src/main.c:124-132 | xoring one byte into the register and running the eight branch-free inner steps gives the reference byte step: eight conditional shift-and-xor divisions of the xored register |
| Crc32.DivideByte | firmware/agent/src/main.c:128-132 | the inner loop's eight branch-free steps are eight steps of the conditional reference division: shift right, then xor with 0xEDB88320 exactly when the bit shifted out was 1 |
| Crc32.MaskStep | firmware/agent/src/main.c:129-131 | `-(int32_t)lsb` is all ones when the low bit is 1 and zero when it is 0, so the branch-free step equals the conditional one |
| Crc32.NextBit | firmware/agent/src/main.c:129-131 | one pass of the inner loop advances the register by one reference step |
| Crc32.RegisterAppend | firmware/agent/src/main.c:123-133 | the register over `a + b` is the register over `b` started from the register over `a`, so the checksum can be computed chunk by chunk |
| Crc32.CheckValue | firmware/agent/src/main.c:118-135 | the checksum of "123456789" is 0xCBF43926, the standard CRC-32 check value; this pins the function to the zlib CRC the gateway computes |
| Numerals.Decimal | gateway.py:216 | printing a count gives a non-empty run of decimal digits with no leading zero |
| Numerals.DecimalValue | gateway.py:216 | reading the printed digits back in base 10 gives the number again |
| Numerals.HexFixed | firmware/agent/src/main.c:363-366 | `%08lx`-style printing gives exactly the requested width of lower-case hex digits |
| Numerals.HexFixedValue | firmware/agent/src/main.c:363-366 | the fixed-width digits denote the number modulo 16 to the width |
| Numerals.Hex8 | gateway.py:210-211 | the gateway's `f"{crc:08x}"` is eight characters |
| Numerals.Atoi | firmware/agent/src/main.c:307 | `atoi` always yields a value in the signed 32-bit range |
| Numerals.AtoiUnsigned | firmware/agent/src/main.c:307 | on a string of leading digits `atoi` is their value saturated at 2^31-1 |
| Numerals.AtoiDecimal | firmware/agent/src/main.c:307 | `atoi` reads back every printed size below 2^31 exactly |
| Numerals.ToUint32 | firmware/agent/src/main.c:307 | the cast to `uint32_t` always yields an unsigned 32-bit value and leaves values already in that range unchanged |
| Numerals.StrToUlHex | firmware/agent/src/main.c:314 | `strtoul(…, 16)` on a 32-bit `unsigned long` yields a value below 2^32 |
| Numerals.StrToUlHexPlain | firmware/agent/src/main.c:314 | on leading hex digits `strtoul` is their value saturated at 2^32-1 |
| Numerals.StrToUlHex8 | firmware/agent/src/main.c:314 | `strtoul` reads back exactly every checksum the gateway prints with `%08x` |
| Numerals.DecimalOfWord | firmware/agent/src/main.c:343-345 | every 32-bit size prints in at most ten digits, so the `LOAD_READY` line fits its buffer |
| Transport.DecodeAscii | gateway.py:109 | `decode("ascii", errors="ignore")` yields only ASCII and never lengthens the input |
| Transport.RStripCrLf | gateway.py:109 | `rstrip("\r\n")` keeps a prefix of the text, removes only CR and LF, and leaves no CR or LF at the end |
| Transport.ReadLine | gateway.py:77-111 | `read_line` consumes at least one event whenever there is one, and what it returns is ASCII with no LF and no trailing CR |
| Transport.Gather | gateway.py:80-104 | the receive loop consumes at least one event whenever there is one, and the events it leaves are exactly the ones that follow, in order |
| Transport.GatherReceived | gateway.py:80-104 | the collected buffer is the starting buffer followed by exactly the bytes of the events consumed, in order |
| Transport.GatherNoInnerLf | gateway.py:102-104 | the receive loop stops at the first LF, so the collected buffer holds an LF only as its last byte |
| Transport.StrippedLineFree | gateway.py:106-111 | the decoded and stripped buffer is ASCII and contains no LF |
| Transport.ReadLineNoneIffNoByte | gateway.py:91-107 | `read_line` returns `None` exactly when no byte arrived; a partial line is returned as a line |
| Transport.WriteLineBytes | gateway.py:66-68 | `write_line` succeeds exactly on ASCII text and sends its bytes followed by one LF |
| Transport.WrittenLineReadBack | gateway.py:66-111 | a line written by `write_line`, however it is followed, is returned unchanged by `read_line`, which leaves exactly the following events unread |
| Transport.TrimSpace | gateway.py:121 | the white space `int(p)` ignores around the port number: none is left at either end, and text without any is kept |
| Transport.PyInt | gateway.py:121 | `int()` accepts only text with something left after trimming |
| Transport.ParseEndpoint | gateway.py:114-130 | a port without the `tcp:` prefix names a serial port unchanged; a socket host never contains a colon |
| Transport.PyIntDecimal | gateway.py:121 | `int()` reads back every printed decimal number |
| Transport.EndpointSocketRoundTrip | gateway.py:115-121 | `tcp:host:port` and `tcp:port` parse to the given host (or `localhost`) and port |
| DeviceProtocol.ReadUntilPrefix | gateway.py:133-142 | the wait returns the first line that starts with an accepted prefix, after skipping only non-matching lines; otherwise it stops at the first timeout or at the end of input |
| DeviceProtocol.SkipNonMatching | gateway.py:137-141 | a line with no accepted prefix is skipped and costs exactly one more event |
| DeviceProtocol.ReadUntilPrefixRx | gateway.py:133-142 | the byte-level wait returns only a line with an accepted prefix and no LF |
| DeviceProtocol.BytesAgreeWithLines | gateway.py:77-142 | for one wait: on any byte stream, the byte-level wait built on `read_line` returns the same line as the line-level wait run over the lines and timeouts that `read_line` produces |
| DeviceProtocol.Session | gateway.py:213-236 | an operation opens the endpoint, flushes input, talks, then always closes it; if the endpoint cannot be opened it raises and does nothing |
| DeviceProtocol.DeployAnswer | gateway.py:220-234 | the deploy exchange consumes no more events than exist and neither opens nor closes the transport |
| DeviceProtocol.DeploySendsLoadLine | gateway.py:216-218 | deploy first sends `LOAD module_id=… size=… crc32=…`; a non-ASCII module id raises before anything is sent |
| DeviceProtocol.LoadLine | gateway.py:209-218 | the `LOAD` line is ASCII, so `write_line` can send it, exactly when the module id is: the size and checksum fields are digits |
| DeviceProtocol.DeployPayloadOnlyAfterReady | gateway.py:220-227 | the payload is sent exactly when the first answer is `LOAD_READY`, and what is sent is the file's bytes |
| DeviceProtocol.DeployReplies | gateway.py:220-234 | every reply after the `LOAD` line: a timeout at the first or second wait gives that wait's own message; a `LOAD_ERR` line at either wait is returned as the error, verbatim; otherwise the reply is success with the `LOAD_OK` line as its detail, which needs `LOAD_READY` first |
| DeviceProtocol.AwaitStartOk | gateway.py:257-275 | the start loop waits at least once, and a refusal is always an error reply |
| DeviceProtocol.StartAnswer | gateway.py:257-283 | the start exchange consumes no more events than exist and neither opens nor closes the transport |
| DeviceProtocol.StartLine | gateway.py:244-253 | the `START` line always begins with the module id and function; `args="…"` is appended exactly when args are non-empty |
| DeviceProtocol.StartErrorFails | gateway.py:265-266 | an `ERROR` line ends the start at once with that line as the error |
| DeviceProtocol.StartRejected | gateway.py:268-272 | a `RESULT` line that contains `status=NO_MODULE`, `status=BUSY` or `status=NO_FUNC` ends the start with that line as the error |
| DeviceProtocol.StartSkipsStaleResult | gateway.py:268-273 | any other `RESULT` line is skipped and the loop waits again |
| DeviceProtocol.StartWithoutResultWait | gateway.py:277-278 | without `wait_result`, an accepted start replies `START_OK` after only acknowledgement waits |
| DeviceProtocol.StartWaitsForResult | gateway.py:280-283 | with `wait_result`, the reply is the next `RESULT` line, or the result-timeout error if none arrives in time |
| DeviceProtocol.StopAnswer | gateway.py:296-310 | the stop exchange consumes no more events than exist and neither opens nor closes the transport |
| DeviceProtocol.StopLine | gateway.py:292-294 | the `STOP` line is ASCII exactly when the module id is |
| DeviceProtocol.StopOutcomes | gateway.py:296-310 | `RESULT`, `ERROR` or a non-pending `STOP_OK` is the reply after one wait; `STOP_OK status=PENDING` leads to a second wait whose `RESULT` (or timeout error) is the reply |
| DeviceProtocol.StatusAnswer | gateway.py:315-328 | status succeeds exactly when a `STATUS`, `ERROR` or `RESULT` line arrives before the timeout, and that line is the reply |
| DeviceProtocol.SessionBracketed | gateway.py:213-236 | every session's actions are empty or begin with one open and end with its only close |
| DeviceProtocol.SessionSends | gateway.py:213-236 | for any command line, a session opens and closes the transport once or not at all, raises with no traffic when the endpoint cannot be opened, and replies only after opening, flushing and sending the line |
| DeviceProtocol.Deploy | gateway.py:202-236 | the transport is opened and closed once or not at all; a missing file is answered with its error and no device traffic; an unopenable endpoint raises with none; any other reply comes after open, flush and the `LOAD` line |
| DeviceProtocol.Start | gateway.py:239-285 | the transport is opened and closed once or not at all; an unopenable endpoint raises with no traffic; any reply comes after open, flush and the `START` line |
| DeviceProtocol.Stop | gateway.py:288-312 | the transport is opened and closed once or not at all; an unopenable endpoint raises with no traffic; any reply comes after open, flush and the `STOP` line |
| DeviceProtocol.Status | gateway.py:315-328 | the transport is opened and closed once or not at all; an unopenable endpoint raises with no traffic; any reply comes after open, flush and `STATUS` |
| GatewayServer.Collect | gateway.py:369-379 | the request buffer is empty exactly when the first receive returns nothing |
| GatewayServer.CollectChunks | gateway.py:369-376 | the buffer is the concatenation of the first chunks received, and only the last of them may contain a newline |
| GatewayServer.Route | gateway.py:388-429 | a request is refused exactly when its device is unknown or its command is not one of the five; a dispatched call uses the device's configured endpoint |
| GatewayServer.Answer | gateway.py:431 | a reply is sent exactly when the operation returned one, and the operation's actions are kept |
| GatewayServer.UnknownDeviceOpensNothing | gateway.py:388-392 | an unknown or missing device is answered with the error and never touches a board |
| GatewayServer.UnknownCommandRefused | gateway.py:428-431 | an unknown command is answered with the error and never touches a board |
| GatewayServer.StartDefaults | gateway.py:403-411 | `start` takes empty args, no result wait and a 10 s result timeout when the request omits them, and the request's values otherwise |
| GatewayServer.StopAndBuildDefaults | gateway.py:412-427 | `stop` defaults to a 10 s result timeout and `build_and_deploy` to `wasm` mode |
| GatewayServer.MissingKeyNoReply | gateway.py:397-417 | a deploy, start or stop without `module_id` fails with the key error: no reply and no device traffic |
| GatewayServer.BuildAotOnlyInAotMode | gateway.py:353-359 | outside `aot` mode the AOT compiler's result never matters |
| GatewayServer.HandleClient | gateway.py:367-433 | the transport is opened and closed at most once, in that order; an empty request, a JSON value that is not an object, or a missing key gets no reply and no device traffic; undecodable bytes get `json non valido: <reason>`; a refused request gets its refusal; a routed call is answered exactly as `Perform` answers it |
| GatewayServer.StatusRequestServed | gateway.py:367-433 | a `status` request for a known device gets what `gw_status` replies on that device's endpoint, after the same traffic, and no reply when it raises |
| GatewayServer.DeployRequestServed | gateway.py:367-433 | a `deploy` request whose path is no file gets `file non trovato: <path>` with no traffic; otherwise the reply and traffic are those of `gw_deploy` on the file's bytes |
| GatewayServer.Perform | gateway.py:397-427 | each dispatched command, `build_and_deploy` included, brackets its device traffic; only `build_and_deploy` reports a `step` |
| GatewayServer.BuildAndDeploy | gateway.py:336-363 | a missing source or a failed compile is answered at once with no device traffic, so the board is contacted only after the needed compilers succeed; a successful reply carries step `deploy` |
| AgentParams.FindParamFrom | firmware/agent/src/main.c:241-253 | the search from a position returns the value start of the first `key=` at or after it, and `None` only when there is none |
| AgentParams.FindParam | firmware/agent/src/main.c:241-253 | `find_param` returns the position just past the first `key=` in the line, and `NULL` exactly when the line has none |
| AgentParams.FindParamFirst | firmware/agent/src/main.c:241-253 | when `key=` first occurs at `k`, the value starts just past that `key=` |
| AgentParams.FindParamInsideWord | firmware/agent/src/main.c:246-249 | the search does not check word boundaries: `size` is found inside `filesize=7` |
| AgentParams.ValueRun | firmware/agent/src/main.c:259-262 | the value runs up to the first space, CR, LF or NUL |
| AgentParams.ParamValue | firmware/agent/src/main.c:256-273 | the copied value is a prefix of the text, shorter than the destination, with no terminator character in it |
| AgentParams.CopyParamValue | firmware/agent/src/main.c:256-273 | the copy loop leaves in the destination a NUL-terminated string equal to the value, and writes nothing into a zero-size destination |
| AgentParams.ParamValueExact | firmware/agent/src/main.c:256-273 | a value that fits and is followed by a terminator is copied exactly |
| AgentParams.ArgsText | firmware/agent/src/main.c:466-479 | the quoted `args` text is shorter than its 64-byte buffer and contains no quote |
| AgentParams.Quoted | firmware/agent/src/main.c:471-479 | the text up to the closing quote is taken, cut to the buffer, exactly when a closing quote exists |
| AgentParams.Tokens | firmware/agent/src/main.c:480-488 | repeated `strtok(…, ",")` on commas yields only non-empty tokens without commas |
| AgentParams.TokensJoin | firmware/agent/src/main.c:480-488 | splitting comma-joined non-empty tokens gives those tokens back |
| AgentParams.EmptyTokensSkipped | firmware/agent/src/main.c:480-488 | a leading comma is skipped as an empty token |
| AgentParams.TokenValue | firmware/agent/src/main.c:482-486 | a token yields a value exactly when it contains `=`, and the value is a 32-bit word |
| AgentParams.Values | firmware/agent/src/main.c:480-488 | the argument values are 32-bit words, at most one per token |
| AgentParams.ValuesSkipPlain | firmware/agent/src/main.c:482-486 | tokens without `=` contribute no argument wherever they stand |
| AgentParams.Take | firmware/agent/src/main.c:481 | at most `MAX_CALL_ARGS` values are kept, in order |
| AgentParams.ParseArgs | firmware/agent/src/main.c:466-490 | `argv` has at most four 32-bit words, and is empty when the line has no quoted `args` |
| AgentRx.Enqueue | firmware/agent/src/main.c:39 | a line is appended while the four-slot queue has room and is dropped when it is full |
| AgentRx.Dequeue | firmware/agent/src/main.c:842-844 | the command thread takes the oldest queued line and leaves the rest of the queue, and the rest of the handler's state, as they were; an empty queue yields nothing |
| AgentRx.QueueFifo | firmware/agent/src/main.c:39 | the queue is first in, first out: a line queued behind others leaves after them, and queueing and taking the oldest line commute |
| AgentRx.FeedLine | firmware/agent/src/main.c:153-162 | line mode changes only the line and the queue; the queue gains at most the gathered line, and only on CR or LF, which always empties a non-empty line; as written, a CR or LF that finds the buffer empty is stored |
| AgentRx.FeedLineFixed | firmware/agent/src/main.c:153-162 | the corrected line mode changes only the line and the queue in the same way, and a line free of CR and LF stays free of them |
| AgentRx.FeedBinary | firmware/agent/src/main.c:163-173 | binary mode appends the byte while fewer than the announced bytes have come, returns to line mode exactly on the last one, drops bytes beyond, and changes nothing else |
| AgentRx.Feed | firmware/agent/src/main.c:138-176 | one interrupt byte keeps the handler's bounds (line buffer, queue slots, image size) and never shortens the queue |
| AgentRx.FeedAll | firmware/agent/src/main.c:138-176 | any byte stream keeps the handler's bounds |
| AgentRx.FeedAllAppend | firmware/agent/src/main.c:138-176 | feeding `a + b` is feeding `a` and then `b` |
| AgentRx.GatherLine | firmware/agent/src/main.c:156-162 | bytes with no CR or LF are appended to the line buffer, cut at 255, and nothing else changes |
| AgentRx.LineQueued | firmware/agent/src/main.c:153-162 | a non-empty line ended by CR or LF is queued (cut to 255 bytes) and the buffer starts empty again |
| AgentRx.BinaryStoresExactly | firmware/agent/src/main.c:163-173 | in binary mode exactly the expected bytes are stored and the handler returns to line mode |
| AgentRx.PayloadThenLine | firmware/agent/src/main.c:163-173 | after an armed payload the next line is queued as usual, and the image is exactly the payload |
| AgentRx.CrLfAsWritten | firmware/agent/src/main.c:153-162 | as written, CRLF-terminated lines `a` and `b` are queued as `a` and LF followed by `b` |
| AgentRx.CrLfFixed | firmware/agent/src/main.c:153-162 | with end-of-line bytes never stored, the same input queues `a` and `b` |
| AgentRx.FixedQueuesNoEol | firmware/agent/src/main.c:153-162 | with the correction, no queued line ever contains CR or LF |
| AgentRx.AgentReadLine | firmware/agent/src/main.c:830-853 | a line is returned exactly when the caller's buffer has room; it is the queued text up to its first NUL, cut to one less than the buffer size and whole when it fits |
| AgentRx.ReadLineWhole | firmware/agent/src/main.c:830-853 | with the command thread's 256-byte buffer, the whole queued line is returned, up to any NUL |
| AgentRx.CommandThreadReadsOldest | firmware/agent/src/main.c:656-660 | the command thread's read returns the oldest queued line, up to its first NUL, never cut |
| CommandThread.Serve | firmware/agent/src/main.c:655-661 | one turn of the loop blocks while the queue is empty and otherwise takes exactly the oldest line off the queue, leaving the rest of the receive state as it was |
| CommandThread.EmptyLineIgnored | firmware/agent/src/main.c:657-659 | skipping an empty read (`n <= 0`) does what the dispatcher would have done with an empty line: no reply and no change |
| CommandThread.ServesOldest | firmware/agent/src/main.c:655-661 | a queued line shorter than the line buffer is handed to `handle_command_line` whole, up to its first NUL, and leaves the queue |
| CommandThread.LfLedSecondUnknown | firmware/agent/src/main.c:655-661 | of two queued lines, the second starting with LF, the first is handled as queued and the second is answered `UNKNOWN_COMMAND`, leaving the queue empty |
| CommandThread.CrLfSecondLineUnknown | firmware/agent/src/main.c:153-162 | as the receive handler is written, two CR LF terminated commands make the command thread handle the first as sent and answer the second with `UNKNOWN_COMMAND` |
| Agent.Param | firmware/agent/src/main.c:441-449 | a field is read exactly when `key=` occurs, and its value fits the buffer with no space or NUL |
| Agent.ReadyLine | firmware/agent/src/main.c:343-346 | the line fits `out_buf` and always begins `LOAD_READY size=` |
| Agent.BadCrcLine | firmware/agent/src/main.c:361-365 | the line is 59 characters, so `out_buf` never cuts it, and its two hex fields read back as the expected and the computed checksum, modulo 2^32 |
| Agent.WamrErrorLine | firmware/agent/src/main.c:377-394 | the line fits `out_buf` and, for a short code, keeps `LOAD_ERR code=<code> msg="` whole |
| Agent.LoadHeaderOf | firmware/agent/src/main.c:288-314 | the header is refused exactly when `size` or `crc32` is missing or the size casts to 0; otherwise it carries the nonzero 32-bit size and the `strtoul` value of the crc32 text |
| Agent.LoadedId | firmware/agent/src/main.c:403-413 | the stored module id fits its 32-byte buffer |
| Agent.ReceiveModule | firmware/agent/src/main.c:349-417 | after allocation exactly one verdict is written; the module is installed, answering `LOAD_OK`, exactly when the payload arrives, matches its checksum and WAMR loads and instantiates it; otherwise the state is unchanged |
| Agent.HandleLoad | firmware/agent/src/main.c:281-418 | a refused header changes nothing and gets its `BAD_PARAMS` line; otherwise the old module is unloaded, `NO_MEM` or `LOAD_READY` follows, and the new module is loaded exactly when it installs; the runner's state is never touched |
| Agent.HandleStart | firmware/agent/src/main.c:427-520 | the state changes exactly when `START_OK` is answered, and that requires a loaded, idle module, the matching id and an exported function; the job posted is that function with the parsed `argv`; refusals follow the code's order: `NO_MODULE` without a module, `BAD_PARAMS` for a missing id, `NO_MODULE` for a different id, `BUSY`, `BAD_PARAMS` for a missing function, `NO_FUNC` for a function not exported |
| Agent.HandleStop | firmware/agent/src/main.c:525-548 | an idle runner answers `IDLE`; a busy runner answers `NO_JOB` to a missing or different id; the stop is pending exactly when the runner is busy and the id matches, and only then is the stop flag set |
| Agent.HandleStatus | firmware/agent/src/main.c:552-566 | status changes nothing; it reports `(loaded)` exactly when a module is loaded and `runner=RUNNING` exactly when a loaded module is busy |
| Agent.StatusLine | firmware/agent/src/main.c:552-566 | the line begins `STATUS_OK modules=`; it shows `(loaded)` exactly when a module is loaded and `runner=RUNNING` exactly when a loaded module is busy |
| Agent.FinishJob | firmware/agent/src/main.c:665-770 | the runner always clears busy and stop, and writes one `RESULT` line exactly when a module is loaded; in a valid state every line fits its buffer, the `NO_FUNC` and `NO_EXEC_ENV` lines the 96-byte one, so none is cut |
| Agent.ResultLine | firmware/agent/src/main.c:731-757 | every verdict starts with `RESULT status=`; an exception verdict is cut to the 192-byte buffer but keeps `EXCEPTION func=`; a call that returned reads `STOPPED func=<name>` after a stop request and `OK func=<name>` otherwise, ends in LF, and fits the 192-byte buffer whole for a name the job can hold |
| Agent.ExceptionVerdict | firmware/agent/src/main.c:724-738 | a trap outranks a stop request: the verdict is `EXCEPTION func=<f> msg="<text>"` with the exception text up to its NUL, or `<none>`; whole when it fits the 192-byte `out`, otherwise its first 191 characters |
| Agent.VoidVerdict | firmware/agent/src/main.c:742-756 | a function with no declared result, run without a stop request, is reported `RESULT status=OK func=<f>` with no `ret_i32` field |
| Agent.StripEol | firmware/agent/src/main.c:572-575 | at most one final character is removed |
| Agent.StripEolOnce | firmware/agent/src/main.c:572-575 | exactly one CR or LF is removed, so a CRLF ending leaves the CR |
| Agent.SplitCommand | firmware/agent/src/main.c:577-581 | a line with text after its leading spaces yields a non-empty command word without spaces; a blank line yields nothing |
| Agent.SplitCommandOf | firmware/agent/src/main.c:577-581 | leading spaces, the command and the rest after the first space are recovered exactly |
| Agent.Route | firmware/agent/src/main.c:583-593 | an unknown command answers `UNKNOWN_COMMAND` and changes nothing; only `LOAD` writes two lines; `STOP` and `STATUS` leave the loaded and busy flags alone |
| Agent.HandleCommandLine | firmware/agent/src/main.c:569-594 | the agent stays within its buffer bounds; it is silent exactly on a blank line, and a silent step changes nothing |
| Agent.LfLedLineUnknown | firmware/agent/src/main.c:569-594 | a line that begins with LF is answered `UNKNOWN_COMMAND` and changes nothing, whatever follows the LF |
| Agent.Dispatches | firmware/agent/src/main.c:569-594 | a padded command and rest reach that command's handler with that rest |
| Agent.DispatchesTerminated | firmware/agent/src/main.c:572-594 | the same holds when the line ends in LF |
| Agent.UnterminatedKept | firmware/agent/src/main.c:572-575 | a line not ending in CR or LF is kept whole |
| Agent.AcceptedJobRuns | firmware/agent/src/main.c:677-759 | a job accepted by `START` is always found by the runner: its verdict never reports `NO_FUNC` |
| Agent.StopTurnsIntoStopped | firmware/agent/src/main.c:525-548 | a matching `STOP` after an accepted `START` is pending, and a call that then returns is reported `STOPPED` |
| Agent.StatusFollowsJob | firmware/agent/src/main.c:552-566 | status shows the runner running after an accepted start and not after the job finishes |
| EndToEnd.LoadHeaderRead | firmware/agent/src/main.c:288-314 | the agent reads from the gateway's `LOAD` line exactly the file's size, the checksum text and its value, and the module id |
| EndToEnd.LoadRouted | firmware/agent/src/main.c:569-594 | the gateway's `LOAD` line reaches the load handler with its fields |
| EndToEnd.LoadInstalled | firmware/agent/src/main.c:281-418 | a well-formed header whose payload installs gives `LOAD_READY` and `LOAD_OK`, and the new module is current |
| EndToEnd.AgentLoads | firmware/agent/src/main.c:281-418 | for the gateway's `LOAD` line and its file, the agent answers `LOAD_READY` with the file's size and checksum, then `LOAD_OK`, and records the module id |
| EndToEnd.DeployHearsAgent | gateway.py:220-234 | hearing `LOAD_READY` and `LOAD_OK` from the agent, deploy replies with success |
| EndToEnd.DeploySucceeds | gateway.py:202-236 | when the agent installs the module, the gateway's deploy reports `LOAD_OK` |
| EndToEnd.EmptyFileRefused | firmware/agent/src/main.c:307-311 | an empty file is refused with `BAD_PARAMS size=0` on the board, and deploy returns that error without sending the payload |
| EndToEnd.DeployRefusedFirst | gateway.py:220-224 | a `LOAD_ERR` heard as the first answer is returned as the deploy's error after the first wait, with nothing sent and no second wait |
| EndToEnd.ReadyLineWhole | firmware/agent/src/main.c:343-346 | the `LOAD_READY` line fits its buffer, so it is never cut and ends in LF |
| EndToEnd.ValuesOfArgs | firmware/agent/src/main.c:480-488 | the `name=value` tokens yield their values in order |
| EndToEnd.ArgsTokens | firmware/agent/src/main.c:480-488 | comma-joined arguments split back into the same tokens, carry no quote, and are empty exactly when there are no arguments |
| EndToEnd.StartArgvRead | firmware/agent/src/main.c:466-490 | the agent's `argv` from the gateway's `START` line is the first four argument values |
| EndToEnd.StartRouted | firmware/agent/src/main.c:569-594 | the gateway's `START` line reaches the start handler with its fields |
| EndToEnd.StartPosted | firmware/agent/src/main.c:504-519 | a loaded, idle agent with the matching id and an exported function posts the job and answers `START_OK` |
| EndToEnd.AgentStarts | firmware/agent/src/main.c:427-520 | the gateway's `START` line makes a ready agent run the named function with the argument values, cut to four |
| EndToEnd.StartSucceeds | gateway.py:257-278 | hearing `START_OK`, start replies with success |
| EndToEnd.StartRefusalSkipped | gateway.py:257-275 | the agent's `BAD_PARAMS` refusals of `START` are not rejections to the gateway: it skips them and waits again |
| EndToEnd.StartRefusalTimesOut | gateway.py:257-275 | so a start that only hears such a refusal ends with the acknowledgement-timeout error |
| EndToEnd.RejectionText | gateway.py:268-272 | the agent's `NO_MODULE` refusals (no module, id mismatch), its `BUSY` refusal and its `NO_FUNC` refusal are heard as `RESULT` lines that `gw_start` counts as rejections |
| EndToEnd.StartRefusalRejected | gateway.py:257-272 | hearing one of those refusals first, the start ends at once with that line, less its LF, as the error |
| EndToEnd.AgentStartRefused | firmware/agent/src/main.c:427-501 | whatever the agent's state and the `START` line, a reply other than `START_OK` and the two `BAD_PARAMS` refusals ends the gateway's start at once, with the agent's reply as the error |
| EndToEnd.StartHearsResult | gateway.py:280-283 | with `wait_result`, the agent's `RESULT` line after `START_OK` is the reply, without its LF |
| EndToEnd.OkVerdict | firmware/agent/src/main.c:744-749 | a call returning an i32 is reported `OK` with the function name and the unsigned decimal result, in one unbroken line |
| EndToEnd.StopRouted | firmware/agent/src/main.c:569-594 | the gateway's `STOP` line reaches the stop handler, which reads the module id back |
| EndToEnd.AgentStops | firmware/agent/src/main.c:525-548 | the gateway's `STOP` line for a busy agent's module answers `PENDING` and sets the stop flag |
| EndToEnd.StopHearsStopped | gateway.py:296-310 | hearing `PENDING` and then the `STOPPED` verdict, stop replies with that verdict |
| EndToEnd.StopRoundTrip | gateway.py:288-312 | a stop of a running job leaves the agent idle and the gateway replies with the `STOPPED` verdict for that function |
| EndToEnd.RunnerStopped | firmware/agent/src/main.c:738-741 | a call that returns after a stop request is reported `STOPPED` and the runner goes idle |
| EndToEnd.AgentReportsStatus | firmware/agent/src/main.c:552-566 | `STATUS` answers the status line for the current flags and changes nothing |
| EndToEnd.StatusHeard | gateway.py:315-328 | the gateway's status reply is the agent's status line without its LF |

## Left out

- Socket accept, threads and `run_gateway`: the server loop only hands each connection to `handle_client`.
- JSON: `json.loads` and `json.dumps` are left out. The decoded request is an input (`Decoded`), and a reply is kept as a `Reply`, not as JSON text.
- `float()` and `bool()` on request fields are left out. `Request` holds the converted values.
- Clocks, serial reads and socket receives are left out. Reads and waits are sequences of events (a byte, an idle read, a close, a passed deadline), so timing is reduced to the point where a deadline passes.
- The console `print` calls are left out: no output other than the reply.
- `os.path.abspath`, `tempfile` and the external compilers of `gw_build_and_deploy` are left out. A compiler is an oracle that yields a module or nothing.
- `flush_input` is an action the gateway takes; what it discards on the device side is left out.
- Interrupt/thread concurrency on the agent (`serial_cb` running during a handler, `LOAD` while a job runs) is left out. Handlers are atomic steps.
- WAMR (load, instantiate, lookup, exec env, call, exceptions), `malloc` and the five-second semaphore wait are left out as code. They are oracles (`LoadEnv`, `RunEnv`).
- Zephyr's `msgq` blocking is left out. The queue is a sequence of at most four lines.
- the set-up part of `main` (UART and runtime start, GPIO for the natives, the `HELLO` banner), `iwasm_init`, the GPIO natives and the thread setup are left out: none of them takes part in the protocol. The command loop at the end of `main` is `CommandThread.Serve`.
- The checksum that `gw_deploy` sends comes from `binascii.crc32`. That is taken to be the same standard CRC-32 as `Crc32.Checksum`, which `Crc32.CheckValue` pins to the standard check value.
- Transport.TrimSpace: trims ASCII white space only (space, tab, LF, CR, VT, FF). Python's `int()` also skips Unicode white space, such as U+00A0 and U+2028.
- Transport.PyInt: accepts ASCII digits only. Python's `int()` also accepts non-ASCII decimal digits, such as Arabic-Indic or full-width ones. A port number written with them is refused by the model and accepted by Python.
- GatewayServer.Request: holds each field as present or absent, with a value of the type the gateway converts it to. A JSON `null` or a value of another type is outside the model. In Python, `"module_id": null` would send the text `None` as the id, and a null `result_timeout` makes `float()` raise `TypeError`, so the client gets no reply.
- AgentParams.FindParam: requires a non-empty key. Every call site passes a literal name.
- EndToEnd.StartArgvRead: holds for argument strings shorter than the 64-byte `args_buf` and values below 2^31. Longer strings are cut by `Quoted`, and larger values saturate in `atoi`.
- EndToEnd.AgentLoads: covers files shorter than 2^31 bytes. For a larger file the size the agent reads differs from the file's.
- Numerals.Atoi: C leaves `atoi` undefined when the value does not fit in an `int`. The model assumes the newlib/picolibc implementation on a 32-bit target, which is `(int)strtol(s, NULL, 10)` and saturates at `LONG_MIN`/`LONG_MAX`; another C library may behave differently on such input. The saturation mentioned for `EndToEnd.StartArgvRead` and `EndToEnd.AgentLoads` rests on this assumption.
- DeviceProtocol.BytesAgreeWithLines: is proved for a single wait. `gw_deploy`, `gw_start` and `gw_stop` chain two waits over one connection, and these are modelled on line events only. Chaining over bytes does not reduce to the line events: a read that ends on its deadline can still return a matching line, and the next wait then begins with a fresh deadline, while the line events would give it the first wait's `Timeout`.
- Agent.FinishJob: the snprintf truncation of an exception message to the 192-byte `out` buffer is modelled by `Formatted`. `Agent.ExceptionVerdict` states the full line and its cut. The `NO_FUNC`, `NO_EXEC_ENV` and returned-call lines are written without a cut. That matches `snprintf` because, in a state that satisfies `Agent.Valid` (a function name under the 64 bytes of `func_name`), each is proved to fit its buffer. For a state outside `Valid`, which the agent never reaches, the model does not cut these lines.
- Three behaviours of the gateway that are easy to miss, all modelled as the code has them:
  - `read_line` returns the partial line it holds when its deadline passes (gateway.py:77-112).
  - A request missing `module_id` (or another key read with `req[...]`) raises `KeyError`, and the client gets no reply (gateway.py:397-430).
  - An endpoint that cannot be opened raises, and the client gets no reply.
- `gw_start` treats a `RESULT` line as a rejection when it contains `status=NO_MODULE`, `status=BUSY` or `status=NO_FUNC` (gateway.py:268-272). The agent's `NO_MODULE`, `BUSY` and `NO_FUNC` refusals all qualify (`EndToEnd.AgentStartRefused`). Its own `RESULT status=BAD_PARAMS` refusals (missing `module_id` or `func`) do not. Their text mentions `module_id` but contains none of the three `status=` names, so the gateway skips them and waits until its acknowledgement timeout (`EndToEnd.StartRefusalSkipped`, `EndToEnd.StartRefusalTimesOut`). The gateway's own `START` line always carries both fields, so this only matters for lines from other clients. It is recorded here, not as a defect of the gateway.

## Findings

| source | as written | input that shows it | evidently intended | confidence | as-written member | corrected member |
|---|---|---|---|---|---|---|
| firmware/agent/src/main.c:153-162 | in line mode a CR or LF that finds the line buffer empty is stored as data | two CRLF-terminated lines `a\r\n b\r\n`: the LF after the first CR starts the second line, which is queued as LF followed by `b`; its command word is then not recognised and it is answered `UNKNOWN_COMMAND` (`CommandThread.CrLfSecondLineUnknown`) | end-of-line bytes are never stored, so each line is queued without CR or LF | not executed | AgentRx.CrLfAsWritten | AgentRx.CrLfFixed |

The gateway ends its lines with LF only, so it never meets this case; a client
that sends CRLF does. `AgentRx.Feed` takes the choice as a parameter.
`AgentRx.FixedQueuesNoEol` proves that, with the correction, no queued line
ever holds CR or LF.

=== FILE: agent.dfy ===
/** The agent's command interpreter (firmware/agent/src/main.c): the
    `LOAD`, `START`, `STOP` and `STATUS` handlers, the dispatcher
    `handle_command_line`, and the runner's completion step, as pure
    transitions over the agent's state.

    Every handler answers with the lines it writes through
    `agent_write_str`, each ending in LF. What the handlers learn from
    WAMR, from `malloc` and from the payload semaphore is passed in as an
    environment value; the runner's job is a separate transition, so the
    interleaving of the two threads is a choice of the order in which the
    transitions are applied. */
module Agent {
  import opened Common
  import opened Numerals
  import opened Crc32
  import opened AgentParams

  /** `g_current_module_id[32]` and every `module_id_buf[32]`. */
  const ModuleIdSize: nat := 32
  /** `func_name[64]`. */
  const FuncNameSize: nat := 64
  /** `size_str[16]` and `crc_str[16]`. */
  const NumberSize: nat := 16
  /** `out_buf[160]` of `handle_load_cmd`. */
  const LoadOutSize: nat := 160
  /** `error_buf[128]` that WAMR fills on a failed load or instantiation. */
  const ErrorBufSize: nat := 128
  /** `out[96]` of the `NO_FUNC` and `NO_EXEC_ENV` replies. */
  const ShortOutSize: nat := 96
  /** `out[192]` of the runner's `RESULT`. */
  const ResultOutSize: nat := 192

  /** `run_request_t`: the function to call and its arguments. */
  datatype RunRequest = RunRequest(func: string, argv: seq<nat>)

  /** The agent's globals: `g_module_loaded`, `g_current_module_id`, the
      exports of the instantiated module (what `lookup_function` can
      find), `g_runner_busy`, `g_stop_requested` and `g_run_req`. */
  datatype Agent = Agent(
    loaded: bool,
    moduleId: string,
    exports: set<string>,
    busy: bool,
    stopRequested: bool,
    run: RunRequest)

  /** The state at boot. */
  const Boot: Agent := Agent(false, "", {}, false, false, RunRequest("", []))

  /** The bounds the C buffers impose on the state. */
  predicate Valid(a: Agent) {
    && |a.moduleId| < ModuleIdSize && Nul !in a.moduleId
    && |a.run.func| < FuncNameSize && Nul !in a.run.func
    && |a.run.argv| <= MaxCallArgs
    && (forall i | 0 <= i < |a.run.argv| :: a.run.argv[i] < TwoTo32)
  }

  /** The state after a handler and the lines it wrote, in order. */
  datatype Step = Step(agent: Agent, replies: seq<string>)

  /** `snprintf(out, size, …)`: the formatted text, cut to `size - 1`
      characters when it does not fit. */
  function Formatted(s: string, size: nat): (r: string)
    requires size > 0
    ensures |r| < size && r <= s
    ensures |s| < size ==> r == s
  {
    s[..Min(|s|, size - 1)]
  }

  /** The value of `key=` in `line`, as `copy_param_value` copies it into a
      buffer of `size` characters; `None` when `find_param` finds no `key=`. */
  function Param(line: string, key: string, size: nat): (r: Option<string>)
    requires |key| > 0 && size > 0
    ensures r.None? <==> FindParam(line, key).None?
    ensures r.Some? ==> |r.value| < size && Nul !in r.value && ' ' !in r.value
    ensures r.Some? ==> forall i | 0 <= i < |r.value| :: !EndsValue(r.value[i])
  {
    match FindParam(line, key)
    case None => None
    case Some(p) =>
      var v := ParamValue(line[p..], size);
      assert forall i | 0 <= i < |v| :: v[i] != Nul && v[i] != ' ' by {
        forall i | 0 <= i < |v| ensures v[i] != Nul && v[i] != ' ' {
          assert !EndsValue(v[i]);
        }
      }
      Some(v)
  }

  // ------------------------------------------------------------------ LOAD

  /** What `handle_load_cmd` learns from outside the parser: whether
      `malloc(size)` succeeds, the payload bytes the receive handler has
      stored when the five-second wait on `bin_sem` ends, WAMR's error text
      for a failed `wasm_runtime_load` and `wasm_runtime_instantiate`
      (`None` when they succeed), and the functions the new instance
      exports. */
  datatype LoadEnv = LoadEnv(
    allocates: bool,
    received: seq<byte>,
    loadError: Option<string>,
    instantiateError: Option<string>,
    exports: set<string>)

  /** The checked numbers of a `LOAD` line, or the `BAD_PARAMS` reply. */
  datatype LoadHeader =
    | BadParams(reply: string)
    | Header(size: nat, crcText: string, expected: nat)

  const MissingSize: string := "LOAD_ERR code=BAD_PARAMS msg=\"missing size\"\n"
  const MissingCrc: string := "LOAD_ERR code=BAD_PARAMS msg=\"missing crc32\"\n"
  const ZeroSize: string := "LOAD_ERR code=BAD_PARAMS msg=\"size=0\"\n"
  const NoMem: string := "LOAD_ERR code=NO_MEM\n"
  const PayloadTimeout: string := "LOAD_ERR code=TIMEOUT msg=\"binary payload not received\"\n"
  const LoadOk: string := "LOAD_OK\n"

  /** The header checks of `handle_load_cmd`: `size=` then `crc32=` must be
      present, and `size`, read by `atoi` and cast to 32 bits, must not be
      zero; the checksum is read by `strtoul(.., 16)`. */
  function LoadHeaderOf(line: string): (h: LoadHeader)
    ensures h.BadParams? ==> h.reply in {MissingSize, MissingCrc, ZeroSize}
    ensures h.BadParams? <==>
      (|| FindParam(line, "size").None?
       || FindParam(line, "crc32").None?
       || ToUint32(Atoi(Param(line, "size", NumberSize).value)) == 0)
    ensures h.Header? ==>
      && 0 < h.size < TwoTo32 && h.expected < TwoTo32
      && Some(h.crcText) == Param(line, "crc32", NumberSize)
      && h.expected == StrToUlHex(h.crcText)
  {
    var sizeText := Param(line, "size", NumberSize);
    var crcText := Param(line, "crc32", NumberSize);
    if sizeText.None? then BadParams(MissingSize)
    else if crcText.None? then BadParams(MissingCrc)
    else
      var size := ToUint32(Atoi(sizeText.value));
      if size == 0 then BadParams(ZeroSize)
      else Header(size, crcText.value, StrToUlHex(crcText.value))
  }

  /** `LOAD_READY size=%lu crc32=%s`, echoing the checksum text as received. */
  function ReadyLine(size: nat, crcText: string): (r: string)
    ensures |r| < LoadOutSize
    ensures StartsWith(r, "LOAD_READY size=")
  {
    var head := "LOAD_READY size=";
    var rest := Decimal(size) + " crc32=" + crcText + "\n";
    assert "LOAD_READY size=" + Decimal(size) + " crc32=" + crcText + "\n" == head + rest;
    StartsWithAppend(head, rest);
    FormattedKeepsPrefix(head + rest, head, LoadOutSize);
    Formatted("LOAD_READY size=" + Decimal(size) + " crc32=" + crcText + "\n", LoadOutSize)
  }

  /** `LOAD_ERR code=BAD_CRC msg="expected=%08lx got=%08lx"`: 59 characters,
      so `out_buf` always holds it whole, and its two hex fields read back as
      the two checksums. */
  function BadCrcLine(expected: nat, got: nat): (r: string)
    ensures |r| == 59 && |r| < LoadOutSize
    ensures StartsWith(r, "LOAD_ERR code=BAD_CRC msg=\"expected=")
    ensures forall i | 36 <= i < 44 || 49 <= i < 57 :: IsHexDigit(r[i])
    ensures ValueOf(r[36..44], 16) == expected % TwoTo32
    ensures ValueOf(r[49..57], 16) == got % TwoTo32
  {
    var e := HexFixed(expected, 8);
    var g := HexFixed(got, 8);
    BadCrcFields(e, g);
    HexFixedValue(expected, 8);
    HexFixedValue(got, 8);
    Pow16Eight();
    "LOAD_ERR code=BAD_CRC msg=\"expected=" + HexFixed(expected, 8) + " got=" + HexFixed(got, 8) + "\"\n"
  }

  /** Where the two eight-digit fields sit in the `BAD_CRC` line. */
  lemma BadCrcFields(e: string, g: string)
    requires |e| == 8 && |g| == 8
    ensures var line := "LOAD_ERR code=BAD_CRC msg=\"expected=" + e + " got=" + g + "\"\n";
            && |line| == 59
            && StartsWith(line, "LOAD_ERR code=BAD_CRC msg=\"expected=")
            && line[36..44] == e && line[49..57] == g
  {
  }

  /** The text WAMR leaves in `error_buf`, printed with `%s`. */
  function ErrorText(e: string): (r: string)
    ensures |r| < ErrorBufSize && Nul !in r
  {
    Formatted(CString(e), ErrorBufSize)
  }

  /** `LOAD_ERR code=<code> msg="<error_buf>"`, cut to the 159 characters
      `out_buf` holds. */
  function WamrErrorLine(code: string, e: string): (r: string)
    ensures |r| < LoadOutSize
    ensures |code| < 64 ==> StartsWith(r, "LOAD_ERR code=" + code + " msg=\"")
  {
    var head := "LOAD_ERR code=" + code + " msg=\"";
    var rest := ErrorText(e) + "\"\n";
    assert "LOAD_ERR code=" + code + " msg=\"" + ErrorText(e) + "\"\n" == head + rest;
    StartsWithAppend(head, rest);
    assert |code| < 64 ==> StartsWith(Formatted(head + rest, LoadOutSize), head) by {
      if |code| < 64 {
        FormattedKeepsPrefix(head + rest, head, LoadOutSize);
      }
    }
    Formatted("LOAD_ERR code=" + code + " msg=\"" + ErrorText(e) + "\"\n", LoadOutSize)
  }

  /** The module id a successful `LOAD` records: the `module_id=` value cut
      to 31 characters, or the empty string when the line has none. */
  function LoadedId(line: string): (id: string)
    ensures |id| < ModuleIdSize && Nul !in id
  {
    match Param(line, "module_id", ModuleIdSize)
    case None => ""
    case Some(v) => v
  }

  /** The payload arrives in time, matches its checksum, and WAMR loads and
      instantiates it. */
  predicate Installs(size: nat, expected: nat, env: LoadEnv) {
    && |env.received| >= size
    && Checksum(env.received[..size]) as nat == expected
    && env.loadError.None? && env.instantiateError.None?
  }

  /** The part of `handle_load_cmd` after the buffer is allocated: the
      payload wait, the CRC check and the two WAMR steps. `a` is the state
      with the old module already unloaded. */
  function ReceiveModule(a: Agent, line: string, size: nat, expected: nat, env: LoadEnv): (s: Step)
    requires !a.loaded
    ensures |s.replies| == 1
    ensures s.agent.loaded <==> s.replies == [LoadOk]
    ensures !s.agent.loaded ==> s.agent == a
    ensures s.agent.loaded <==> Installs(size, expected, env)
  {
    if |env.received| < size then Step(a, [PayloadTimeout])
    else
      var got := Checksum(env.received[..size]) as nat;
      if got != expected then Step(a, [BadCrcLine(expected, got)])
      else if env.loadError.Some? then Step(a, [WamrErrorLine("LOAD_FAIL", env.loadError.value)])
      else if env.instantiateError.Some? then Step(a, [WamrErrorLine("INSTANTIATE_FAIL", env.instantiateError.value)])
      else Step(a.(loaded := true, moduleId := LoadedId(line), exports := env.exports), [LoadOk])
  }

  /** `handle_load_cmd`. A header that fails its checks changes nothing;
      past them the old module is unloaded first (its id stays), so any
      later failure leaves no module loaded. The runner's fields are never
      touched. */
  function HandleLoad(a: Agent, line: string, env: LoadEnv): (s: Step)
    ensures Valid(a) ==> Valid(s.agent)
    ensures 1 <= |s.replies| <= 2
    ensures s.agent.busy == a.busy && s.agent.stopRequested == a.stopRequested && s.agent.run == a.run
    ensures var h := LoadHeaderOf(line);
      && (h.BadParams? ==> s == Step(a, [h.reply]))
      && (h.Header? ==> LoadAnswers(a, line, h, env, s))
  {
    var h := LoadHeaderOf(line);
    match h
    case BadParams(reply) => Step(a, [reply])
    case Header(size, crcText, expected) =>
      var unloaded := a.(loaded := false);
      if !env.allocates then Step(unloaded, [NoMem])
      else
        var rest := ReceiveModule(unloaded, line, size, expected, env);
        Step(rest.agent, [ReadyLine(size, crcText)] + rest.replies)
  }

  /** The outcome of a `LOAD` whose header passed: the new module is
      installed exactly when the buffer is allocated and the payload
      installs, and then under the line's module id; otherwise nothing but
      the loaded flag changes. `LOAD_READY` precedes every verdict after
      the allocation, and the last line is `LOAD_OK` exactly on success. */
  predicate LoadAnswers(a: Agent, line: string, h: LoadHeader, env: LoadEnv, s: Step)
    requires h.Header?
  {
    && (s.agent.loaded <==> env.allocates && Installs(h.size, h.expected, env))
    && (s.agent.loaded ==>
          s.agent == a.(loaded := true, moduleId := LoadedId(line), exports := env.exports))
    && (!s.agent.loaded ==> s.agent == a.(loaded := false))
    && (!env.allocates ==> s.replies == [NoMem])
    && (env.allocates ==>
          && |s.replies| == 2 && s.replies[0] == ReadyLine(h.size, h.crcText)
          && (s.agent.loaded <==> s.replies[1] == LoadOk))
  }

  /** The last element of a non-empty sequence; the empty string otherwise. */
  function Last(s: seq<string>): string {
    if |s| == 0 then "" else s[|s| - 1]
  }

  // ----------------------------------------------------------------- START

  /** Every runner verdict and every `START` refusal begins so. */
  const ResultPrefix: string := "RESULT status="
  const NoModule: string := ResultPrefix + "NO_MODULE\n"
  const MissingModuleId: string := ResultPrefix + BadParamsMsg + "missing module_id\"\n"
  const IdMismatch: string := ResultPrefix + "NO_MODULE msg=\"module_id mismatch\"\n"
  const Busy: string := ResultPrefix + "BUSY\n"
  const MissingFunc: string := ResultPrefix + BadParamsMsg + "missing func\"\n"
  const BadParamsMsg: string := "BAD_PARAMS msg=\""
  const StartOk: string := "START_OK\n"

  /** `RESULT status=NO_FUNC name=%s`; a function name of at most 63
      characters always fits the 96-character buffer. */
  function NoFuncLine(func: string): (r: string)
    ensures |func| < FuncNameSize ==> |r| < ShortOutSize
  {
    ResultPrefix + ("NO_FUNC name=" + func + "\n")
  }

  /** `RESULT status=NO_EXEC_ENV func=%s`; like `NO_FUNC`, it always fits
      the 96-character buffer for a name the job can hold. */
  function NoExecEnvLine(func: string): (r: string)
    ensures |func| < FuncNameSize ==> |r| < ShortOutSize
  {
    ResultPrefix + ("NO_EXEC_ENV func=" + func + "\n")
  }

  /** `handle_start_cmd`: the checks in the order the handler makes them;
      only a request that passes all of them posts a job. */
  function HandleStart(a: Agent, line: string): (s: Step)
    ensures Valid(a) ==> Valid(s.agent)
    ensures |s.replies| == 1
    ensures s.replies[0] == StartOk <==> s.agent != a
    ensures s.agent != a ==>
      && a.loaded && !a.busy
      && Param(line, "module_id", ModuleIdSize) == Some(a.moduleId)
      && Param(line, "func", FuncNameSize).Some?
      && s.agent == a.(busy := true, stopRequested := false,
                       run := RunRequest(Param(line, "func", FuncNameSize).value, ParseArgs(line)))
      && s.agent.run.func in a.exports
    ensures !a.loaded ==> s == Step(a, [NoModule])
    ensures a.loaded && FindParam(line, "module_id").None? ==> s == Step(a, [MissingModuleId])
    ensures (a.loaded && Param(line, "module_id", ModuleIdSize).Some?
               && Param(line, "module_id", ModuleIdSize) != Some(a.moduleId))
              ==> s == Step(a, [IdMismatch])
    ensures (a.loaded && Param(line, "module_id", ModuleIdSize) == Some(a.moduleId) && a.busy)
              ==> s == Step(a, [Busy])
    ensures (a.loaded && Param(line, "module_id", ModuleIdSize) == Some(a.moduleId) && !a.busy
               && FindParam(line, "func").None?)
              ==> s == Step(a, [MissingFunc])
    ensures (a.loaded && Param(line, "module_id", ModuleIdSize) == Some(a.moduleId) && !a.busy
               && Param(line, "func", FuncNameSize).Some?
               && Param(line, "func", FuncNameSize).value !in a.exports)
              ==> s == Step(a, [NoFuncLine(Param(line, "func", FuncNameSize).value)])
  {
    if !a.loaded then Step(a, [NoModule])
    else
      match Param(line, "module_id", ModuleIdSize)
      case None => Step(a, [MissingModuleId])
      case Some(id) =>
        if id != a.moduleId then Step(a, [IdMismatch])
        else if a.busy then Step(a, [Busy])
        else
          match Param(line, "func", FuncNameSize)
          case None => Step(a, [MissingFunc])
          case Some(func) =>
            var argv := ParseArgs(line);
            if func !in a.exports then Step(a, [NoFuncLine(func)])
            else Step(a.(busy := true, stopRequested := false, run := RunRequest(func, argv)), [StartOk])
  }

  // ------------------------------------------------------------------ STOP

  const StopIdle: string := "STOP_OK status=IDLE\n"
  const StopNoJob: string := "STOP_OK status=NO_JOB\n"
  const StopPending: string := "STOP_OK status=PENDING\n"

  /** `handle_stop_cmd`: a stop request is recorded only for the running
      job of the current module; it never ends the job itself. */
  function HandleStop(a: Agent, line: string): (s: Step)
    ensures Valid(a) ==> Valid(s.agent)
    ensures |s.replies| == 1
    ensures !a.busy ==> s == Step(a, [StopIdle])
    ensures s.replies == [StopPending] <==>
      a.busy && Param(line, "module_id", ModuleIdSize) == Some(a.moduleId)
    ensures s.replies != [StopPending] ==> s.agent == a
    ensures s.replies == [StopPending] ==> s.agent == a.(stopRequested := true)
    ensures (a.busy && Param(line, "module_id", ModuleIdSize) != Some(a.moduleId))
              ==> s == Step(a, [StopNoJob])
  {
    if !a.busy then Step(a, [StopIdle])
    else
      match Param(line, "module_id", ModuleIdSize)
      case None => Step(a, [StopNoJob])
      case Some(id) =>
        if id != a.moduleId then Step(a, [StopNoJob])
        else Step(a.(stopRequested := true), [StopPending])
  }

  // ---------------------------------------------------------------- STATUS

  /** `handle_status_cmd`: the arguments are ignored and nothing changes. */
  function HandleStatus(a: Agent): (s: Step)
    ensures s.agent == a && |s.replies| == 1
    ensures StartsWith(s.replies[0], StatusHead)
    ensures Contains(s.replies[0], "runner=RUNNING") <==> a.loaded && a.busy
    ensures Contains(s.replies[0], "(loaded)") <==> a.loaded
  {
    Step(a, [StatusLine(a.loaded, a.busy)])
  }

  const StatusHead: string := "STATUS_OK modules="
  const ModulesNone: string := "\"none\""
  const ModulesLoaded: string := "\"wasm_module(loaded)\""
  const RunnerKey: string := " runner="

  /** `STATUS_OK modules="none" runner=IDLE` without a module, otherwise
      `STATUS_OK modules="wasm_module(loaded)" runner=RUNNING|IDLE`: the
      line names a loaded module exactly when there is one, and a running
      job exactly when a loaded module is busy. */
  function StatusLine(loaded: bool, busy: bool): (r: string)
    ensures StartsWith(r, StatusHead)
    ensures Contains(r, "runner=RUNNING") <==> loaded && busy
    ensures Contains(r, "(loaded)") <==> loaded
  {
    var modules := if loaded then ModulesLoaded else ModulesNone;
    var word := if loaded && busy then "RUNNING" else "IDLE";
    StatusShows(loaded, busy, modules, word);
    StatusHead + modules + RunnerKey + word + "\n"
  }

  lemma StatusShows(loaded: bool, busy: bool, modules: string, word: string)
    requires modules == (if loaded then ModulesLoaded else ModulesNone)
    requires word == (if loaded && busy then "RUNNING" else "IDLE")
    ensures var t := StatusHead + modules + RunnerKey + word + "\n";
            && StartsWith(t, StatusHead)
            && (Contains(t, "runner=RUNNING") <==> loaded && busy)
            && (Contains(t, "(loaded)") <==> loaded)
  {
    var tail := RunnerKey + word + "\n";
    assert StatusHead + modules + RunnerKey + word + "\n" == StatusHead + (modules + tail);
    StartsWithAppend(StatusHead, modules + tail);
    if loaded {
      ModulesShown(tail);
    } else {
      ModulesHidden(word);
    }
    if loaded && busy {
      RunningShown(modules);
    } else {
      RunningHidden(modules);
    }
  }

  lemma ModulesShown(tail: string)
    ensures Contains(StatusHead + (ModulesLoaded + tail), "(loaded)")
  {
    ContainsAt(ModulesLoaded, "(loaded)", 12);
    ContainsPrefix(ModulesLoaded, tail, "(loaded)");
    ContainsSuffix(StatusHead, ModulesLoaded + tail, "(loaded)");
  }

  lemma ModulesHidden(word: string)
    requires word == "IDLE"
    ensures !Contains(StatusHead + (ModulesNone + (RunnerKey + word + "\n")), "(loaded)")
  {
    assert '(' in "(loaded)";
    assert '(' !in StatusHead && '(' !in ModulesNone && '(' !in RunnerKey && '(' !in "IDLE\n";
    MissingChar(StatusHead + (ModulesNone + (RunnerKey + word + "\n")), "(loaded)", '(');
  }

  lemma RunningShown(modules: string)
    ensures Contains(StatusHead + modules + RunnerKey + "RUNNING" + "\n", "runner=RUNNING")
  {
    var tail := RunnerKey + "RUNNING" + "\n";
    ContainsAt(tail, "runner=RUNNING", 1);
    assert StatusHead + modules + RunnerKey + "RUNNING" + "\n" == (StatusHead + modules) + tail;
    ContainsSuffix(StatusHead + modules, tail, "runner=RUNNING");
  }

  lemma RunningHidden(modules: string)
    requires modules == ModulesLoaded || modules == ModulesNone
    ensures !Contains(StatusHead + modules + RunnerKey + "IDLE" + "\n", "runner=RUNNING")
  {
    assert 'G' in "runner=RUNNING";
    assert 'G' !in StatusHead && 'G' !in ModulesNone && 'G' !in ModulesLoaded;
    assert 'G' !in RunnerKey && 'G' !in "IDLE" && 'G' !in "\n";
    MissingChar(StatusHead + modules + RunnerKey + "IDLE" + "\n", "runner=RUNNING", 'G');
  }

  // ---------------------------------------------------------------- runner

  /** How WAMR's `wasm_runtime_call_wasm` ends: the call returns, with the
      function's declared result count and the first cell of `argv` (where
      an i32 result lands), or it traps, with the exception text if WAMR
      has one. */
  datatype CallOutcome =
    | Returned(resultCount: nat, ret: bv32)
    | Trapped(exception: Option<string>)

  /** What the runner learns from WAMR: whether the execution environment is
      created, and how the call ends. */
  datatype RunEnv = RunEnv(execEnv: bool, outcome: CallOutcome)

  /** The `RESULT` line of a call that was made: an exception (its text, or
      `<none>`, cut with the rest to the 191 characters `out` holds); else
      `STOPPED` if a stop was requested meanwhile; else `OK`, with the i32
      result when the function declares one. */
  function ResultLine(func: string, stopRequested: bool, outcome: CallOutcome): (r: string)
    ensures StartsWith(r, ResultPrefix)
    ensures outcome.Trapped? ==> StartsWith(r, ResultPrefix + "EXCEPTION func=") && |r| < ResultOutSize
    ensures outcome.Returned? && stopRequested ==> StartsWith(r, ResultPrefix + "STOPPED func=" + func)
    ensures outcome.Returned? && !stopRequested ==> StartsWith(r, ResultPrefix + "OK func=" + func)
    ensures outcome.Returned? ==> r[|r| - 1] == '\n'
    ensures outcome.Returned? && |func| < FuncNameSize ==> |r| < ResultOutSize
  {
    match outcome
    case Trapped(exc) => ExceptionLine(func, exc)
    case Returned(count, ret) => ReturnedLine(func, stopRequested, count, ret)
  }

  /** The `EXCEPTION` verdict, cut to what `out` holds. */
  function ExceptionLine(func: string, exc: Option<string>): (r: string)
    ensures StartsWith(r, ResultPrefix)
    ensures StartsWith(r, ResultPrefix + "EXCEPTION func=") && |r| < ResultOutSize
  {
    var msg := if exc.None? then "<none>" else CString(exc.value);
    var body := "EXCEPTION func=" + func + " msg=\"" + msg + "\"\n";
    var head := ResultPrefix + "EXCEPTION func=";
    ExceptionHead(body, func + " msg=\"" + msg + "\"\n");
    FormattedKeepsPrefix(ResultPrefix + body, head, ResultOutSize);
    FormattedKeepsPrefix(ResultPrefix + body, ResultPrefix, ResultOutSize);
    Formatted(ResultPrefix + body, ResultOutSize)
  }

  /** The verdict of a call that returned; it is never cut for a name the
      job can hold, since the result prints in at most ten digits. */
  function ReturnedLine(func: string, stopRequested: bool, count: nat, ret: bv32): (r: string)
    ensures StartsWith(r, ResultPrefix)
    ensures stopRequested ==> StartsWith(r, ResultPrefix + "STOPPED func=" + func)
    ensures !stopRequested ==> StartsWith(r, ResultPrefix + "OK func=" + func)
    ensures r[|r| - 1] == '\n'
    ensures |func| < FuncNameSize ==> |r| < ResultOutSize
  {
    var word := if stopRequested then "STOPPED func=" else "OK func=";
    var tail := if !stopRequested && count > 0 then " ret_i32=" + Decimal(ret as nat) + "\n" else "\n";
    DecimalOfWord(ret as nat);
    VerdictHead(word + func, tail);
    ResultPrefix + (word + func + tail)
  }

  lemma ExceptionHead(body: string, rest: string)
    requires body == "EXCEPTION func=" + rest
    ensures StartsWith(ResultPrefix + body, ResultPrefix)
    ensures StartsWith(ResultPrefix + body, ResultPrefix + "EXCEPTION func=")
  {
  }

  lemma VerdictHead(head: string, tail: string)
    requires |tail| > 0 && tail[|tail| - 1] == '\n'
    ensures StartsWith(ResultPrefix + (head + tail), ResultPrefix)
    ensures StartsWith(ResultPrefix + (head + tail), ResultPrefix + head)
    ensures (ResultPrefix + (head + tail))[|ResultPrefix + (head + tail)| - 1] == '\n'
  {
  }

  /** A trap outranks a stop request: the verdict is `EXCEPTION` with the
      exception text up to its NUL, or `<none>` when WAMR has none; the
      line is whole when `out` holds it and is otherwise cut to 191
      characters of it. */
  lemma ExceptionVerdict(func: string, stop: bool, exc: Option<string>)
    ensures var msg := if exc.None? then "<none>" else CString(exc.value);
            var full := ResultPrefix + ("EXCEPTION func=" + func + " msg=\"" + msg + "\"\n");
            var r := ResultLine(func, stop, Trapped(exc));
            && r <= full
            && (|full| < ResultOutSize ==> r == full)
            && (|full| >= ResultOutSize ==> |r| == ResultOutSize - 1)
  {
  }

  /** A function that declares no result, run without a stop request, is
      reported `OK` with no `ret_i32` field, whatever `argv[0]` holds. */
  lemma VoidVerdict(func: string, ret: bv32)
    ensures ResultLine(func, false, Returned(0, ret)) == ResultPrefix + "OK func=" + func + "\n"
  {
  }

  /** One pass of `runner_thread_entry` after `run_sem` is given: without a
      module nothing is written; otherwise exactly one `RESULT` line names
      the job's function. Either way the runner is idle afterwards and any
      stop request is cleared; nothing else changes. */
  function FinishJob(a: Agent, env: RunEnv): (s: Step)
    ensures s.agent == a.(busy := false, stopRequested := false)
    ensures Valid(a) ==> Valid(s.agent)
    ensures s.replies == [] <==> !a.loaded
    ensures |s.replies| <= 1
    ensures forall r | r in s.replies :: StartsWith(r, ResultPrefix)
    ensures Valid(a) ==> forall r | r in s.replies :: |r| < ResultOutSize
    ensures Valid(a) && a.loaded && (a.run.func !in a.exports || !env.execEnv) ==>
              |s.replies[0]| < ShortOutSize
  {
    var done := a.(busy := false, stopRequested := false);
    var f := a.run.func;
    if !a.loaded then Step(done, [])
    else if f !in a.exports then
      StartsWithAppend(ResultPrefix, "NO_FUNC name=" + f + "\n");
      Step(done, [NoFuncLine(f)])
    else if !env.execEnv then
      StartsWithAppend(ResultPrefix, "NO_EXEC_ENV func=" + f + "\n");
      Step(done, [NoExecEnvLine(f)])
    else
      Step(done, [ResultLine(f, a.stopRequested, env.outcome)])
  }

  /** Cutting a line to its buffer keeps any prefix that fits. */
  lemma FormattedKeepsPrefix(s: string, p: string, size: nat)
    requires size > 0 && StartsWith(s, p) && |p| < size
    ensures StartsWith(Formatted(s, size), p)
  {
    assert Formatted(s, size)[..|p|] == s[..|p|];
  }

  // ------------------------------------------------------------ dispatcher

  /** `handle_command_line` first removes one trailing LF or CR. */
  function StripEol(line: string): (r: string)
    ensures r <= line && |line| <= |r| + 1
  {
    if |line| > 0 && (line[|line| - 1] == '\n' || line[|line| - 1] == '\r') then line[..|line| - 1]
    else line
  }

  /** Only one terminator goes: of a CR LF pair the CR stays. */
  lemma StripEolOnce(t: string, eol: char)
    requires eol == '\n' || eol == '\r'
    ensures StripEol(t + [eol]) == t
    ensures StripEol(t + ['\r', '\n']) == t + ['\r']
  {
    assert (t + [eol])[..|t|] == t;
    assert (t + ['\r', '\n'])[..|t| + 1] == t + ['\r'];
  }

  /** A line of spaces only (or nothing). */
  predicate Blank(s: string) {
    forall i | 0 <= i < |s| :: s[i] == ' '
  }

  /** The number of spaces `strtok(line, " ")` skips. */
  function LeadingSpaces(s: string): (k: nat)
    ensures k <= |s|
    ensures forall i | 0 <= i < k :: s[i] == ' '
    ensures k < |s| ==> s[k] != ' '
  {
    if |s| == 0 || s[0] != ' ' then 0 else 1 + LeadingSpaces(s[1..])
  }

  /** `strtok(line, " ")` then `strtok(NULL, "")`: the first word, and
      everything after the space that ends it (the empty string when there
      is nothing, which is what the `rest ? rest : ""` of every call site
      makes of a NULL). `None` for a line of spaces only. */
  function SplitCommand(line: string): (r: Option<(string, string)>)
    ensures r.None? <==> Blank(line)
    ensures r.Some? ==> |r.value.0| > 0 && ' ' !in r.value.0
  {
    var k := LeadingSpaces(line);
    var s := line[k..];
    if |s| == 0 then None
    else
      match IndexOf(s, ' ')
      case None => Some((s, ""))
      case Some(e) =>
        assert s[0] != ' ';
        Some((s[..e], s[e + 1..]))
  }

  /** Leading spaces and the first word come apart again. */
  lemma SplitCommandOf(pad: string, cmd: string, rest: string)
    requires Blank(pad)
    requires |cmd| > 0 && ' ' !in cmd
    ensures SplitCommand(pad + cmd + " " + rest) == Some((cmd, rest))
    ensures SplitCommand(pad + cmd) == Some((cmd, ""))
  {
    var line := pad + cmd + " " + rest;
    assert line == pad + (cmd + " " + rest);
    LeadingSpacesPad(pad, cmd + " " + rest);
    assert line[|pad|..] == cmd + (" " + rest);
    IndexOfAfterFree(cmd, ' ', " " + rest);
    assert (cmd + (" " + rest))[..|cmd|] == cmd;
    assert (cmd + (" " + rest))[|cmd| + 1..] == rest;
    LeadingSpacesPad(pad, cmd);
    assert (pad + cmd)[|pad|..] == cmd;
  }

  lemma {:induction false} LeadingSpacesPad(pad: string, s: string)
    requires Blank(pad)
    requires |s| > 0 && s[0] != ' '
    ensures LeadingSpaces(pad + s) == |pad|
    decreases |pad|
  {
    if |pad| == 0 {
      assert pad + s == s;
    } else {
      assert (pad + s)[1..] == pad[1..] + s;
      LeadingSpacesPad(pad[1..], s);
    }
  }

  const UnknownCommand: string := "ERROR code=UNKNOWN_COMMAND\n"

  /** The handler a command word selects, given the rest of the line. */
  function Route(a: Agent, cmd: string, rest: string, env: LoadEnv): (s: Step)
    ensures Valid(a) ==> Valid(s.agent)
    ensures 1 <= |s.replies| <= 2
    ensures cmd !in {"LOAD", "START", "STOP", "STATUS"} ==> s == Step(a, [UnknownCommand])
    ensures cmd != "LOAD" ==> |s.replies| == 1
    ensures cmd in {"STOP", "STATUS"} ==> s.agent.loaded == a.loaded && s.agent.busy == a.busy
  {
    if cmd == "LOAD" then HandleLoad(a, rest, env)
    else if cmd == "START" then HandleStart(a, rest)
    else if cmd == "STOP" then HandleStop(a, rest)
    else if cmd == "STATUS" then HandleStatus(a)
    else Step(a, [UnknownCommand])
  }

  /** `handle_command_line` on a line delivered by `agent_read_line`: a
      line of spaces is ignored without a reply; anything else is answered
      by the handler its first word names, or refused. */
  function HandleCommandLine(a: Agent, line: string, env: LoadEnv): (s: Step)
    ensures Valid(a) ==> Valid(s.agent)
    ensures s.replies == [] <==> Blank(StripEol(line))
    ensures s.replies == [] ==> s.agent == a
    ensures |s.replies| <= 2
  {
    match SplitCommand(StripEol(line))
    case None => Step(a, [])
    case Some((cmd, rest)) => Route(a, cmd, rest, env)
  }

  /** A command line reaches the handler its first word names, with
      everything after the following space as the handler's argument text. */
  lemma Dispatches(a: Agent, pad: string, cmd: string, rest: string, env: LoadEnv)
    requires Blank(pad)
    requires |cmd| > 0 && ' ' !in cmd
    requires |rest| == 0 || (rest[|rest| - 1] != '\n' && rest[|rest| - 1] != '\r')
    ensures HandleCommandLine(a, pad + cmd + " " + rest, env) == Route(a, cmd, rest, env)
  {
    var line := pad + cmd + " " + rest;
    SplitCommandOf(pad, cmd, rest);
    UnterminatedKept(pad + cmd + " ", rest);
    RoutedBy(a, line, cmd, rest, env);
  }

  /** The same line with its LF still attached is routed alike. */
  lemma DispatchesTerminated(a: Agent, pad: string, cmd: string, rest: string, env: LoadEnv)
    requires Blank(pad)
    requires |cmd| > 0 && ' ' !in cmd
    ensures HandleCommandLine(a, pad + cmd + " " + rest + "\n", env) == Route(a, cmd, rest, env)
  {
    var line := pad + cmd + " " + rest;
    SplitCommandOf(pad, cmd, rest);
    StripEolOnce(line, '\n');
    RoutedBy(a, line + "\n", cmd, rest, env);
  }

  /** A line ending in neither LF nor CR is left as it is. */
  lemma UnterminatedKept(head: string, rest: string)
    requires |head| > 0 && head[|head| - 1] == ' '
    requires |rest| == 0 || (rest[|rest| - 1] != '\n' && rest[|rest| - 1] != '\r')
    ensures StripEol(head + rest) == head + rest
  {
    if |rest| == 0 {
      assert head + rest == head;
    } else {
      assert (head + rest)[|head + rest| - 1] == rest[|rest| - 1];
    }
  }

  /** `handle_command_line` hands a split line to `Route`. */
  lemma RoutedBy(a: Agent, line: string, cmd: string, rest: string, env: LoadEnv)
    requires SplitCommand(StripEol(line)) == Some((cmd, rest))
    ensures HandleCommandLine(a, line, env) == Route(a, cmd, rest, env)
  {
  }

  /** A line that begins with a LF names no command: its first word starts
      with that LF, so the line is answered `UNKNOWN_COMMAND` and nothing
      changes. Such a line is what the receive handler queues, as written,
      after the CR of a CR LF pair. */
  lemma LfLedLineUnknown(a: Agent, line: string, env: LoadEnv)
    requires |line| >= 2 && line[0] == '\n'
    ensures HandleCommandLine(a, line, env) == Step(a, [UnknownCommand])
  {
    var s := StripEol(line);
    assert s[0] == line[0];
    assert !Blank(s) by { assert s[0] != ' '; }
    assert LeadingSpaces(s) == 0;
    assert s[0..] == s;
    var cmd := SplitCommand(s).value.0;
    assert cmd[0] == '\n';
    assert cmd != "LOAD" && cmd != "START" && cmd != "STOP" && cmd != "STATUS" by {
      assert "LOAD"[0] != '\n' && "START"[0] != '\n' && "STOP"[0] != '\n' && "STATUS"[0] != '\n';
    }
  }

  // ------------------------------------------------------------- lifecycle

  /** A job `START` accepts is found again by the runner: its result is
      never `NO_FUNC`, and it names the function `START` was given. */
  lemma AcceptedJobRuns(a: Agent, line: string, env: RunEnv)
    requires HandleStart(a, line).replies == [StartOk]
    ensures var started := HandleStart(a, line).agent;
            var f := Param(line, "func", FuncNameSize).value;
            && started.busy
            && FinishJob(started, env).replies ==
                 [if env.execEnv then ResultLine(f, false, env.outcome)
                  else NoExecEnvLine(f)]
  {
  }

  /** `STOP` for the running job, before the job's call returns, turns its
      verdict into `STOPPED`; the runner is idle afterwards. */
  lemma StopTurnsIntoStopped(a: Agent, line: string, stopLine: string, count: nat, ret: bv32)
    requires HandleStart(a, line).replies == [StartOk]
    requires Param(stopLine, "module_id", ModuleIdSize) == Some(a.moduleId)
    ensures var started := HandleStart(a, line).agent;
            var stopped := HandleStop(started, stopLine);
            var f := Param(line, "func", FuncNameSize).value;
            && stopped.replies == [StopPending]
            && FinishJob(stopped.agent, RunEnv(true, Returned(count, ret))) ==
                 Step(started.(busy := false, stopRequested := false),
                      [ResultPrefix + ("STOPPED func=" + f + "\n")])
  {
    var started := HandleStart(a, line).agent;
    assert started.busy && started.moduleId == a.moduleId;
  }

  /** `STATUS` reports a job as running from its `START_OK` until the
      runner's verdict. */
  lemma StatusFollowsJob(a: Agent, line: string, env: RunEnv)
    requires HandleStart(a, line).replies == [StartOk]
    ensures var started := HandleStart(a, line).agent;
            && Contains(HandleStatus(started).replies[0], "runner=RUNNING")
            && !Contains(HandleStatus(FinishJob(started, env).agent).replies[0], "runner=RUNNING")
  {
  }
}

=== FILE: agent_params.dfy ===
/** The agent's `key=value` helpers (`find_param`, `copy_param_value`) and
    the `args="…"` tokenizer of `handle_start_cmd`, in
    firmware/agent/src/main.c.

    A C string is modelled by its characters before the terminating NUL;
    reading past the end of such a string finds the NUL.
 */
module AgentParams {
  import opened Common
  import opened Numerals

  const Nul: char := '\0'
  const MaxCallArgs: nat := 4
  /** `char args_buf[64]`. */
  const ArgsBufSize: nat := 64

  /** The C string a buffer holds: its characters before the first NUL. */
  function CString(s: string): (r: string)
    ensures |r| <= |s| && r == s[..|r|] && Nul !in r
    ensures |r| < |s| ==> s[|r|] == Nul
  {
    match IndexOf(s, Nul)
    case None => s
    case Some(k) => s[..k]
  }

  // ------------------------------------------------------------ find_param

  /** `key` occurs at `k` and is immediately followed by `=`. */
  predicate ParamAt(line: string, key: string, k: nat) {
    k + |key| < |line| && line[k..k + |key|] == key && line[k + |key|] == '='
  }

  /** The search of `find_param` from position `from` on: each occurrence
      of `key` is checked for a following `=`; the first that has one wins. */
  function FindParamFrom(line: string, key: string, from: nat): (r: Option<nat>)
    requires |key| > 0
    ensures r.Some? ==>
      && from + |key| + 1 <= r.value
      && ParamAt(line, key, r.value - |key| - 1)
      && forall k | from <= k < r.value - |key| - 1 :: !ParamAt(line, key, k)
    ensures r.None? ==> forall k | from <= k :: !ParamAt(line, key, k)
    decreases |line| - from
  {
    if from + |key| >= |line| then None
    else if line[from..from + |key|] == key && line[from + |key|] == '=' then Some(from + |key| + 1)
    else FindParamFrom(line, key, from + 1)
  }

  /** `find_param(line, key)`: the position just after the first `key=` in
      `line`, or `None` (the NULL pointer). The match is on substrings, so the
      key may end a longer word. Every call site passes a non-empty literal
      key; with an empty one the C loop would step past the terminator. */
  function FindParam(line: string, key: string): (r: Option<nat>)
    requires |key| > 0
    ensures r.Some? ==>
      && |key| + 1 <= r.value <= |line|
      && ParamAt(line, key, r.value - |key| - 1)
      && forall k | 0 <= k < r.value - |key| - 1 :: !ParamAt(line, key, k)
    ensures r.None? <==> forall k :: !ParamAt(line, key, k)
  {
    FindParamFrom(line, key, 0)
  }

  /** The first `key=` is what `find_param` finds. */
  lemma FindParamFirst(line: string, key: string, k: nat)
    requires |key| > 0 && ParamAt(line, key, k)
    requires forall j | 0 <= j < k :: !ParamAt(line, key, j)
    ensures FindParam(line, key) == Some(k + |key| + 1)
  {
  }

  /** The match is on substrings: `size` is found at the end of `filesize`. */
  lemma FindParamInsideWord()
    ensures FindParam("filesize=7", "size") == Some(9)
  {
    FindParamFirst("filesize=7", "size", 4);
  }

  // ------------------------------------------------------ copy_param_value

  /** The characters that end a parameter value. */
  predicate EndsValue(c: char) {
    c == Nul || c == ' ' || c == '\r' || c == '\n'
  }

  /** Length of the value at the front of `s`: up to the first delimiter. */
  function ValueRun(s: string): (k: nat)
    ensures k <= |s|
    ensures forall i | 0 <= i < k :: !EndsValue(s[i])
    ensures k < |s| ==> EndsValue(s[k])
  {
    if |s| == 0 || EndsValue(s[0]) then 0 else 1 + ValueRun(s[1..])
  }

  /** The C string `copy_param_value(start, dst, dst_len)` leaves in `dst`
      (for `dst_len > 0`): the value at `start`, cut to `dst_len - 1`
      characters. */
  function ParamValue(start: string, dstLen: nat): (v: string)
    requires dstLen > 0
    ensures |v| < dstLen && |v| <= |start| && v == start[..|v|]
    ensures forall i | 0 <= i < |v| :: !EndsValue(v[i])
  {
    start[..Min(ValueRun(start), dstLen - 1)]
  }

  /** `copy_param_value` over a destination buffer `dst` (its length is
      `dst_len`, its contents whatever they were): characters are copied
      while there is room for them and a terminator, then the terminator is
      written, at the end of the value or at the last slot. With
      `dst_len == 0` nothing is written. */
  method CopyParamValue(start: string, dst: seq<char>) returns (out: seq<char>)
    ensures |out| == |dst|
    ensures |dst| == 0 ==> out == dst
    ensures |dst| > 0 ==> CString(out) == ParamValue(start, |dst|)
  {
    out := dst;
    var i := 0;
    while i < |start| && !EndsValue(start[i])
      invariant i <= ValueRun(start)
      invariant |out| == |dst|
      invariant forall j | 0 <= j < i && j + 1 < |dst| :: out[j] == start[j]
    {
      if i + 1 < |dst| {
        out := out[i := start[i]];
      }
      i := i + 1;
    }
    if |dst| > 0 {
      var end := if i < |dst| then i else |dst| - 1;
      out := out[end := Nul];
      assert end == Min(ValueRun(start), |dst| - 1);
      TerminatedPrefix(out, start, end);
    }
  }

  /** A buffer whose first `n` characters are NUL-free and whose `n`th is
      NUL holds the C string of those `n` characters. */
  lemma TerminatedPrefix(out: seq<char>, start: string, n: nat)
    requires n < |out| && n <= |start| && out[n] == Nul
    requires forall j | 0 <= j < n :: out[j] == start[j] && !EndsValue(start[j])
    ensures CString(out) == start[..n]
  {
    assert Nul !in out[..n];
    var k := IndexOf(out, Nul).value;
    assert k == n;
  }

  /** A value written as `key=value` followed by a delimiter, or by the end
      of the line, is read back whole when it fits the buffer. */
  lemma ParamValueExact(v: string, rest: string, dstLen: nat)
    requires forall i | 0 <= i < |v| :: !EndsValue(v[i])
    requires |v| < dstLen
    requires |rest| == 0 || EndsValue(rest[0])
    ensures ParamValue(v + rest, dstLen) == v
  {
    ValueRunPrefix(v, rest);
    assert (v + rest)[..|v|] == v;
  }

  lemma {:induction false} ValueRunPrefix(v: string, rest: string)
    requires forall i | 0 <= i < |v| :: !EndsValue(v[i])
    requires |rest| == 0 || EndsValue(rest[0])
    ensures ValueRun(v + rest) == |v|
    decreases |v|
  {
    if |v| == 0 {
      assert v + rest == rest;
    } else {
      assert (v + rest)[1..] == v[1..] + rest;
      ValueRunPrefix(v[1..], rest);
    }
  }

  // ------------------------------------------------------ the args tokenizer

  /** The text between the quotes of `args="…"`, cut to the 63 characters
      `args_buf` can hold; `None` when `args=` is absent, is not followed by
      a quote, or the closing quote is missing. */
  function ArgsText(line: string): (r: Option<string>)
    ensures r.Some? ==> |r.value| < ArgsBufSize && '"' !in r.value
  {
    var p := FindParam(line, "args");
    if p.None? || p.value >= |line| || line[p.value] != '"' then None
    else Quoted(line[p.value + 1..])
  }

  /** The text before the closing quote, cut to what `args_buf` holds. */
  function Quoted(body: string): (r: Option<string>)
    ensures r.None? <==> '"' !in body
    ensures r.Some? ==> |r.value| < ArgsBufSize && '"' !in r.value
  {
    match IndexOf(body, '"')
    case None => None
    case Some(e) =>
      var text := body[..e];
      CutFree(text, '"', Min(e, ArgsBufSize - 1));
      Some(text[..Min(e, ArgsBufSize - 1)])
  }

  /** A cut of a text free of `c` is free of it too. */
  lemma CutFree(s: string, c: char, n: nat)
    requires c !in s && n <= |s|
    ensures c !in s[..n]
  {
    assert forall x | x in s[..n] :: x in s;
  }

  /** `strtok(s, ",")` repeated: the maximal runs of characters other than
      the delimiter, in order; empty runs produce no token. */
  function Tokens(s: string, d: char): (r: seq<string>)
    ensures forall i | 0 <= i < |r| :: |r[i]| > 0 && d !in r[i]
    decreases |s|
  {
    if |s| == 0 then []
    else if s[0] == d then Tokens(s[1..], d)
    else match IndexOf(s, d)
      case None => [s]
      case Some(k) => [s[..k]] + Tokens(s[k..], d)
  }

  /** The tokens joined with the delimiter: the inverse of `Tokens`. */
  function Join(ts: seq<string>, d: char): string
    decreases |ts|
  {
    if |ts| == 0 then "" else if |ts| == 1 then ts[0] else ts[0] + [d] + Join(ts[1..], d)
  }

  /** Splitting what was joined gives the tokens back, when each is
      non-empty and free of the delimiter. */
  lemma {:induction false} TokensJoin(ts: seq<string>, d: char)
    requires forall i | 0 <= i < |ts| :: |ts[i]| > 0 && d !in ts[i]
    ensures Tokens(Join(ts, d), d) == ts
    decreases |ts|
  {
    if |ts| == 1 {
      assert IndexOf(ts[0], d).None?;
    } else if |ts| > 1 {
      var t := ts[0];
      var rest := Join(ts[1..], d);
      var s := t + ([d] + rest);
      assert Join(ts, d) == s;
      IndexOfAfterFree(t, d, [d] + rest);
      assert s[0] == t[0];
      assert s[..|t|] == t;
      assert s[|t|..] == [d] + rest;
      assert ([d] + rest)[1..] == rest;
      TokensJoin(ts[1..], d);
    }
  }

  /** Empty runs between delimiters produce no token. */
  lemma EmptyTokensSkipped(s: string, d: char)
    ensures Tokens([d] + s, d) == Tokens(s, d)
  {
    assert ([d] + s)[1..] == s;
  }

  /** The value a token contributes: `atoi` of what follows its first `=`,
      cast to `uint32_t`; a token without `=` contributes nothing. */
  function TokenValue(t: string): (r: Option<nat>)
    ensures r.Some? <==> '=' in t
    ensures r.Some? ==> r.value < TwoTo32
  {
    match IndexOf(t, '=')
    case None => None
    case Some(e) => Some(ToUint32(Atoi(t[e + 1..])))
  }

  function Values(ts: seq<string>): (r: seq<nat>)
    ensures |r| <= |ts|
    ensures forall i | 0 <= i < |r| :: r[i] < TwoTo32
    decreases |ts|
  {
    if |ts| == 0 then []
    else
      var rest := Values(ts[1..]);
      match TokenValue(ts[0])
      case None => rest
      case Some(v) => [v] + rest
  }

  /** Tokens without `=` leave no trace, wherever they stand. */
  lemma {:induction false} ValuesSkipPlain(a: seq<string>, b: seq<string>)
    requires forall i | 0 <= i < |b| :: '=' !in b[i]
    ensures Values(a + b) == Values(a)
    ensures Values(b + a) == Values(a)
  {
    ValuesAppendPlain(a, b);
    ValuesPrependPlain(b, a);
  }

  lemma {:induction false} ValuesAppendPlain(a: seq<string>, b: seq<string>)
    requires forall i | 0 <= i < |b| :: '=' !in b[i]
    ensures Values(a + b) == Values(a)
    decreases |a|
  {
    if |a| == 0 {
      assert a + b == b;
      ValuesPrependPlain(b, []);
      assert b + [] == b;
    } else {
      assert (a + b)[1..] == a[1..] + b;
      assert (a + b)[0] == a[0];
      ValuesAppendPlain(a[1..], b);
    }
  }

  lemma {:induction false} ValuesPrependPlain(b: seq<string>, a: seq<string>)
    requires forall i | 0 <= i < |b| :: '=' !in b[i]
    ensures Values(b + a) == Values(a)
    decreases |b|
  {
    if |b| == 0 {
      assert b + a == a;
    } else {
      assert (b + a)[1..] == b[1..] + a;
      assert (b + a)[0] == b[0];
      ValuesPrependPlain(b[1..], a);
    }
  }

  /** The first `n` elements (`while (tok && argc < MAX_CALL_ARGS)`). */
  function Take(v: seq<nat>, n: nat): (r: seq<nat>)
    ensures |r| == Min(|v|, n)
    ensures forall i | 0 <= i < |r| :: r[i] == v[i]
  {
    if |v| <= n then v else v[..n]
  }

  /** The argument vector of a `START` line: the values of its `args`
      tokens, the first `MAX_CALL_ARGS` of them; none without a well-formed
      `args="…"`. */
  function ParseArgs(line: string): (argv: seq<nat>)
    ensures |argv| <= MaxCallArgs
    ensures forall i | 0 <= i < |argv| :: argv[i] < TwoTo32
    ensures ArgsText(line).None? ==> argv == []
  {
    match ArgsText(line)
    case None => []
    case Some(text) =>
      var v := Values(Tokens(text, ','));
      Take(v, MaxCallArgs)
  }
}

=== FILE: agent_rx.dfy ===
/** The agent's receive path (firmware/agent/src/main.c): the UART
    interrupt handler `serial_cb`, fed one byte at a time, and
    `agent_read_line`, which hands the command thread one queued line.

    In line mode the handler gathers characters into `rx_buf` and posts
    the line to a four-slot queue at CR or LF; in binary mode (set up by
    `LOAD`) it stores exactly the announced number of payload bytes and
    then returns to line mode.
 */
module AgentRx {
  import opened Common
  import opened AgentParams

  /** `LINE_BUF_SIZE`: the line buffer, and each queue slot. */
  const LineBufSize: nat := 256
  /** The queue holds up to four lines (`K_MSGQ_DEFINE(uart_msgq, LINE_BUF_SIZE, 4, 4)`). */
  const QueueCapacity: nat := 4

  const LfByte: byte := 0x0A
  const CrByte: byte := 0x0D

  predicate IsEol(c: byte) {
    c == LfByte || c == CrByte
  }

  datatype Mode = LineMode | BinaryMode

  /** The handler's state: its mode, the line gathered so far (`rx_buf` up
      to `rx_buf_pos`), the payload stored so far and its announced size
      (`g_bin_buf`, `g_bin_received`, `g_bin_expected`), and the lines
      waiting in the queue, oldest first. */
  datatype Rx = Rx(mode: Mode, line: seq<byte>, image: seq<byte>, expected: nat, queue: seq<seq<byte>>)

  /** The state after reset: line mode, nothing gathered, nothing queued. */
  const Idle: Rx := Rx(LineMode, [], [], 0, [])

  /** `k_msgq_put(.., K_NO_WAIT)`: a line that finds the queue full is lost. */
  function Enqueue(q: seq<seq<byte>>, m: seq<byte>): (r: seq<seq<byte>>)
    ensures |q| < QueueCapacity ==> r == q + [m]
    ensures |q| >= QueueCapacity ==> r == q
  {
    if |q| < QueueCapacity then q + [m] else q
  }

  /** `k_msgq_get(.., K_FOREVER)` in `agent_read_line`: the oldest queued
      line leaves the queue and nothing else changes. On an empty queue the
      call blocks until the handler queues a line; that is `None` here. */
  function Dequeue(rx: Rx): (r: Option<(seq<byte>, Rx)>)
    ensures r.None? <==> rx.queue == []
    ensures r.Some? ==> [r.value.0] + r.value.1.queue == rx.queue
    ensures r.Some? ==> r.value.1 == rx.(queue := r.value.1.queue)
  {
    if rx.queue == [] then None
    else Some((rx.queue[0], rx.(queue := rx.queue[1..])))
  }

  /** The queue is first in, first out: a line queued behind others does
      not overtake them, and taking the oldest line first gives the same
      state as taking it after the new one was queued. */
  lemma {:induction false} QueueFifo(rx: Rx, m: seq<byte>)
    requires rx.queue != [] && |rx.queue| < QueueCapacity
    ensures var d := Dequeue(rx.(queue := Enqueue(rx.queue, m))).value;
            && d.0 == rx.queue[0]
            && d.1 == Dequeue(rx).value.1.(queue := Enqueue(Dequeue(rx).value.1.queue, m))
  {
    var q := rx.queue;
    assert (q + [m])[0] == q[0];
    assert (q + [m])[1..] == q[1..] + [m];
  }

  /** What the handler keeps true between bytes. */
  predicate Valid(rx: Rx) {
    && |rx.line| < LineBufSize
    && |rx.queue| <= QueueCapacity
    && (forall i | 0 <= i < |rx.queue| :: 0 < |rx.queue[i]| < LineBufSize)
    && |rx.image| <= rx.expected
    && (rx.mode == BinaryMode ==> |rx.image| < rx.expected)
  }

  /** Line mode of the handler as written: CR or LF ends a non-empty line;
      any other byte, and a CR or LF that finds the buffer empty, is stored
      while there is room. */
  function FeedLine(rx: Rx, c: byte): (r: Rx)
    requires rx.mode == LineMode
    ensures r.mode == LineMode && r.image == rx.image && r.expected == rx.expected
    ensures r.queue == rx.queue || (r.queue == rx.queue + [rx.line] && r.line == [])
    ensures r.queue != rx.queue ==> IsEol(c)
    ensures IsEol(c) && rx.line != [] ==> r.line == []
    ensures IsEol(c) && rx.line == [] ==> r.line == [c] && r.queue == rx.queue
  {
    if IsEol(c) && |rx.line| > 0 then rx.(line := [], queue := Enqueue(rx.queue, rx.line))
    else if |rx.line| < LineBufSize - 1 then rx.(line := rx.line + [c])
    else rx
  }

  /** Line mode as evidently intended: CR and LF are never stored, so an
      empty line (the LF of a CR LF pair included) is simply skipped. */
  function FeedLineFixed(rx: Rx, c: byte): (r: Rx)
    requires rx.mode == LineMode
    ensures r.mode == LineMode && r.image == rx.image && r.expected == rx.expected
    ensures r.queue == rx.queue || (r.queue == rx.queue + [rx.line] && r.line == [])
    ensures r.queue != rx.queue ==> IsEol(c)
    ensures IsEol(c) && rx.line != [] ==> r.line == []
    ensures (forall i | 0 <= i < |rx.line| :: !IsEol(rx.line[i])) ==>
              forall i | 0 <= i < |r.line| :: !IsEol(r.line[i])
  {
    if IsEol(c) then
      if |rx.line| > 0 then rx.(line := [], queue := Enqueue(rx.queue, rx.line)) else rx
    else if |rx.line| < LineBufSize - 1 then rx.(line := rx.line + [c])
    else rx
  }

  /** Binary mode: store while fewer than the announced bytes have come;
      the last one switches back to line mode. Bytes beyond are dropped. */
  function FeedBinary(rx: Rx, c: byte): (r: Rx)
    requires rx.mode == BinaryMode
    ensures r.line == rx.line && r.queue == rx.queue && r.expected == rx.expected
    ensures |rx.image| < rx.expected ==> r.image == rx.image + [c]
    ensures |rx.image| < rx.expected ==> (r.mode == LineMode <==> |r.image| == rx.expected)
    ensures |rx.image| >= rx.expected ==> r == rx
  {
    if |rx.image| < rx.expected then
      var image := rx.image + [c];
      if |image| == rx.expected then rx.(image := image, mode := LineMode) else rx.(image := image)
    else rx
  }

  /** `serial_cb` on one byte, as written (`fixed` selects the intended line
      mode instead). */
  function Feed(rx: Rx, c: byte, fixed: bool): (r: Rx)
    ensures Valid(rx) ==> Valid(r)
    ensures |r.queue| >= |rx.queue|
  {
    match rx.mode
    case LineMode => if fixed then FeedLineFixed(rx, c) else FeedLine(rx, c)
    case BinaryMode => FeedBinary(rx, c)
  }

  /** `serial_cb` on a sequence of bytes. */
  function FeedAll(rx: Rx, bytes: seq<byte>, fixed: bool): (r: Rx)
    ensures Valid(rx) ==> Valid(r)
    decreases |bytes|
  {
    if |bytes| == 0 then rx else FeedAll(Feed(rx, bytes[0], fixed), bytes[1..], fixed)
  }

  lemma {:induction false} FeedAllAppend(rx: Rx, a: seq<byte>, b: seq<byte>, fixed: bool)
    ensures FeedAll(rx, a + b, fixed) == FeedAll(FeedAll(rx, a, fixed), b, fixed)
    decreases |a|
  {
    if |a| == 0 {
      assert a + b == b;
    } else {
      assert (a + b)[1..] == a[1..] + b;
      assert (a + b)[0] == a[0];
      FeedAllAppend(Feed(rx, a[0], fixed), a[1..], b, fixed);
    }
  }

  /** `LOAD` arms the handler for `size` payload bytes. */
  function Arm(rx: Rx, size: nat): Rx
    requires size > 0
  {
    rx.(mode := BinaryMode, image := [], expected := size)
  }

  // ----------------------------------------------------------- line mode

  predicate NoEol(t: seq<byte>) {
    forall i | 0 <= i < |t| :: !IsEol(t[i])
  }

  /** Bytes other than CR and LF are gathered, in order, up to 255 of them;
      the rest are dropped. */
  lemma {:induction false} GatherLine(rx: Rx, t: seq<byte>, fixed: bool)
    requires rx.mode == LineMode && |rx.line| < LineBufSize
    requires NoEol(t)
    ensures var r := FeedAll(rx, t, fixed);
            && r == rx.(line := r.line)
            && r.line == (rx.line + t)[..Min(|rx.line| + |t|, LineBufSize - 1)]
    decreases |t|
  {
    if |t| > 0 {
      var rx1 := Feed(rx, t[0], fixed);
      assert !IsEol(t[0]);
      GatherLine(rx1, t[1..], fixed);
      if |rx.line| < LineBufSize - 1 {
        assert rx.line + t == rx1.line + t[1..];
      } else {
        assert rx1 == rx;
        assert (rx.line + t)[..LineBufSize - 1] == rx.line;
        assert (rx.line + t[1..])[..LineBufSize - 1] == rx.line;
      }
    } else {
      assert rx.line + t == rx.line;
    }
  }

  /** A line of text followed by CR or LF, arriving in line mode with an
      empty buffer, is queued whole (if there is room), by the handler as
      written and by the intended one alike; longer lines lose everything
      beyond 255 characters. */
  lemma LineQueued(rx: Rx, t: seq<byte>, eol: byte, fixed: bool)
    requires rx.mode == LineMode && rx.line == []
    requires NoEol(t) && 0 < |t| && IsEol(eol)
    ensures FeedAll(rx, t + [eol], fixed)
      == rx.(queue := Enqueue(rx.queue, t[..Min(|t|, LineBufSize - 1)]))
  {
    FeedAllAppend(rx, t, [eol], fixed);
    GatherLine(rx, t, fixed);
    assert rx.line + t == t;
  }

  // --------------------------------------------------------- binary mode

  /** Armed for `size` bytes, the handler stores exactly the first `size`
      bytes that arrive and is back in line mode after the last of them;
      what follows is read as text. */
  lemma {:induction false} BinaryStoresExactly(rx: Rx, data: seq<byte>, fixed: bool)
    requires rx.mode == BinaryMode && |rx.image| + |data| == rx.expected && |data| > 0
    ensures FeedAll(rx, data, fixed) == rx.(mode := LineMode, image := rx.image + data)
    decreases |data|
  {
    var rx1 := Feed(rx, data[0], fixed);
    assert rx1.image == rx.image + [data[0]];
    if |data| == 1 {
      assert rx1 == rx.(mode := LineMode, image := rx.image + data);
    } else {
      assert rx1 == rx.(image := rx.image + [data[0]]);
      BinaryStoresExactly(rx1, data[1..], fixed);
      assert rx.image + [data[0]] + data[1..] == rx.image + data;
    }
  }

  /** The payload is received whole and the next line read as a command:
      the gateway's `LOAD` exchange as the handler sees it. */
  lemma PayloadThenLine(rx: Rx, data: seq<byte>, t: seq<byte>, fixed: bool)
    requires rx.mode == LineMode && rx.line == []
    requires |data| > 0
    requires NoEol(t) && 0 < |t| < LineBufSize
    ensures var r := FeedAll(Arm(rx, |data|), data + t + [LfByte], fixed);
            && r.image == data && r.mode == LineMode && r.line == []
            && r.queue == Enqueue(rx.queue, t)
  {
    var armed := Arm(rx, |data|);
    assert data + t + [LfByte] == data + (t + [LfByte]);
    FeedAllAppend(armed, data, t + [LfByte], fixed);
    BinaryStoresExactly(armed, data, fixed);
    assert armed.image + data == data;
    var back := armed.(mode := LineMode, image := data);
    assert FeedAll(armed, data, fixed) == back;
    LineQueued(back, t, LfByte, fixed);
    assert t[..Min(|t|, LineBufSize - 1)] == t;
  }

  // ---------------------------------------------------- the CR LF finding

  /** As written, the LF of a CR LF pair finds the buffer empty and is
      stored, so it becomes the first character of the next line: two
      CR LF terminated lines `a` and `b` are queued as `a` and LF + `b`. */
  lemma CrLfAsWritten(a: seq<byte>, b: seq<byte>)
    requires NoEol(a) && NoEol(b) && 0 < |a| < LineBufSize - 1 && 0 < |b| < LineBufSize - 2
    ensures FeedAll(Idle, (a + [CrByte, LfByte]) + (b + [CrByte, LfByte]), false).queue == [a, [LfByte] + b]
  {
    var s1 := FirstCrLfLine(a, b + [CrByte, LfByte], false);
    CrLfLine(s1, b, false);
    assert [a] + [[LfByte] + b] == [a, [LfByte] + b];
  }

  /** As intended, the same input queues `a` and `b`. */
  lemma CrLfFixed(a: seq<byte>, b: seq<byte>)
    requires NoEol(a) && NoEol(b) && 0 < |a| < LineBufSize - 1 && 0 < |b| < LineBufSize - 1
    ensures FeedAll(Idle, (a + [CrByte, LfByte]) + (b + [CrByte, LfByte]), true).queue == [a, b]
  {
    var s1 := FirstCrLfLine(a, b + [CrByte, LfByte], true);
    CrLfLine(s1, b, true);
    assert s1.line + b == b;
    assert [a] + [b] == [a, b];
  }

  /** The first CR LF terminated line after reset, and the state in which
      it leaves the handler for whatever `y` follows. */
  lemma FirstCrLfLine(a: seq<byte>, y: seq<byte>, fixed: bool) returns (s1: Rx)
    requires NoEol(a) && 0 < |a| < LineBufSize - 1
    ensures s1 == Rx(LineMode, if fixed then [] else [LfByte], [], 0, [a])
    ensures FeedAll(Idle, (a + [CrByte, LfByte]) + y, fixed) == FeedAll(s1, y, fixed)
  {
    CrLfLine(Idle, a, fixed);
    assert Idle.line + a == a;
    assert Enqueue([], a) == [a];
    s1 := Rx(LineMode, if fixed then [] else [LfByte], [], 0, [a]);
    FeedAllAppend(Idle, a + [CrByte, LfByte], y, fixed);
  }

  /** One CR LF terminated line: the line is queued after what the buffer
      already held; as written the LF is then left in the buffer. */
  lemma CrLfLine(rx: Rx, t: seq<byte>, fixed: bool)
    requires rx.mode == LineMode && NoEol(t) && 0 < |rx.line| + |t| < LineBufSize - 1
    ensures FeedAll(rx, t + [CrByte, LfByte], fixed)
      == rx.(line := if fixed then [] else [LfByte], queue := Enqueue(rx.queue, rx.line + t))
  {
    FeedAllAppend(rx, t, [CrByte, LfByte], fixed);
    GatherLine(rx, t, fixed);
    assert (rx.line + t)[..Min(|rx.line| + |t|, LineBufSize - 1)] == rx.line + t;
    CrLfTail(rx.(line := rx.line + t), fixed);
  }

  lemma CrLfTail(rx: Rx, fixed: bool)
    requires rx.mode == LineMode && |rx.line| > 0
    ensures FeedAll(rx, [CrByte, LfByte], fixed)
      == rx.(line := if fixed then [] else [LfByte], queue := Enqueue(rx.queue, rx.line))
  {
    var s1 := rx.(line := [], queue := Enqueue(rx.queue, rx.line));
    assert Feed(rx, CrByte, fixed) == s1;
    assert [CrByte, LfByte][1..] == [LfByte];
    assert FeedAll(s1, [LfByte], fixed) == Feed(s1, LfByte, fixed);
  }

  /** The intended handler never queues a line holding CR or LF. */
  lemma {:induction false} FixedQueuesNoEol(rx: Rx, bytes: seq<byte>)
    requires NoEol(rx.line) && forall i | 0 <= i < |rx.queue| :: NoEol(rx.queue[i])
    ensures var r := FeedAll(rx, bytes, true);
            NoEol(r.line) && forall i | 0 <= i < |r.queue| :: NoEol(r.queue[i])
    decreases |bytes|
  {
    if |bytes| > 0 {
      FixedStepNoEol(rx, bytes[0]);
      FixedQueuesNoEol(Feed(rx, bytes[0], true), bytes[1..]);
    }
  }

  lemma FixedStepNoEol(rx: Rx, c: byte)
    requires NoEol(rx.line) && forall i | 0 <= i < |rx.queue| :: NoEol(rx.queue[i])
    ensures var r := Feed(rx, c, true);
            NoEol(r.line) && forall i | 0 <= i < |r.queue| :: NoEol(r.queue[i])
  {
    var r := Feed(rx, c, true);
    if rx.mode == LineMode && !IsEol(c) && |rx.line| < LineBufSize - 1 {
      assert r.line == rx.line + [c];
    }
  }

  // ------------------------------------------------------- agent_read_line

  /** The bytes of a queued line as C characters. */
  function Chars(b: seq<byte>): (s: string)
    ensures |s| == |b| && forall i | 0 <= i < |b| :: s[i] as int == b[i]
  {
    seq(|b|, i requires 0 <= i < |b| => b[i] as char)
  }

  /** `agent_read_line(buf, max_len)` on the line at the head of the queue:
      `None` (the -1 return) for `max_len == 0`; otherwise the C string of
      the queued bytes, cut to `max_len - 1` characters. */
  function AgentReadLine(msg: seq<byte>, maxLen: nat): (r: Option<string>)
    ensures r.None? <==> maxLen == 0
    ensures r.Some? ==> |r.value| < maxLen && Nul !in r.value
    ensures r.Some? ==> StartsWith(CString(Chars(msg)), r.value)
    ensures r.Some? ==> |r.value| == Min(|CString(Chars(msg))|, maxLen - 1)
  {
    if maxLen == 0 then None
    else
      var s := CString(Chars(msg));
      assert Nul !in s[..Min(|s|, maxLen - 1)];
      Some(s[..Min(|s|, maxLen - 1)])
  }

  /** The command thread reads with `LINE_BUF_SIZE`, so a queued line is
      never cut short: it comes back up to its first NUL, and whole when it
      has none. */
  lemma ReadLineWhole(msg: seq<byte>)
    requires |msg| < LineBufSize
    ensures AgentReadLine(msg, LineBufSize) == Some(CString(Chars(msg)))
    ensures (forall i | 0 <= i < |msg| :: msg[i] != 0) ==> AgentReadLine(msg, LineBufSize) == Some(Chars(msg))
  {
    var s := CString(Chars(msg));
    assert s[..|s|] == s;
    if forall i | 0 <= i < |msg| :: msg[i] != 0 {
      assert Nul !in Chars(msg);
      assert IndexOf(Chars(msg), Nul).None?;
    }
  }

  /** The command thread reads the oldest queued line, whole up to its
      first NUL: its 256-byte buffer holds every line the handler keeps. */
  lemma CommandThreadReadsOldest(rx: Rx)
    requires Valid(rx) && rx.queue != []
    ensures Dequeue(rx).Some?
    ensures AgentReadLine(Dequeue(rx).value.0, LineBufSize) == Some(CString(Chars(rx.queue[0])))
  {
    ReadLineWhole(rx.queue[0]);
  }
}

=== FILE: command_thread.dfy ===
/** The command thread of the agent (firmware/agent/src/main.c,
    `main`): it blocks on the line queue that `serial_cb` fills, reads
    the oldest line with `agent_read_line`, skips it when it is empty and
    otherwise hands it to `handle_command_line`.
 */
module CommandThread {
  import opened Common
  import opened AgentParams
  import opened Agent
  import AgentRx

  /** One turn of the command loop: `None` while the queue is empty (the
      thread stays blocked in `k_msgq_get`), otherwise the queue without
      its oldest line and what handling that line did. */
  function Serve(rx: AgentRx.Rx, a: Agent, env: LoadEnv): (r: Option<(AgentRx.Rx, Step)>)
    ensures r.None? <==> rx.queue == []
    ensures r.Some? ==> [rx.queue[0]] + r.value.0.queue == rx.queue
    ensures r.Some? ==> r.value.0 == rx.(queue := r.value.0.queue)
  {
    match AgentRx.Dequeue(rx)
    case None => None
    case Some((msg, rest)) =>
      var line := AgentRx.AgentReadLine(msg, AgentRx.LineBufSize).value;
      if |line| == 0 then Some((rest, Step(a, [])))
      else Some((rest, HandleCommandLine(a, line, env)))
  }

  /** Skipping an empty line (`n <= 0`) is what `handle_command_line`
      would have done with it anyway: nothing. */
  lemma EmptyLineIgnored(a: Agent, env: LoadEnv)
    ensures HandleCommandLine(a, "", env) == Step(a, [])
  {
    assert Blank(StripEol(""));
  }

  /** A queued line shorter than the line buffer reaches
      `handle_command_line` whole, up to its first NUL, and leaves the
      queue; the skip of an empty line changes nothing. */
  lemma ServesOldest(rx: AgentRx.Rx, a: Agent, env: LoadEnv)
    requires rx.queue != [] && |rx.queue[0]| < AgentRx.LineBufSize
    ensures Serve(rx, a, env)
         == Some((rx.(queue := rx.queue[1..]), HandleCommandLine(a, CString(AgentRx.Chars(rx.queue[0])), env)))
  {
    AgentRx.ReadLineWhole(rx.queue[0]);
    if CString(AgentRx.Chars(rx.queue[0])) == "" {
      EmptyLineIgnored(a, env);
    }
  }

  /** Two queued lines, the second an LF followed by a NUL-free text:
      the first is handled as queued, the second is answered with
      `UNKNOWN_COMMAND`. */
  lemma LfLedSecondUnknown(rx: AgentRx.Rx, ag: Agent, env: LoadEnv, a: seq<byte>, b: seq<byte>)
    requires rx.queue == [a, [AgentRx.LfByte] + b] && |a| < AgentRx.LineBufSize
    requires 0 < |b| < AgentRx.LineBufSize - 1
    requires forall i | 0 <= i < |b| :: b[i] != 0
    ensures var first := Serve(rx, ag, env);
            && first.Some?
            && first.value.1 == HandleCommandLine(ag, CString(AgentRx.Chars(a)), env)
            && var second := Serve(first.value.0, first.value.1.agent, env);
               && second.Some?
               && second.value.1 == Step(first.value.1.agent, [UnknownCommand])
               && second.value.0.queue == []
  {
    var m := [AgentRx.LfByte] + b;
    forall i | 0 <= i < |m|
      ensures m[i] != 0
    {
      if i > 0 {
        assert m[i] == b[i - 1];
      }
    }
    ServesOldest(rx, ag, env);
    var first := Serve(rx, ag, env);
    var rx1 := first.value.0;
    assert rx1.queue == [m];
    ServesOldest(rx1, first.value.1.agent, env);
    AgentRx.ReadLineWhole(m);
    var text := AgentRx.Chars(m);
    assert text[0] == '\n';
    LfLedLineUnknown(first.value.1.agent, text, env);
  }

  /** Two commands sent with CR LF endings: the CR ends the first line
      and the LF then starts the second, so the thread handles the first
      command as sent and answers the second with `UNKNOWN_COMMAND`,
      leaving the queue empty. */
  lemma CrLfSecondLineUnknown(ag: Agent, env: LoadEnv, a: seq<byte>, b: seq<byte>)
    requires AgentRx.NoEol(a) && AgentRx.NoEol(b)
    requires 0 < |a| < AgentRx.LineBufSize - 1 && 0 < |b| < AgentRx.LineBufSize - 2
    requires forall i | 0 <= i < |b| :: b[i] != 0
    ensures var rx := AgentRx.FeedAll(AgentRx.Idle, (a + [AgentRx.CrByte, AgentRx.LfByte]) + (b + [AgentRx.CrByte, AgentRx.LfByte]), false);
            var first := Serve(rx, ag, env);
            && first.Some?
            && first.value.1 == HandleCommandLine(ag, CString(AgentRx.Chars(a)), env)
            && var second := Serve(first.value.0, first.value.1.agent, env);
               && second.Some?
               && second.value.1 == Step(first.value.1.agent, [UnknownCommand])
               && second.value.0.queue == []
  {
    AgentRx.CrLfAsWritten(a, b);
    var rx := AgentRx.FeedAll(AgentRx.Idle, (a + [AgentRx.CrByte, AgentRx.LfByte]) + (b + [AgentRx.CrByte, AgentRx.LfByte]), false);
    LfLedSecondUnknown(rx, ag, env, a, b);
  }
}

=== FILE: common.dfy ===
/** Shared vocabulary of both protocol ends: bytes, optional values and the
    handful of string predicates the gateway (Python `str` methods) and the
    agent (C string functions) are written with.
 */
module Common {

  /** One octet on the wire. */
  type byte = b: int | 0 <= b < 256

  datatype Option<+T> = None | Some(value: T)

  /** Python `s.startswith(p)`. */
  predicate StartsWith(s: string, p: string) {
    |p| <= |s| && s[..|p|] == p
  }

  /** Python `sub in s`: `sub` occurs somewhere in `s`. */
  predicate Contains(s: string, sub: string)
    decreases |s|
  {
    StartsWith(s, sub) || (|s| > 0 && Contains(s[1..], sub))
  }

  /** True when `s` starts with at least one of `prefixes` (the inner loop of
      `read_until_prefix`). */
  predicate StartsWithAny(s: string, prefixes: seq<string>) {
    exists i | 0 <= i < |prefixes| :: StartsWith(s, prefixes[i])
  }

  predicate IsAsciiChar(c: char) {
    c as int < 128
  }

  /** Python `str.encode("ascii")` succeeds exactly on these strings. */
  predicate IsAscii(s: string) {
    forall i | 0 <= i < |s| :: IsAsciiChar(s[i])
  }

  /** The bytes of an ASCII string. */
  function AsciiBytes(s: string): (r: seq<byte>)
    requires IsAscii(s)
    ensures |r| == |s|
    ensures forall i | 0 <= i < |s| :: r[i] as int == s[i] as int
  {
    seq(|s|, i requires 0 <= i < |s| => AsciiByte(s[i]))
  }

  function AsciiByte(c: char): (b: byte)
    requires IsAsciiChar(c)
    ensures b as int == c as int
  {
    c as int
  }

  /** `x` does not occur in `s`. */
  predicate Free(s: string, x: char) {
    forall i | 0 <= i < |s| :: s[i] != x
  }

  function Min(a: int, b: int): int {
    if a <= b then a else b
  }

  lemma StartsWithAppend(a: string, b: string)
    ensures StartsWith(a + b, a)
  {
    assert (a + b)[..|a|] == a;
  }

  lemma ContainsStart(s: string, sub: string)
    requires StartsWith(s, sub)
    ensures Contains(s, sub)
  {
  }

  /** A string contains whatever one of its suffixes contains. */
  lemma {:induction false} ContainsSuffix(a: string, b: string, sub: string)
    requires Contains(b, sub)
    ensures Contains(a + b, sub)
    decreases |a|
  {
    if |a| > 0 {
      assert (a + b)[1..] == a[1..] + b;
      ContainsSuffix(a[1..], b, sub);
    } else {
      assert a + b == b;
    }
  }

  /** A string contains whatever one of its prefixes contains. */
  lemma {:induction false} ContainsPrefix(a: string, b: string, sub: string)
    requires Contains(a, sub)
    ensures Contains(a + b, sub)
    decreases |a|
  {
    if StartsWith(a, sub) {
      assert (a + b)[..|sub|] == a[..|sub|];
    } else {
      assert (a + b)[1..] == a[1..] + b;
      ContainsPrefix(a[1..], b, sub);
    }
  }

  /** `Contains` agrees with the index-based reading of Python `in`. */
  lemma {:induction false} ContainsAt(s: string, sub: string, k: nat)
    requires k + |sub| <= |s| && s[k..k + |sub|] == sub
    ensures Contains(s, sub)
    decreases k
  {
    if k == 0 {
      assert s[..|sub|] == sub;
    } else {
      assert s[1..][k - 1..k - 1 + |sub|] == s[k..k + |sub|];
      ContainsAt(s[1..], sub, k - 1);
    }
  }

  /** A string cannot contain a text holding a character it lacks. */
  lemma {:induction false} MissingChar(s: string, sub: string, c: char)
    requires c in sub && c !in s
    ensures !Contains(s, sub)
    decreases |s|
  {
    if |sub| <= |s| {
      assert forall x | x in s[..|sub|] :: x in s;
    }
    if |s| > 0 {
      assert forall x | x in s[1..] :: x in s;
      MissingChar(s[1..], sub, c);
    }
  }

  /** Index of the first occurrence of `c` in `s`. */
  function IndexOf(s: string, c: char): (r: Option<nat>)
    ensures r.Some? <==> c in s
    ensures r.Some? ==> r.value < |s| && s[r.value] == c && c !in s[..r.value]
  {
    if |s| == 0 then None
    else if s[0] == c then Some(0)
    else match IndexOf(s[1..], c)
      case None => None
      case Some(k) => assert s[..k + 1] == [s[0]] + s[1..][..k]; Some(k + 1)
  }

  lemma {:induction false} IndexOfAfterFree(a: string, c: char, b: string)
    requires c !in a && |b| > 0 && b[0] == c
    ensures IndexOf(a + b, c) == Some(|a|)
    decreases |a|
  {
    if |a| == 0 {
      assert a + b == b;
    } else {
      assert (a + b)[1..] == a[1..] + b;
      IndexOfAfterFree(a[1..], c, b);
    }
  }
}

=== FILE: crc32.dfy ===
/** CRC-32 as both ends of the LOAD exchange compute it: the reflected
    polynomial 0xEDB88320 with all-ones seed and final inversion, i.e. the
    checksum of section 8 of RFC 1952.

    The agent computes it bit by bit (`crc32_calc`, modelled by `Crc32Calc`);
    the gateway calls Python's `binascii.crc32`, a library implementation of
    the same standard checksum, which the model takes to be `Checksum`.
 */
module Crc32 {
  import opened Common

  const Poly: bv32 := 0xEDB8_8320
  const Seed: bv32 := 0xFFFF_FFFF
  /** Division steps per byte. */
  const StepsPerByte: nat := 8

  /** One step of the reflected polynomial division: shift right, and fold the
      polynomial in when the bit shifted out was set. */
  function BitStep(c: bv32): bv32 {
    if c & 1 == 1 then (c >> 1) ^ Poly else c >> 1
  }

  /** The branch-free step of the source: `mask = -(int32_t)lsb` is all ones
      when the low bit is set and zero otherwise, so masking the polynomial
      with it is the conditional fold of `BitStep`. */
  lemma MaskStep(c: bv32)
    ensures (c >> 1) ^ (Poly & (0 - (c & 1))) == BitStep(c)
  {
    if c & 1 == 1 {
      assert 0 - (c & 1) == 0xFFFF_FFFF;
    } else {
      assert c & 1 == 0;
      assert 0 - (c & 1) == 0;
    }
  }

  /** `n` division steps. */
  function Bits(c: bv32, n: nat): bv32 {
    if n == 0 then c else BitStep(Bits(c, n - 1))
  }

  /** A byte as the low end of a 32-bit register (`uint32_t byte = data[i]`). */
  function Widen(b: byte): bv32 {
    b as bv32
  }

  /** The register after absorbing one more byte (the body of the outer loop). */
  function ByteStep(c: bv32, b: byte): bv32 {
    Bits(c ^ Widen(b), StepsPerByte)
  }

  /** The register after absorbing `data`, starting from `c` (no final inversion). */
  function Register(c: bv32, data: seq<byte>): bv32
    decreases |data|
  {
    if |data| == 0 then c else ByteStep(Register(c, data[..|data| - 1]), data[|data| - 1])
  }

  /** The checksum of `data`: the inverted register after all of it. */
  function Checksum(data: seq<byte>): bv32 {
    !Register(Seed, data)
  }

  /** `crc32_calc`: one pass over the buffer, absorbing one byte per
      iteration (`AbsorbByte`), then the final inversion. */
  method Crc32Calc(data: seq<byte>) returns (crc: bv32)
    ensures crc == Checksum(data)
    ensures |data| == 0 ==> crc == 0
  {
    crc := Seed;
    var i := 0;
    while i < |data|
      invariant 0 <= i <= |data|
      invariant crc == Register(Seed, data[..i])
    {
      assert data[..i + 1] == data[..i] + [data[i]];
      RegisterSnocAny(Seed, data[..i], data[i]);
      crc := AbsorbByte(crc, data[i]);
      i := i + 1;
    }
    assert data[..|data|] == data;
    crc := !crc;
  }

  /** The body of the outer loop of `crc32_calc`: the byte is xored into the
      low end of the register and then divided out bit by bit. */
  method AbsorbByte(c: bv32, b: byte) returns (crc: bv32)
    ensures crc == ByteStep(c, b)
  {
    crc := DivideByte(c ^ Widen(b));
  }

  /** The inner loop of `crc32_calc`: eight shift/xor steps, with the
      branch-free mask `-(int32_t)lsb` of the source. */
  method DivideByte(start: bv32) returns (crc: bv32)
    ensures crc == Bits(start, StepsPerByte)
  {
    crc := start;
    var j := 0;
    while j < StepsPerByte
      invariant 0 <= j <= StepsPerByte
      invariant crc == Bits(start, j)
    {
      var lsb := crc & 1;
      var mask := 0 - lsb;
      NextBit(start, j, crc, lsb, mask);
      crc := (crc >> 1) ^ (Poly & mask);
      j := j + 1;
    }
  }

  /** One pass of the inner loop advances the register by one `BitStep`. */
  lemma NextBit(start: bv32, j: nat, c: bv32, lsb: bv32, mask: bv32)
    requires c == Bits(start, j) && lsb == c & 1 && mask == 0 - lsb
    ensures (c >> 1) ^ (Poly & mask) == Bits(start, j + 1)
  {
    MaskStep(c);
  }

  /** Feeding `a ++ b` is feeding `a`, then continuing from that register with `b`. */
  lemma {:induction false} RegisterAppend(c: bv32, a: seq<byte>, b: seq<byte>)
    ensures Register(c, a + b) == Register(Register(c, a), b)
    decreases |b|
  {
    if |b| == 0 {
      assert a + b == a;
    } else {
      var ab := a + b;
      assert ab[..|ab| - 1] == a + b[..|b| - 1];
      assert ab[|ab| - 1] == b[|b| - 1];
      RegisterAppend(c, a, b[..|b| - 1]);
    }
  }

  /** Absorbing one more byte is one more `ByteStep`. */
  lemma RegisterSnocAny(c: bv32, s: seq<byte>, b: byte)
    ensures Register(c, s + [b]) == ByteStep(Register(c, s), b)
  {
    assert (s + [b])[..|s|] == s;
  }

  /** The standard check value of CRC-32: the checksum of the ASCII digits
      "123456789" is 0xCBF43926. */
  lemma CheckValue()
    ensures Checksum([0x31, 0x32, 0x33, 0x34, 0x35, 0x36, 0x37, 0x38, 0x39]) == 0xCBF4_3926
  {
    assert ByteStep(Seed, 0x31) == 0x7C23_1048;
    assert ByteStep(0x7C23_1048, 0x32) == 0xB0AC_BB32;
    assert ByteStep(0xB0AC_BB32, 0x33) == 0x77B7_9C2D;
    assert ByteStep(0x77B7_9C2D, 0x34) == 0x641C_1F5C;
    assert ByteStep(0x641C_1F5C, 0x35) == 0x340A_C5E3;
    assert ByteStep(0x340A_C5E3, 0x36) == 0xF68D_2C9E;
    assert ByteStep(0xF68D_2C9E, 0x37) == 0xAFFC_9660;
    assert ByteStep(0xAFFC_9660, 0x38) == 0x651F_2550;
    assert ByteStep(0x651F_2550, 0x39) == 0x340B_C6D9;
    var d: seq<byte> := [];
    assert Register(Seed, d) == Seed;
    RegisterSnocAny(Seed, d, 0x31); d := d + [0x31];
    RegisterSnocAny(Seed, d, 0x32); d := d + [0x32];
    RegisterSnocAny(Seed, d, 0x33); d := d + [0x33];
    RegisterSnocAny(Seed, d, 0x34); d := d + [0x34];
    RegisterSnocAny(Seed, d, 0x35); d := d + [0x35];
    RegisterSnocAny(Seed, d, 0x36); d := d + [0x36];
    RegisterSnocAny(Seed, d, 0x37); d := d + [0x37];
    RegisterSnocAny(Seed, d, 0x38); d := d + [0x38];
    RegisterSnocAny(Seed, d, 0x39); d := d + [0x39];
    assert d == [0x31, 0x32, 0x33, 0x34, 0x35, 0x36, 0x37, 0x38, 0x39];
  }
}

=== FILE: device_protocol.dfy ===
/** The gateway's side of the device protocol (gateway.py): the prefix
    filter `read_until_prefix` and the four exchanges `gw_deploy`,
    `gw_start`, `gw_stop` and `gw_status`.

    The device is a finite sequence of `Event`s as one wait after another
    sees them: a line, or the expiry of the wait's timeout. Running out of
    events counts as the timeout. Each operation is a total function of its
    arguments and the event sequence; it returns the reply dictionary (or the
    exception that escapes), the actions it performed on the transport in
    order, and how many events it consumed.
 */
module DeviceProtocol {
  import opened Common
  import opened Numerals
  import opened Crc32
  import opened Transport

  datatype Event = Line(text: string) | Timeout

  /** What the gateway does to the transport. */
  datatype Action =
    | Open(endpoint: Endpoint)
    | Flush
    | Send(line: string)            // `write_line(line)`: the line and a LF
    | SendPayload(data: seq<byte>)  // `write(data)`: the module image, raw
    | Await(prefixes: seq<string>, timeout: real)
    | Close

  /** The reply dictionary: `{"ok": True, "detail": …}` or `{"ok": False, "error": …}`. */
  datatype Reply = Ok(detail: string) | Err(error: string)

  /** `Raised` is an exception escaping the operation (a non-ASCII command
      line, an endpoint that cannot be opened): no reply is produced. */
  datatype Outcome = Replied(reply: Reply) | Raised

  datatype Exchange = Exchange(outcome: Outcome, actions: seq<Action>, used: nat)

  // ------------------------------------------------------ read_until_prefix

  datatype Wait = Wait(line: Option<string>, used: nat)

  /** The first `k` events are lines that match none of the prefixes. */
  predicate Skipped(ev: seq<Event>, k: int, prefixes: seq<string>)
    requires k <= |ev|
  {
    forall i | 0 <= i < k :: ev[i].Line? && !StartsWithAny(ev[i].text, prefixes)
  }

  /** `read_until_prefix`: the first line that starts with one of the
      prefixes, after skipping every line that does not; `None` when the
      timeout comes first. */
  function ReadUntilPrefix(ev: seq<Event>, prefixes: seq<string>): (w: Wait)
    ensures w.used <= |ev|
    ensures w.line.Some? ==>
      && w.used > 0
      && Skipped(ev, w.used - 1, prefixes)
      && ev[w.used - 1] == Line(w.line.value)
      && StartsWithAny(w.line.value, prefixes)
    ensures w.line.None? ==>
      || (w.used == |ev| && Skipped(ev, |ev|, prefixes))
      || (w.used > 0 && Skipped(ev, w.used - 1, prefixes) && ev[w.used - 1] == Timeout)
    decreases |ev|
  {
    if |ev| == 0 then Wait(None, 0)
    else match ev[0]
      case Timeout => Wait(None, 1)
      case Line(s) =>
        if StartsWithAny(s, prefixes) then Wait(Some(s), 1)
        else
          var w := ReadUntilPrefix(ev[1..], prefixes);
          assert forall i | 1 <= i < w.used + 1 :: ev[i] == ev[1..][i - 1];
          Wait(w.line, w.used + 1)
  }

  /** A line that matches none of the prefixes is skipped: the wait goes on
      as if it had not arrived. */
  lemma SkipNonMatching(s: string, ev: seq<Event>, prefixes: seq<string>)
    requires !StartsWithAny(s, prefixes)
    ensures ReadUntilPrefix([Line(s)] + ev, prefixes).line == ReadUntilPrefix(ev, prefixes).line
    ensures ReadUntilPrefix([Line(s)] + ev, prefixes).used == ReadUntilPrefix(ev, prefixes).used + 1
  {
    assert ([Line(s)] + ev)[1..] == ev;
  }

  // ------------------------------------------------- the same, over bytes

  /** The line-level events a stream of bytes produces, one `read_line`
      after another: each line read, and a `Timeout` wherever a read ended
      because its deadline passed. */
  function Frames(rx: seq<RxEvent>): seq<Event>
    decreases |rx|
  {
    if |rx| == 0 then []
    else
      var r := ReadLine(rx);
      Lead(r) + Frames(r.rest)
  }

  /** The events one `read_line` produces: the line, if any bytes came,
      then a `Timeout` if the deadline ended it. */
  function Lead(r: LineRead): seq<Event> {
    (if r.line.Some? then [Line(r.line.value)] else [])
    + (if r.expired then [Timeout] else [])
  }

  /** `read_until_prefix` over the byte stream: call `read_line` until a line
      matches, or until a read returns because the deadline passed. */
  function ReadUntilPrefixRx(rx: seq<RxEvent>, prefixes: seq<string>): (r: Option<string>)
    ensures r.Some? ==> StartsWithAny(r.value, prefixes) && Free(r.value, '\n')
    decreases |rx|
  {
    if |rx| == 0 then None
    else
      var r := ReadLine(rx);
      if r.line.Some? && StartsWithAny(r.line.value, prefixes) then r.line
      else if r.expired then None
      else ReadUntilPrefixRx(r.rest, prefixes)
  }

  /** Reading byte by byte and filtering by prefix gives the same line as
      filtering the line events the bytes produce. */
  lemma {:induction false} BytesAgreeWithLines(rx: seq<RxEvent>, prefixes: seq<string>)
    ensures ReadUntilPrefixRx(rx, prefixes) == ReadUntilPrefix(Frames(rx), prefixes).line
    decreases |rx|
  {
    if |rx| > 0 {
      BytesAgreeWithLines(ReadLine(rx).rest, prefixes);
      AgreeStep(rx, prefixes);
    }
  }

  /** One `read_line`: if the two waits agree on what follows it, they agree
      on the whole stream. */
  lemma AgreeStep(rx: seq<RxEvent>, prefixes: seq<string>)
    requires |rx| > 0
    requires var rest := ReadLine(rx).rest;
             ReadUntilPrefixRx(rest, prefixes) == ReadUntilPrefix(Frames(rest), prefixes).line
    ensures ReadUntilPrefixRx(rx, prefixes) == ReadUntilPrefix(Frames(rx), prefixes).line
  {
    var r := ReadLine(rx);
    assert Frames(rx) == Lead(r) + Frames(r.rest);
    AgreeCases(r, Frames(r.rest), ReadUntilPrefixRx(r.rest, prefixes), prefixes);
  }

  /** The byte-level wait after one read, against the line-level wait over
      the events that read produced. */
  lemma AgreeCases(r: LineRead, tail: seq<Event>, later: Option<string>, prefixes: seq<string>)
    requires later == ReadUntilPrefix(tail, prefixes).line
    ensures (if r.line.Some? && StartsWithAny(r.line.value, prefixes) then r.line
             else if r.expired then None
             else later)
            == ReadUntilPrefix(Lead(r) + tail, prefixes).line
  {
    var timeout: seq<Event> := if r.expired then [Timeout] else [];
    if r.line.Some? {
      assert Lead(r) + tail == [Line(r.line.value)] + (timeout + tail);
      AgreeAfterLine(r.line.value, r.expired, timeout, tail, prefixes);
    } else {
      assert Lead(r) + tail == timeout + tail;
      AgreeAfterNothing(r.expired, timeout, tail, prefixes);
    }
  }

  /** After a read that ended in a timeout the wait is over; otherwise it
      goes on with the next read. */
  lemma AgreeAfterNothing(expired: bool, timeout: seq<Event>, tail: seq<Event>, prefixes: seq<string>)
    requires timeout == if expired then [Timeout] else []
    ensures expired ==> ReadUntilPrefix(timeout + tail, prefixes).line.None?
    ensures !expired ==> ReadUntilPrefix(timeout + tail, prefixes).line == ReadUntilPrefix(tail, prefixes).line
  {
    if expired {
      assert (timeout + tail)[0] == Timeout;
    } else {
      assert timeout + tail == tail;
    }
  }

  /** A line read is taken if it matches, and otherwise skipped. */
  lemma AgreeAfterLine(s: string, expired: bool, timeout: seq<Event>, tail: seq<Event>, prefixes: seq<string>)
    requires timeout == if expired then [Timeout] else []
    ensures StartsWithAny(s, prefixes) ==> ReadUntilPrefix([Line(s)] + (timeout + tail), prefixes).line == Some(s)
    ensures !StartsWithAny(s, prefixes) && expired ==> ReadUntilPrefix([Line(s)] + (timeout + tail), prefixes).line.None?
    ensures !StartsWithAny(s, prefixes) && !expired ==>
              ReadUntilPrefix([Line(s)] + (timeout + tail), prefixes).line == ReadUntilPrefix(tail, prefixes).line
  {
    if !StartsWithAny(s, prefixes) {
      SkipNonMatching(s, timeout + tail, prefixes);
      AgreeAfterNothing(expired, timeout, tail, prefixes);
    }
  }

  // ---------------------------------------------------------- the session

  /** `open_transport`, `flush_input`, the exchange, and the `close` of the
      `finally` clause. `connects` says whether the endpoint could be opened
      (socket connect, serial port present); if not, the exception escapes
      before anything is sent. */
  function Session(port: string, connects: bool, x: Exchange): (s: Exchange)
    ensures s.actions == [] || (s.actions[0].Open? && s.actions[|s.actions| - 1] == Close)
    ensures ParseEndpoint(port).None? || !connects ==> s.outcome == Raised && s.actions == []
    ensures ParseEndpoint(port).Some? && connects ==>
      s.outcome == x.outcome && s.actions == [Open(ParseEndpoint(port).value), Flush] + x.actions + [Close]
  {
    match ParseEndpoint(port)
    case None => Exchange(Raised, [], 0)
    case Some(e) =>
      if !connects then Exchange(Raised, [], 0)
      else Exchange(x.outcome, [Open(e), Flush] + x.actions + [Close], x.used)
  }

  /** The actions of an exchange touch the connection only in between: it
      neither opens nor closes it. */
  predicate Inner(actions: seq<Action>) {
    forall i | 0 <= i < |actions| :: !actions[i].Open? && actions[i] != Close
  }

  function Repeat(a: Action, n: nat): (r: seq<Action>)
    ensures |r| == n && forall i | 0 <= i < n :: r[i] == a
  {
    if n == 0 then [] else [a] + Repeat(a, n - 1)
  }

  // --------------------------------------------------------------- deploy

  const LoadReadyPrefixes: seq<string> := ["LOAD_READY", "LOAD_ERR"]
  const LoadOkPrefixes: seq<string> := ["LOAD_OK", "LOAD_ERR"]
  const AckTimeout: real := 3.0
  const StatusTimeout: real := 2.0

  /** The `LOAD` command line: size in decimal, CRC-32 as eight lowercase
      hex digits. */
  function LoadLine(moduleId: string, data: seq<byte>): (r: string)
    ensures IsAscii(r) <==> IsAscii(moduleId)
  {
    var d := Decimal(|data|);
    var h := Hex8(Checksum(data));
    DigitsAscii(d);
    HexAscii(h);
    LoadFieldsAscii(moduleId, d, h);
    "LOAD module_id=" + moduleId + " size=" + d + " crc32=" + h
  }

  /** `write_line(line)` followed by what the operation does next: the
      encoding to ASCII fails, and the exception escapes, before anything is
      written when the line holds another character. */
  function Command(line: string, next: Exchange): (x: Exchange)
    ensures Inner(next.actions) ==> Inner(x.actions)
  {
    if !IsAscii(line) then Exchange(Raised, [], 0)
    else Exchange(next.outcome, [Send(line)] + next.actions, next.used)
  }

  /** What `gw_deploy` does after sending the `LOAD` line. */
  function DeployAnswer(data: seq<byte>, ev: seq<Event>): (x: Exchange)
    ensures x.used <= |ev|
    ensures Inner(x.actions)
  {
    var w1 := ReadUntilPrefix(ev, LoadReadyPrefixes);
    var a1 := [Await(LoadReadyPrefixes, AckTimeout)];
    if w1.line.None? then
      Exchange(Replied(Err("timeout in attesa di LOAD_READY/LOAD_ERR")), a1, w1.used)
    else if StartsWith(w1.line.value, "LOAD_ERR") then
      Exchange(Replied(Err(w1.line.value)), a1, w1.used)
    else
      var w2 := ReadUntilPrefix(ev[w1.used..], LoadOkPrefixes);
      var a2 := a1 + [SendPayload(data), Await(LoadOkPrefixes, AckTimeout)];
      if w2.line.None? then
        Exchange(Replied(Err("timeout in attesa di LOAD_OK/LOAD_ERR")), a2, w1.used + w2.used)
      else if StartsWith(w2.line.value, "LOAD_ERR") then
        Exchange(Replied(Err(w2.line.value)), a2, w1.used + w2.used)
      else
        Exchange(Replied(Ok(w2.line.value)), a2, w1.used + w2.used)
  }

  /** The exchange of `gw_deploy` once the transport is open. */
  function DeployExchange(moduleId: string, data: seq<byte>, ev: seq<Event>): Exchange {
    Command(LoadLine(moduleId, data), DeployAnswer(data, ev))
  }

  /** `gw_deploy`: `file` is the content of the file at `path`, or `None`
      when there is no such file. */
  function Deploy(port: string, moduleId: string, path: string, file: Option<seq<byte>>,
                  connects: bool, ev: seq<Event>): (x: Exchange)
    ensures Bracketed(x.actions)
    ensures file.None? ==> x.outcome == Replied(Err("file non trovato: " + path)) && x.actions == []
    ensures file.Some? && !connects ==> x.outcome == Raised && x.actions == []
    ensures file.Some? && x.outcome.Replied? ==>
              ParseEndpoint(port).Some? && |x.actions| >= 3 && x.actions[..3] == [Open(ParseEndpoint(port).value), Flush, Send(LoadLine(moduleId, file.value))]
  {
    if file.None? then Exchange(Replied(Err("file non trovato: " + path)), [], 0)
    else
      var inner := DeployExchange(moduleId, file.value, ev);
      SessionSends(port, connects, LoadLine(moduleId, file.value), DeployAnswer(file.value, ev));
      Session(port, connects, inner)
  }

  /** The `LOAD` line is sent first, and it can be sent exactly when the
      module id is ASCII (the other fields are digits); otherwise the
      encoding error escapes and nothing is written. */
  lemma DeploySendsLoadLine(moduleId: string, data: seq<byte>, ev: seq<Event>)
    ensures var x := DeployExchange(moduleId, data, ev);
            var a := DeployAnswer(data, ev);
            && (IsAscii(moduleId) ==> x == Exchange(a.outcome, [Send(LoadLine(moduleId, data))] + a.actions, a.used))
            && (!IsAscii(moduleId) ==> x == Exchange(Raised, [], 0))
  {
  }

  /** The payload goes out exactly when the first wait saw `LOAD_READY`
      (a matching line that is not `LOAD_ERR`), and it is the file's bytes. */
  lemma DeployPayloadOnlyAfterReady(data: seq<byte>, ev: seq<Event>)
    ensures var x := DeployAnswer(data, ev);
            var w1 := ReadUntilPrefix(ev, LoadReadyPrefixes);
            && (SendPayload(data) in x.actions <==>
                  (w1.line.Some? && StartsWith(w1.line.value, "LOAD_READY")))
            && (forall d | SendPayload(d) in x.actions :: d == data)
  {
    var w1 := ReadUntilPrefix(ev, LoadReadyPrefixes);
    var ready := w1.line.Some? && !StartsWith(w1.line.value, "LOAD_ERR");
    DeployActions(data, ev);
    if w1.line.Some? {
      ReadyOrErr(w1.line.value);
    }
    PayloadSent(data, ready);
  }

  /** The waits `gw_deploy` makes, and the payload between them once the
      first wait saw a line that is not `LOAD_ERR`. */
  lemma DeployActions(data: seq<byte>, ev: seq<Event>)
    ensures var w1 := ReadUntilPrefix(ev, LoadReadyPrefixes);
            DeployAnswer(data, ev).actions == DeployPlan(data, w1.line.Some? && !StartsWith(w1.line.value, "LOAD_ERR"))
  {
  }

  function DeployPlan(data: seq<byte>, ready: bool): seq<Action> {
    [Await(LoadReadyPrefixes, AckTimeout)]
    + (if ready then [SendPayload(data), Await(LoadOkPrefixes, AckTimeout)] else [])
  }

  lemma PayloadSent(data: seq<byte>, ready: bool)
    ensures SendPayload(data) in DeployPlan(data, ready) <==> ready
    ensures forall d | SendPayload(d) in DeployPlan(data, ready) :: d == data
  {
    var p := DeployPlan(data, ready);
    if ready {
      assert p[1] == SendPayload(data);
    }
  }

  /** A line that starts with one of `LOAD_READY`, `LOAD_ERR` starts with
      exactly one of them. */
  lemma ReadyOrErr(s: string)
    requires StartsWithAny(s, LoadReadyPrefixes)
    ensures StartsWith(s, "LOAD_READY") <==> !StartsWith(s, "LOAD_ERR")
  {
    var i :| 0 <= i < |LoadReadyPrefixes| && StartsWith(s, LoadReadyPrefixes[i]);
    if i == 0 {
      assert s[5] == 'R';
    } else {
      assert s[5] == 'E';
    }
  }

  /** The `LOAD` line with its numbers abstracted: it is ASCII exactly when
      the module id is. */
  lemma LoadFieldsAscii(moduleId: string, d: string, h: string)
    requires IsAscii(d) && IsAscii(h)
    ensures IsAscii("LOAD module_id=" + moduleId + " size=" + d + " crc32=" + h) <==> IsAscii(moduleId)
  {
    var p0 := "LOAD module_id=";
    var p1 := p0 + moduleId;
    var p2 := p1 + " size=";
    var p3 := p2 + d;
    var p4 := p3 + " crc32=";
    var line := p4 + h;
    if IsAscii(moduleId) {
      LiteralsAscii();
      AsciiConcat(p0, moduleId);
      AsciiConcat(p1, " size=");
      AsciiConcat(p2, d);
      AsciiConcat(p3, " crc32=");
      AsciiConcat(p4, h);
    } else {
      var i :| 0 <= i < |moduleId| && !IsAsciiChar(moduleId[i]);
      assert line[|p0| + i] == moduleId[i];
    }
  }

  lemma LiteralsAscii()
    ensures IsAscii("LOAD module_id=") && IsAscii(" size=") && IsAscii(" crc32=")
  {
  }

  lemma DigitsAscii(d: string)
    requires forall i | 0 <= i < |d| :: IsDigit(d[i])
    ensures IsAscii(d)
  {
  }

  lemma HexAscii(h: string)
    requires forall i | 0 <= i < |h| :: IsHexDigit(h[i])
    ensures IsAscii(h)
  {
  }

  lemma AsciiConcat(a: string, b: string)
    requires IsAscii(a) && IsAscii(b)
    ensures IsAscii(a + b)
  {
    assert forall i | |a| <= i < |a + b| :: (a + b)[i] == b[i - |a|];
  }

  /** Every reply of `gw_deploy` once the `LOAD` line is out: a timeout
      at either wait is reported with the wait's own message, a `LOAD_ERR`
      line at either wait is returned as the error, verbatim, and success
      carries the `LOAD_OK` line as its detail. */
  lemma DeployReplies(data: seq<byte>, ev: seq<Event>)
    ensures var x := DeployAnswer(data, ev);
            var w1 := ReadUntilPrefix(ev, LoadReadyPrefixes);
            && (w1.line.None? ==> x.outcome == Replied(Err("timeout in attesa di LOAD_READY/LOAD_ERR")))
            && (w1.line.Some? && StartsWith(w1.line.value, "LOAD_ERR") ==> x.outcome == Replied(Err(w1.line.value)))
            && (x.outcome.Replied? && x.outcome.reply.Ok? ==>
                  && w1.line.Some? && StartsWith(w1.line.value, "LOAD_READY")
                  && StartsWith(x.outcome.reply.detail, "LOAD_OK")
                  && ReadUntilPrefix(ev[w1.used..], LoadOkPrefixes).line == Some(x.outcome.reply.detail))
    ensures var x := DeployAnswer(data, ev);
            var w1 := ReadUntilPrefix(ev, LoadReadyPrefixes);
            w1.line.Some? && !StartsWith(w1.line.value, "LOAD_ERR") ==>
              var w2 := ReadUntilPrefix(ev[w1.used..], LoadOkPrefixes);
              && (w2.line.None? ==> x.outcome == Replied(Err("timeout in attesa di LOAD_OK/LOAD_ERR")))
              && (w2.line.Some? && StartsWith(w2.line.value, "LOAD_ERR") ==> x.outcome == Replied(Err(w2.line.value)))
              && (w2.line.Some? && !StartsWith(w2.line.value, "LOAD_ERR") ==> x.outcome == Replied(Ok(w2.line.value)))
  {
    var x := DeployAnswer(data, ev);
    var w1 := ReadUntilPrefix(ev, LoadReadyPrefixes);
    if x.outcome.Replied? && x.outcome.reply.Ok? {
      ReadyOrErr(w1.line.value);
      var w2 := ReadUntilPrefix(ev[w1.used..], LoadOkPrefixes);
      OkOrErr(w2.line.value);
    }
  }

  lemma OkOrErr(s: string)
    requires StartsWithAny(s, LoadOkPrefixes)
    ensures StartsWith(s, "LOAD_OK") <==> !StartsWith(s, "LOAD_ERR")
  {
    var i :| 0 <= i < |LoadOkPrefixes| && StartsWith(s, LoadOkPrefixes[i]);
    if i == 0 {
      assert s[5] == 'O';
    } else {
      assert s[5] == 'E';
    }
  }

  // ---------------------------------------------------------------- start

  const StartPrefixes: seq<string> := ["START_OK", "RESULT", "ERROR"]
  const ResultPrefixes: seq<string> := ["RESULT"]

  /** The `START` command line; ` args="…"` only for non-empty arguments. */
  function StartLine(moduleId: string, func: string, args: string): (r: string)
    ensures StartsWith(r, "START module_id=" + moduleId + " func=" + func)
    ensures args == "" <==> r == "START module_id=" + moduleId + " func=" + func
  {
    StartLineShape("START module_id=" + moduleId + " func=" + func, args);
    if args != "" then "START module_id=" + moduleId + " func=" + func + " args=\"" + args + "\""
    else "START module_id=" + moduleId + " func=" + func
  }

  /** The `RESULT` statuses that make `gw_start` give up before `START_OK`. */
  predicate IsRejection(line: string) {
    Contains(line, "status=NO_MODULE") || Contains(line, "status=BUSY") || Contains(line, "status=NO_FUNC")
  }

  /** The `while True` loop of `gw_start`: wait after wait until `START_OK`,
      an `ERROR`, a rejecting `RESULT` or a timeout. */
  datatype StartWait =
    | Accepted(waits: nat, used: nat)
    | Refused(reply: Reply, waits: nat, used: nat)

  function AwaitStartOk(ev: seq<Event>): (r: StartWait)
    ensures r.used <= |ev|
    ensures r.waits >= 1
    ensures r.Refused? ==> r.reply.Err?
    decreases |ev|
  {
    var w := ReadUntilPrefix(ev, StartPrefixes);
    if w.line.None? then Refused(Err("timeout in attesa di START_OK/RESULT/ERROR"), 1, w.used)
    else
      var s := w.line.value;
      if StartsWith(s, "ERROR") then Refused(Err(s), 1, w.used)
      else if StartsWith(s, "RESULT") then
        if IsRejection(s) then Refused(Err(s), 1, w.used)
        else
          var r := AwaitStartOk(ev[w.used..]);
          match r
          case Accepted(n, u) => Accepted(n + 1, u + w.used)
          case Refused(reply, n, u) => Refused(reply, n + 1, u + w.used)
      else Accepted(1, w.used)
  }

  /** What `gw_start` does after sending the `START` line. */
  function StartAnswer(waitResult: bool, resultTimeout: real, ev: seq<Event>): (x: Exchange)
    ensures x.used <= |ev|
    ensures Inner(x.actions)
  {
    var r := AwaitStartOk(ev);
    var a1 := Repeat(Await(StartPrefixes, AckTimeout), r.waits);
    match r
    case Refused(reply, _, u) => Exchange(Replied(reply), a1, u)
    case Accepted(_, u) =>
      if !waitResult then Exchange(Replied(Ok("START_OK")), a1, u)
      else
        var w := ReadUntilPrefix(ev[u..], ResultPrefixes);
        var a2 := a1 + [Await(ResultPrefixes, resultTimeout)];
        if w.line.None? then Exchange(Replied(Err("timeout in attesa di RESULT")), a2, u + w.used)
        else Exchange(Replied(Ok(w.line.value)), a2, u + w.used)
  }

  /** The exchange of `gw_start` once the transport is open. */
  function StartExchange(moduleId: string, func: string, args: string, waitResult: bool,
                         resultTimeout: real, ev: seq<Event>): Exchange
  {
    Command(StartLine(moduleId, func, args), StartAnswer(waitResult, resultTimeout, ev))
  }

  function Start(port: string, moduleId: string, func: string, args: string, waitResult: bool,
                 resultTimeout: real, connects: bool, ev: seq<Event>): (x: Exchange)
    ensures Bracketed(x.actions)
    ensures !connects ==> x.outcome == Raised && x.actions == []
    ensures x.outcome.Replied? ==>
              ParseEndpoint(port).Some? && |x.actions| >= 3 && x.actions[..3] == [Open(ParseEndpoint(port).value), Flush, Send(StartLine(moduleId, func, args))]
  {
    var inner := StartExchange(moduleId, func, args, waitResult, resultTimeout, ev);
    SessionSends(port, connects, StartLine(moduleId, func, args), StartAnswer(waitResult, resultTimeout, ev));
    Session(port, connects, inner)
  }

  /** ` args="…"` extends the base line, so the line differs from it. */
  lemma StartLineShape(base: string, args: string)
    ensures StartsWith(base, base)
    ensures StartsWith(base + " args=\"" + args + "\"", base)
    ensures base + " args=\"" + args + "\"" != base
  {
    var line := base + " args=\"" + args + "\"";
    assert line[..|base|] == base;
    assert |line| > |base|;
  }

  /** An `ERROR` line before `START_OK` fails the start at once. */
  lemma StartErrorFails(s: string, ev: seq<Event>)
    requires StartsWith(s, "ERROR")
    ensures AwaitStartOk([Line(s)] + ev) == Refused(Err(s), 1, 1)
  {
    assert StartsWith(s, StartPrefixes[2]);
  }

  /** A `RESULT` naming `NO_MODULE`, `BUSY` or `NO_FUNC` fails the start. */
  lemma StartRejected(s: string, ev: seq<Event>)
    requires StartsWith(s, "RESULT") && IsRejection(s)
    ensures AwaitStartOk([Line(s)] + ev) == Refused(Err(s), 1, 1)
  {
    assert StartsWith(s, StartPrefixes[1]);
    assert !StartsWith(s, "ERROR") by { assert s[0] == 'R'; }
  }

  /** Any other `RESULT` (a stale one from an earlier run) is discarded and
      the gateway waits again. */
  lemma StartSkipsStaleResult(s: string, ev: seq<Event>)
    requires StartsWith(s, "RESULT") && !IsRejection(s)
    ensures var r := AwaitStartOk(ev);
            AwaitStartOk([Line(s)] + ev)
              == match r
                 case Accepted(n, u) => Accepted(n + 1, u + 1)
                 case Refused(reply, n, u) => Refused(reply, n + 1, u + 1)
  {
    assert StartsWith(s, StartPrefixes[1]);
    assert !StartsWith(s, "ERROR") by { assert s[0] == 'R'; }
    assert ([Line(s)] + ev)[1..] == ev;
  }

  /** Without `wait_result`, `START_OK` is the whole answer: the detail is
      the literal "START_OK" and no wait for `RESULT` follows. */
  lemma StartWithoutResultWait(t: real, ev: seq<Event>)
    requires AwaitStartOk(ev).Accepted?
    ensures var x := StartAnswer(false, t, ev);
            && x.outcome == Replied(Ok("START_OK"))
            && x.used == AwaitStartOk(ev).used
            && forall i | 0 <= i < |x.actions| :: x.actions[i] == Await(StartPrefixes, AckTimeout)
  {
  }

  /** With `wait_result`, the detail is the first `RESULT` line after
      `START_OK`, waited for with the caller's timeout. */
  lemma StartWaitsForResult(t: real, ev: seq<Event>)
    requires AwaitStartOk(ev).Accepted?
    ensures var u := AwaitStartOk(ev).used;
            var w := ReadUntilPrefix(ev[u..], ResultPrefixes);
            var x := StartAnswer(true, t, ev);
            && x.actions[|x.actions| - 1] == Await(ResultPrefixes, t)
            && (w.line.Some? ==> x.outcome == Replied(Ok(w.line.value)) && StartsWith(w.line.value, "RESULT"))
            && (w.line.None? ==> x.outcome == Replied(Err("timeout in attesa di RESULT")))
  {
    var w := ReadUntilPrefix(ev[AwaitStartOk(ev).used..], ResultPrefixes);
    if w.line.Some? {
      var i :| 0 <= i < |ResultPrefixes| && StartsWith(w.line.value, ResultPrefixes[i]);
    }
  }

  // ----------------------------------------------------------------- stop

  const StopPrefixes: seq<string> := ["STOP_OK", "RESULT", "ERROR"]

  function StopLine(moduleId: string): (r: string)
    ensures IsAscii(r) <==> IsAscii(moduleId)
  {
    StopLineAscii(moduleId);
    "STOP module_id=" + moduleId
  }

  lemma StopLineAscii(moduleId: string)
    ensures IsAscii("STOP module_id=" + moduleId) <==> IsAscii(moduleId)
  {
    var line := "STOP module_id=" + moduleId;
    if IsAscii(moduleId) {
      assert IsAscii("STOP module_id=");
      AsciiConcat("STOP module_id=", moduleId);
    } else {
      var i :| 0 <= i < |moduleId| && !IsAsciiChar(moduleId[i]);
      assert line[15 + i] == moduleId[i];
    }
  }

  /** What `gw_stop` does after sending the `STOP` line. */
  function StopAnswer(resultTimeout: real, ev: seq<Event>): (x: Exchange)
    ensures x.used <= |ev|
    ensures Inner(x.actions)
  {
    var w := ReadUntilPrefix(ev, StopPrefixes);
    var a1 := [Await(StopPrefixes, AckTimeout)];
    if w.line.None? then
      Exchange(Replied(Err("timeout in attesa di STOP_OK/RESULT/ERROR")), a1, w.used)
    else
      var s := w.line.value;
      if StartsWith(s, "RESULT") || StartsWith(s, "ERROR") then Exchange(Replied(Ok(s)), a1, w.used)
      else if !Contains(s, "status=PENDING") then Exchange(Replied(Ok(s)), a1, w.used)
      else
        var w2 := ReadUntilPrefix(ev[w.used..], ResultPrefixes);
        var a2 := a1 + [Await(ResultPrefixes, resultTimeout)];
        if w2.line.None? then
          Exchange(Replied(Err("timeout in attesa di RESULT (stop)")), a2, w.used + w2.used)
        else Exchange(Replied(Ok(w2.line.value)), a2, w.used + w2.used)
  }

  /** The exchange of `gw_stop` once the transport is open. */
  function StopExchange(moduleId: string, resultTimeout: real, ev: seq<Event>): Exchange {
    Command(StopLine(moduleId), StopAnswer(resultTimeout, ev))
  }

  function Stop(port: string, moduleId: string, resultTimeout: real, connects: bool, ev: seq<Event>): (x: Exchange)
    ensures Bracketed(x.actions)
    ensures !connects ==> x.outcome == Raised && x.actions == []
    ensures x.outcome.Replied? ==>
              ParseEndpoint(port).Some? && |x.actions| >= 3 && x.actions[..3] == [Open(ParseEndpoint(port).value), Flush, Send(StopLine(moduleId))]
  {
    var inner := StopExchange(moduleId, resultTimeout, ev);
    SessionSends(port, connects, StopLine(moduleId), StopAnswer(resultTimeout, ev));
    Session(port, connects, inner)
  }

  /** The three ways `gw_stop` ends once an answer arrives: a `RESULT` or
      `ERROR` first is success with that line; `STOP_OK` without
      `status=PENDING` is success at once; with it, the outcome is the next
      `RESULT`, or a failure on timeout. */
  lemma StopOutcomes(t: real, ev: seq<Event>)
    ensures var x := StopAnswer(t, ev);
            var w := ReadUntilPrefix(ev, StopPrefixes);
            w.line.Some? ==>
              var s := w.line.value;
              && ((StartsWith(s, "RESULT") || StartsWith(s, "ERROR") || !Contains(s, "status=PENDING"))
                    ==> x.outcome == Replied(Ok(s)) && |x.actions| == 1)
              && (StartsWith(s, "STOP_OK") && Contains(s, "status=PENDING") ==>
                    var w2 := ReadUntilPrefix(ev[w.used..], ResultPrefixes);
                    && x.actions == [Await(StopPrefixes, AckTimeout), Await(ResultPrefixes, t)]
                    && (w2.line.Some? ==> x.outcome == Replied(Ok(w2.line.value)))
                    && (w2.line.None? ==> x.outcome == Replied(Err("timeout in attesa di RESULT (stop)"))))
  {
    var w := ReadUntilPrefix(ev, StopPrefixes);
    if w.line.Some? && StartsWith(w.line.value, "STOP_OK") {
      var s := w.line.value;
      assert !StartsWith(s, "RESULT") by { assert s[0] == 'S'; }
      assert !StartsWith(s, "ERROR") by { assert s[0] == 'S'; }
    }
  }

  // --------------------------------------------------------------- status

  const StatusPrefixes: seq<string> := ["STATUS", "ERROR", "RESULT"]

  /** What `gw_status` does after sending `STATUS`: the first line that
      starts with `STATUS`, `ERROR` or `RESULT` is the detail. */
  function StatusAnswer(ev: seq<Event>): (x: Exchange)
    ensures x.used <= |ev|
    ensures Inner(x.actions)
    ensures x.outcome.Replied? && x.outcome.reply.Ok? <==> ReadUntilPrefix(ev, StatusPrefixes).line.Some?
    ensures x.outcome.Replied? && x.outcome.reply.Ok? ==>
      StartsWithAny(x.outcome.reply.detail, StatusPrefixes)
  {
    var w := ReadUntilPrefix(ev, StatusPrefixes);
    var a := [Await(StatusPrefixes, StatusTimeout)];
    if w.line.None? then Exchange(Replied(Err("timeout in attesa di STATUS")), a, w.used)
    else Exchange(Replied(Ok(w.line.value)), a, w.used)
  }

  function StatusExchange(ev: seq<Event>): Exchange {
    Command("STATUS", StatusAnswer(ev))
  }

  function Status(port: string, connects: bool, ev: seq<Event>): (x: Exchange)
    ensures Bracketed(x.actions)
    ensures !connects ==> x.outcome == Raised && x.actions == []
    ensures x.outcome.Replied? ==>
              ParseEndpoint(port).Some? && |x.actions| >= 3 && x.actions[..3] == [Open(ParseEndpoint(port).value), Flush, Send("STATUS")]
  {
    var inner := StatusExchange(ev);
    SessionSends(port, connects, "STATUS", StatusAnswer(ev));
    Session(port, connects, inner)
  }

  // -------------------------------------------------------- bracketing

  /** Every operation that gets as far as opening the endpoint opens it once,
      first, and closes it once, last, on every path. */
  predicate Bracketed(actions: seq<Action>) {
    || actions == []
    || (&& |actions| >= 2
        && actions[0].Open? && actions[|actions| - 1] == Close
        && Inner(actions[1..|actions| - 1]))
  }

  lemma SessionBracketed(port: string, connects: bool, x: Exchange)
    requires Inner(x.actions)
    ensures Bracketed(Session(port, connects, x).actions)
  {
    if ParseEndpoint(port).Some? && connects {
      Wrapped(ParseEndpoint(port).value, x.actions);
    }
  }

  /** Opening, flushing, the inner actions and a close form one bracket. */
  lemma Wrapped(e: Endpoint, inner: seq<Action>)
    requires Inner(inner)
    ensures Bracketed([Open(e), Flush] + inner + [Close])
  {
    var all := [Open(e), Flush] + inner + [Close];
    var mid := [Flush] + inner;
    assert all[1..|all| - 1] == mid;
    forall i | 0 <= i < |mid|
      ensures !mid[i].Open? && mid[i] != Close
    {
      if i > 0 {
        assert mid[i] == inner[i - 1];
      }
    }
  }

  /** An operation replies only after the endpoint was opened and flushed
      and its command line was sent: an unencodable line raises instead. */
  lemma SessionSends(port: string, connects: bool, line: string, next: Exchange)
    requires Inner(next.actions)
    ensures var s := Session(port, connects, Command(line, next));
            && Bracketed(s.actions)
            && (!connects ==> s.outcome == Raised && s.actions == [])
            && (s.outcome.Replied? ==>
                  ParseEndpoint(port).Some? && |s.actions| >= 3
                  && s.actions[..3] == [Open(ParseEndpoint(port).value), Flush, Send(line)])
  {
    SessionBracketed(port, connects, Command(line, next));
  }
}

=== FILE: end_to_end.dfy ===
/** The protocol from both ends: the command lines `gateway.py` formats,
    as the agent (firmware/agent/src/main.c) parses them, and the agent's
    replies, as the gateway's waits classify them. */
module EndToEnd {
  import opened Common
  import opened Numerals
  import opened Crc32
  import opened Transport
  import opened DeviceProtocol
  import opened AgentParams
  import opened Agent

  // ------------------------------------------------------ reading fields

  /** A value the agent reads back as the gateway wrote it: free of `=`
      and of the characters that end a value. */
  predicate PlainValue(v: string) {
    forall i | 0 <= i < |v| :: v[i] != '=' && !EndsValue(v[i])
  }

  /** The text in front of the second field of every command line. */
  function IdField(id: string): string {
    "module_id=" + id + " "
  }

  /** `module_id=` leads the line, so `find_param` finds it at once. */
  lemma IdFieldRead(id: string, tail: string, size: nat)
    requires PlainValue(id) && |id| < size
    requires StartsWith(tail, " ")
    ensures Param(IdField(id) + tail[1..], "module_id", size) == Some(id)
  {
    var line := IdField(id) + tail[1..];
    assert line == "module_id=" + (id + tail) by {
      assert tail == " " + tail[1..];
    }
    assert line[..9] == "module_id" && line[9] == '=';
    FindParamFirst(line, "module_id", 0);
    assert line[10..] == id + tail;
    ParamValueExact(id, tail, size);
  }

  /** The second field of a line is found where it stands: no earlier
      `key=` can hide in an id without `=`. */
  lemma SecondFieldFound(id: string, key: string, tail: string)
    requires PlainValue(id)
    requires key == "size" || key == "func"
    requires StartsWith(tail, key + "=")
    ensures FindParam(IdField(id) + tail, key) == Some(|IdField(id)| + |key| + 1)
  {
    var pre := IdField(id);
    var line := pre + tail;
    var k := |pre|;
    KeyAt(pre, tail, key);
    forall j | 0 <= j < k
      ensures !ParamAt(line, key, j)
    {
      NoKeyInIdField(id, key, tail, j);
    }
    FindParamFirst(line, key, k);
  }

  /** No `size=` or `func=` starts inside `module_id=<id> `: the `=` it
      needs would fall on a letter of the key, of `module_id` or of the id. */
  lemma NoKeyInIdField(id: string, key: string, tail: string, j: nat)
    requires PlainValue(id)
    requires key == "size" || key == "func"
    requires StartsWith(tail, key + "=")
    requires j < |IdField(id)|
    ensures !ParamAt(IdField(id) + tail, key, j)
  {
    var pre := IdField(id);
    var line := pre + tail;
    var k := |pre|;
    if j == 5 {
      assert line[5..9] == "e_id";
    } else if j + 4 < k {
      EqualsOnlyAfterKey(id, j + 4);
      assert line[j + 4] == pre[j + 4];
    } else if j + 4 < |line| {
      var i := j + 4 - k;
      assert i < |key|;
      assert line[j + 4] == tail[i] == (key + "=")[i] == key[i];
      assert key[i] != '=';
    }
  }

  /** A field that opens the rest of the line is a match for its key. */
  lemma KeyAt(pre: string, tail: string, key: string)
    requires StartsWith(tail, key + "=")
    ensures ParamAt(pre + tail, key, |pre|)
  {
    var line := pre + tail;
    assert line[|pre|..|pre| + |key|] == tail[..|key|] == (key + "=")[..|key|];
    assert line[|pre| + |key|] == tail[|key|] == (key + "=")[|key|];
  }

  /** In `module_id=<id> ` the only `=` is the one after the key. */
  lemma EqualsOnlyAfterKey(id: string, i: nat)
    requires PlainValue(id) && i < |IdField(id)| && i != 9
    ensures IdField(id)[i] != '='
  {
    var pre := IdField(id);
    if i < 10 {
      assert pre[i] == "module_id="[i];
    } else if i < 10 + |id| {
      assert pre[i] == id[i - 10];
    } else {
      assert pre[i] == ' ';
    }
  }

  /** The second field of a line, with its value and the space after it. */
  function Middle(key: string, v: string): string {
    key + "=" + v + " "
  }

  /** The third field is found where it stands as well: its key is neither
      the tail of `module_id` nor of ` <key2>`, the only places before it
      that end in `=`. */
  lemma ThirdFieldFound(id: string, key2: string, v2: string, key3: string, tail: string)
    requires PlainValue(id) && PlainValue(v2)
    requires (key2 == "size" && key3 == "crc32") || (key2 == "func" && key3 == "args")
    requires StartsWith(tail, key3 + "=")
    ensures var pre := IdField(id) + Middle(key2, v2);
            FindParam(pre + tail, key3) == Some(|pre| + |key3| + 1)
  {
    var pre := IdField(id) + Middle(key2, v2);
    var line := pre + tail;
    var k := |pre|;
    KeyAt(pre, tail, key3);
    forall j | 0 <= j < k
      ensures !ParamAt(line, key3, j)
    {
      ThirdNotBefore(id, key2, v2, key3, tail, j);
    }
    FindParamFirst(line, key3, k);
  }

  lemma ThirdNotBefore(id: string, key2: string, v2: string, key3: string, tail: string, j: nat)
    requires PlainValue(id) && PlainValue(v2)
    requires (key2 == "size" && key3 == "crc32") || (key2 == "func" && key3 == "args")
    requires StartsWith(tail, key3 + "=")
    requires j < |IdField(id) + Middle(key2, v2)|
    ensures !ParamAt(IdField(id) + Middle(key2, v2) + tail, key3, j)
  {
    var p1 := IdField(id);
    var pre := p1 + Middle(key2, v2);
    var line := pre + tail;
    var n := |key3|;
    if j + n == 9 {
      assert line[8] == p1[8] == 'd';
      LastOfWindow(line, key3, j);
    } else if j + n == |p1| + |key2| {
      assert line[j + n - 1] == Middle(key2, v2)[|key2| - 1] == key2[3];
      LastOfWindow(line, key3, j);
    } else if j + n < |p1| {
      EqualsOnlyAfterKey(id, j + n);
      assert line[j + n] == p1[j + n];
    } else if j + n < |pre| {
      MiddleEquals(key2, v2, j + n - |p1|);
      assert line[j + n] == Middle(key2, v2)[j + n - |p1|];
    } else {
      var i := j + n - |pre|;
      assert i < n && tail[i] == key3[i];
      assert key3[i] != '=';
      assert line[j + n] == tail[i];
    }
  }

  /** A key found at `j` ends in the character before `j + |key|`. */
  lemma LastOfWindow(line: string, key: string, j: nat)
    requires |key| > 0
    ensures ParamAt(line, key, j) ==> line[j + |key| - 1] == key[|key| - 1]
  {
    if ParamAt(line, key, j) {
      assert line[j..j + |key|][|key| - 1] == line[j + |key| - 1];
    }
  }

  /** In `<key2>=<v2> ` the only `=` is the one after the key. */
  lemma MiddleEquals(key2: string, v2: string, i: nat)
    requires key2 == "size" || key2 == "func"
    requires PlainValue(v2) && i < |Middle(key2, v2)| && i != |key2|
    ensures Middle(key2, v2)[i] != '='
  {
    var m := Middle(key2, v2);
    if i < 4 {
      assert m[i] == key2[i];
    } else if i < 5 + |v2| {
      assert m[i] == v2[i - 5];
    } else {
      assert m[i] == ' ';
    }
  }

  /** Digits, decimal or hex, are read back whole. */
  lemma DigitsPlain(d: string)
    requires forall i | 0 <= i < |d| :: IsHexDigit(d[i])
    ensures PlainValue(d)
  {
  }

  // ---------------------------------------------------------------- LOAD

  /** The argument text of a `LOAD` line with the given fields. */
  function LoadFields(id: string, dec: string, hex: string): string {
    IdField(id) + Middle("size", dec) + "crc32=" + hex
  }

  /** What the agent reads after the `LOAD ` of `gw_deploy`'s line. */
  function LoadArgs(id: string, data: seq<byte>): string {
    LoadFields(id, Decimal(|data|), Hex8(Checksum(data)))
  }

  /** `gw_deploy`'s line is the `LOAD` command word, a space and the fields. */
  lemma LoadLineSplits(id: string, data: seq<byte>)
    ensures LoadLine(id, data) == "" + "LOAD" + " " + LoadArgs(id, data)
  {
    LoadShape(id, Decimal(|data|), Hex8(Checksum(data)));
  }

  lemma LoadShape(id: string, dec: string, hex: string)
    ensures "LOAD module_id=" + id + " size=" + dec + " crc32=" + hex
         == "" + "LOAD" + " " + LoadFields(id, dec, hex)
  {
    assert "LOAD module_id=" == "LOAD" + " " + "module_id=";
    assert " size=" == " " + ("size" + "=");
    assert " crc32=" == " " + "crc32=";
  }

  /** Each of the three fields is read back as written. */
  lemma LoadFieldsRead(id: string, dec: string, hex: string)
    requires PlainValue(id) && |id| < ModuleIdSize
    requires PlainValue(dec) && |dec| <= 10
    requires PlainValue(hex) && |hex| == 8
    ensures var line := LoadFields(id, dec, hex);
            && Param(line, "module_id", ModuleIdSize) == Some(id)
            && Param(line, "size", NumberSize) == Some(dec)
            && Param(line, "crc32", NumberSize) == Some(hex)
  {
    LoadIdField(id, dec, hex);
    LoadSizeField(id, dec, hex);
    LoadCrcField(id, dec, hex);
  }

  lemma LoadIdField(id: string, dec: string, hex: string)
    requires PlainValue(id) && |id| < ModuleIdSize
    ensures Param(LoadFields(id, dec, hex), "module_id", ModuleIdSize) == Some(id)
  {
    var tail := " " + Middle("size", dec) + "crc32=" + hex;
    assert LoadFields(id, dec, hex) == IdField(id) + tail[1..];
    IdFieldRead(id, tail, ModuleIdSize);
  }

  lemma LoadSizeField(id: string, dec: string, hex: string)
    requires PlainValue(id) && PlainValue(dec) && |dec| <= 10
    ensures Param(LoadFields(id, dec, hex), "size", NumberSize) == Some(dec)
  {
    var crcField := "crc32=" + hex;
    var tail := "size=" + dec + " " + crcField;
    assert LoadFields(id, dec, hex) == IdField(id) + tail;
    SecondFieldFound(id, "size", tail);
    SizeValueRead(id, dec, crcField);
  }

  lemma LoadCrcField(id: string, dec: string, hex: string)
    requires PlainValue(id) && PlainValue(dec) && PlainValue(hex) && |hex| == 8
    ensures Param(LoadFields(id, dec, hex), "crc32", NumberSize) == Some(hex)
  {
    var pre := IdField(id) + Middle("size", dec);
    var crcField := "crc32=" + hex;
    assert LoadFields(id, dec, hex) == pre + crcField;
    ThirdFieldFound(id, "size", dec, "crc32", crcField);
    CrcFieldRead(LoadFields(id, dec, hex), pre, hex);
  }

  /** Once `crc32=` is found right after `pre`, its value is read whole. */
  lemma CrcFieldRead(line: string, pre: string, hex: string)
    requires PlainValue(hex) && |hex| == 8
    requires line == pre + ("crc32=" + hex)
    requires FindParam(line, "crc32") == Some(|pre| + 6)
    ensures Param(line, "crc32", NumberSize) == Some(hex)
  {
    CrcValueRead(pre, hex);
  }

  lemma SizeValueRead(id: string, dec: string, crcField: string)
    requires PlainValue(dec) && |dec| <= 10
    ensures var line := IdField(id) + ("size=" + dec + " " + crcField);
            FindParam(line, "size") == Some(|IdField(id)| + 5) ==>
            Param(line, "size", NumberSize) == Some(dec)
  {
    var line := IdField(id) + ("size=" + dec + " " + crcField);
    assert line[|IdField(id)| + 5..] == dec + (" " + crcField);
    ParamValueExact(dec, " " + crcField, NumberSize);
  }

  lemma CrcValueRead(pre: string, hex: string)
    requires PlainValue(hex) && |hex| == 8
    ensures var line := pre + ("crc32=" + hex);
            FindParam(line, "crc32") == Some(|pre| + 6) ==>
            Param(line, "crc32", NumberSize) == Some(hex)
  {
    var line := pre + ("crc32=" + hex);
    assert line[|pre| + 6..] == hex + "";
    ParamValueExact(hex, "", NumberSize);
  }

  /** The header checks pass on fields that read back as a non-zero size. */
  lemma HeaderOfFields(line: string, dec: string, hex: string)
    requires Param(line, "size", NumberSize) == Some(dec)
    requires Param(line, "crc32", NumberSize) == Some(hex)
    requires 0 < Atoi(dec)
    ensures LoadHeaderOf(line) == Header(Atoi(dec), hex, StrToUlHex(hex))
  {
  }

  /** The agent reads the size, checksum and module id the gateway wrote. */
  lemma LoadHeaderRead(id: string, data: seq<byte>)
    requires PlainValue(id) && |id| < ModuleIdSize && 0 < |data| < TwoTo31
    ensures var c := Checksum(data);
            LoadHeaderOf(LoadArgs(id, data)) == Header(|data|, Hex8(c), c as nat)
    ensures LoadedId(LoadArgs(id, data)) == id
  {
    var c := Checksum(data);
    var dec, hex := Decimal(|data|), Hex8(c);
    DigitsPlain(dec);
    DigitsPlain(hex);
    DecimalOfWord(|data|);
    LoadFieldsRead(id, dec, hex);
    AtoiDecimal(|data|);
    StrToUlHex8(c);
    HeaderOfFields(LoadArgs(id, data), dec, hex);
  }

  // ------------------------------------------------------ replies heard

  /** The lines the gateway's `read_line` yields for the agent's replies:
      each reply is one line, with its line end stripped. */
  function Heard(replies: seq<string>): (ev: seq<Event>)
    ensures |ev| == |replies|
  {
    if |replies| == 0 then [] else [Line(RStripCrLf(replies[0]))] + Heard(replies[1..])
  }

  /** A reply that ends in one LF is heard without it. */
  lemma StripOneLf(t: string)
    requires |t| > 0 && !IsCrLf(t[|t| - 1])
    ensures RStripCrLf(t + "\n") == t
  {
    assert (t + "\n")[..|t|] == t;
  }

  /** A text that differs from `p` at `i` does not start with it. */
  lemma DiffersAt(s: string, p: string, i: nat)
    requires i < |s| && i < |p| && s[i] != p[i]
    ensures !StartsWith(s, p)
  {
  }

  /** A single wait sees the first line when it already matches. */
  lemma FirstLineMatches(t: string, rest: seq<Event>, prefixes: seq<string>)
    requires StartsWithAny(t, prefixes)
    ensures ReadUntilPrefix([Line(t)] + rest, prefixes) == Wait(Some(t), 1)
  {
  }

  // ------------------------------------------------------- LOAD exchange

  function ReadyText(size: nat, crcText: string): string {
    "LOAD_READY size=" + Decimal(size) + " crc32=" + crcText
  }

  /** The `LOAD_READY` line of a 32-bit size fits `out_buf` whole. */
  lemma ReadyLineWhole(size: nat, hex: string)
    requires size < TwoTo32 && |hex| == 8
    ensures ReadyLine(size, hex) == ReadyText(size, hex) + "\n"
  {
    DecimalOfWord(size);
  }

  /** `gw_deploy`'s line reaches `handle_load_cmd` with the fields. */
  lemma LoadRouted(a: Agent, id: string, data: seq<byte>, env: LoadEnv)
    ensures HandleCommandLine(a, LoadLine(id, data), env) == HandleLoad(a, LoadArgs(id, data), env)
  {
    var rest := LoadArgs(id, data);
    LoadLineSplits(id, data);
    var hex := Hex8(Checksum(data));
    assert rest[|rest| - 1] == hex[7];
    Dispatches(a, "", "LOAD", rest, env);
  }

  /** A header that checks out and a payload that installs give the two
      replies `LOAD_READY` and `LOAD_OK`. */
  lemma LoadInstalled(a: Agent, rest: string, env: LoadEnv)
    requires LoadHeaderOf(rest).Header?
    requires env.allocates
    requires Installs(LoadHeaderOf(rest).size, LoadHeaderOf(rest).expected, env)
    ensures var h := LoadHeaderOf(rest);
            HandleLoad(a, rest, env)
              == Step(a.(loaded := true, moduleId := LoadedId(rest), exports := env.exports),
                      [ReadyLine(h.size, h.crcText), LoadOk])
  {
    AnswersInstalled(a, rest, LoadHeaderOf(rest), env, HandleLoad(a, rest, env));
  }

  lemma AnswersInstalled(a: Agent, line: string, h: LoadHeader, env: LoadEnv, s: Step)
    requires h.Header? && LoadAnswers(a, line, h, env, s)
    requires env.allocates && Installs(h.size, h.expected, env)
    ensures s == Step(a.(loaded := true, moduleId := LoadedId(line), exports := env.exports),
                      [ReadyLine(h.size, h.crcText), LoadOk])
  {
    assert s.replies == [s.replies[0], s.replies[1]];
  }

  /** The agent takes the `LOAD` line of `gw_deploy`, with the payload that
      follows it, and installs the module under the id the gateway gave. */
  lemma AgentLoads(a: Agent, id: string, data: seq<byte>, env: LoadEnv)
    requires PlainValue(id) && |id| < ModuleIdSize && 0 < |data| < TwoTo31
    requires env.allocates && env.loadError.None? && env.instantiateError.None?
    requires |env.received| >= |data| && env.received[..|data|] == data
    ensures var c := Checksum(data);
            HandleCommandLine(a, LoadLine(id, data), env)
              == Step(a.(loaded := true, moduleId := id, exports := env.exports),
                      [ReadyLine(|data|, Hex8(c)), LoadOk])
  {
    LoadRouted(a, id, data, env);
    LoadHeaderRead(id, data);
    LoadInstalled(a, LoadArgs(id, data), env);
  }

  /** ... and `gw_deploy` reports the `LOAD_OK` it hears back. */
  lemma DeploySucceeds(a: Agent, id: string, data: seq<byte>, env: LoadEnv)
    requires PlainValue(id) && |id| < ModuleIdSize && 0 < |data| < TwoTo31
    requires env.allocates && env.loadError.None? && env.instantiateError.None?
    requires |env.received| >= |data| && env.received[..|data|] == data
    ensures var s := HandleCommandLine(a, LoadLine(id, data), env);
            DeployAnswer(data, Heard(s.replies)).outcome == Replied(Ok("LOAD_OK"))
  {
    AgentLoads(a, id, data, env);
    DeployHearsAgent(data);
  }

  /** The replies of an installing `LOAD`, as the gateway hears them. */
  lemma DeployHearsAgent(data: seq<byte>)
    requires 0 < |data| < TwoTo31
    ensures var c := Checksum(data);
            DeployAnswer(data, Heard([ReadyLine(|data|, Hex8(c)), LoadOk])).outcome
              == Replied(Ok("LOAD_OK"))
  {
    var hex := Hex8(Checksum(data));
    var ready := ReadyText(|data|, hex);
    ReadyLineWhole(|data|, hex);
    ReadyTextShape(|data|, hex);
    DeployHearsReady(data, ready);
  }

  /** The `LOAD_READY` text ends in its last checksum digit. */
  lemma ReadyTextShape(size: nat, hex: string)
    requires |hex| == 8 && IsHexDigit(hex[7])
    ensures var ready := ReadyText(size, hex);
            StartsWith(ready, "LOAD_READY") && !IsCrLf(ready[|ready| - 1])
  {
    var ready := ReadyText(size, hex);
    assert ready[|ready| - 1] == hex[7];
    assert ready[..10] == "LOAD_READY";
  }

  /** The gateway's two waits of a deploy, on a `LOAD_READY` and a `LOAD_OK`. */
  lemma DeployHearsReady(data: seq<byte>, ready: string)
    requires StartsWith(ready, "LOAD_READY") && !IsCrLf(ready[|ready| - 1])
    ensures DeployAnswer(data, Heard([ready + "\n", LoadOk])).outcome == Replied(Ok("LOAD_OK"))
  {
    StripOneLf(ready);
    StripOneLf("LOAD_OK");
    HeardTwo(ready + "\n", LoadOk);
    var ev := [Line(ready), Line("LOAD_OK")];
    assert StartsWith(ready, LoadReadyPrefixes[0]);
    assert !StartsWith(ready, "LOAD_ERR") by { assert ready[5] == 'R'; }
    FirstLineMatches(ready, [Line("LOAD_OK")], LoadReadyPrefixes);
    assert ev == [Line(ready)] + [Line("LOAD_OK")];
    assert ev[1..] == [Line("LOAD_OK")] + [];
    assert StartsWith("LOAD_OK", LoadOkPrefixes[0]);
    FirstLineMatches("LOAD_OK", [], LoadOkPrefixes);
  }

  lemma HeardOne(x: string)
    ensures Heard([x]) == [Line(RStripCrLf(x))]
  {
    assert [x][1..] == [];
  }

  lemma HeardTwo(x: string, y: string)
    ensures Heard([x, y]) == [Line(RStripCrLf(x)), Line(RStripCrLf(y))]
  {
    assert [x, y][1..] == [y];
    assert [y][1..] == [];
  }

  /** An empty file is announced with `size=0`; the agent refuses it and
      keeps its state, and `gw_deploy` reports the refusal after its first
      wait, without sending the payload or waiting again. */
  lemma EmptyFileRefused(a: Agent, id: string, env: LoadEnv)
    requires PlainValue(id) && |id| < ModuleIdSize
    ensures HandleCommandLine(a, LoadLine(id, []), env) == Step(a, [ZeroSize])
    ensures DeployAnswer([], Heard([ZeroSize])).outcome
              == Replied(Err("LOAD_ERR code=BAD_PARAMS msg=\"size=0\""))
    ensures DeployAnswer([], Heard([ZeroSize])).actions == [Await(LoadReadyPrefixes, AckTimeout)]
  {
    LoadRouted(a, id, [], env);
    ZeroHeader(id, Hex8(Checksum([])));
    DeployHearsZero();
  }

  lemma ZeroHeader(id: string, hex: string)
    requires PlainValue(id) && |id| < ModuleIdSize
    requires forall i | 0 <= i < |hex| :: IsHexDigit(hex[i])
    requires |hex| == 8
    ensures LoadHeaderOf(LoadFields(id, Decimal(0), hex)) == BadParams(ZeroSize)
  {
    var dec := Decimal(0);
    DigitsPlain(dec);
    DigitsPlain(hex);
    LoadFieldsRead(id, dec, hex);
    AtoiDecimal(0);
  }

  lemma DeployHearsZero()
    ensures DeployAnswer([], Heard([ZeroSize])).outcome
              == Replied(Err("LOAD_ERR code=BAD_PARAMS msg=\"size=0\""))
    ensures DeployAnswer([], Heard([ZeroSize])).actions == [Await(LoadReadyPrefixes, AckTimeout)]
  {
    var t := "LOAD_ERR code=BAD_PARAMS msg=\"size=0\"";
    assert ZeroSize == t + "\n";
    StripOneLf(t);
    assert Heard([ZeroSize]) == [Line(t)] + [];
    assert StartsWith(t, LoadReadyPrefixes[1]);
    DeployRefusedFirst([], t, []);
  }

  /** A `LOAD_ERR` heard first ends the deploy after its first wait. */
  lemma DeployRefusedFirst(data: seq<byte>, t: string, rest: seq<Event>)
    requires StartsWith(t, "LOAD_ERR")
    ensures DeployAnswer(data, [Line(t)] + rest)
         == Exchange(Replied(Err(t)), [Await(LoadReadyPrefixes, AckTimeout)], 1)
  {
    assert StartsWith(t, LoadReadyPrefixes[1]);
    FirstLineMatches(t, rest, LoadReadyPrefixes);
  }

  // --------------------------------------------------------------- START

  /** One `name=value` item of the `args` the gateway passes through. */
  datatype Arg = Arg(name: string, value: nat)

  function ArgToken(x: Arg): string {
    x.name + "=" + Decimal(x.value)
  }

  function ArgTokens(xs: seq<Arg>): (r: seq<string>)
    ensures |r| == |xs|
    ensures forall i | 0 <= i < |xs| :: r[i] == ArgToken(xs[i])
    decreases |xs|
  {
    if |xs| == 0 then [] else [ArgToken(xs[0])] + ArgTokens(xs[1..])
  }

  function ArgValues(xs: seq<Arg>): (r: seq<nat>)
    ensures |r| == |xs|
    ensures forall i | 0 <= i < |xs| :: r[i] == xs[i].value
    decreases |xs|
  {
    if |xs| == 0 then [] else [xs[0].value] + ArgValues(xs[1..])
  }

  /** The `func_args` text `a=200,b=26` of a call with these arguments. */
  function ArgsString(xs: seq<Arg>): string {
    Join(ArgTokens(xs), ',')
  }

  /** An argument the agent reads back: a name free of the characters that
      delimit it, and a value `atoi` reads whole. */
  predicate PlainArg(x: Arg) {
    && '=' !in x.name && ',' !in x.name && '"' !in x.name
    && x.value < TwoTo31
  }

  lemma TokenValueOf(x: Arg)
    requires PlainArg(x)
    ensures TokenValue(ArgToken(x)) == Some(x.value)
  {
    var d := Decimal(x.value);
    assert ArgToken(x) == x.name + ("=" + d);
    IndexOfAfterFree(x.name, '=', "=" + d);
    assert ArgToken(x)[|x.name| + 1..] == d;
    AtoiDecimal(x.value);
  }

  /** The agent's `atoi` pass over the tokens gives the values back. */
  lemma {:induction false} ValuesOfArgs(xs: seq<Arg>)
    requires forall i | 0 <= i < |xs| :: PlainArg(xs[i])
    ensures Values(ArgTokens(xs)) == ArgValues(xs)
    decreases |xs|
  {
    if |xs| > 0 {
      TokenValueOf(xs[0]);
      assert ArgTokens(xs)[1..] == ArgTokens(xs[1..]);
      ValuesOfArgs(xs[1..]);
    }
  }

  /** A joined text holds a character only if a token does. */
  lemma {:induction false} JoinFree(ts: seq<string>, d: char, c: char)
    requires c != d
    requires forall i | 0 <= i < |ts| :: c !in ts[i]
    ensures c !in Join(ts, d)
    decreases |ts|
  {
    if |ts| > 1 {
      JoinFree(ts[1..], d, c);
    }
  }

  /** `strtok` over the `args` text gives the tokens the gateway joined. */
  lemma ArgsTokens(xs: seq<Arg>)
    requires forall i | 0 <= i < |xs| :: PlainArg(xs[i])
    ensures Tokens(ArgsString(xs), ',') == ArgTokens(xs)
    ensures '"' !in ArgsString(xs)
    ensures xs == [] <==> ArgsString(xs) == ""
  {
    var ts := ArgTokens(xs);
    forall i | 0 <= i < |ts|
      ensures |ts[i]| > 0 && ',' !in ts[i] && '"' !in ts[i]
    {
      ArgTokenPlain(xs[i]);
    }
    TokensJoin(ts, ',');
    JoinFree(ts, ',', '"');
  }

  lemma ArgTokenPlain(x: Arg)
    requires PlainArg(x)
    ensures |ArgToken(x)| > 0 && ',' !in ArgToken(x) && '"' !in ArgToken(x)
  {
    var d := Decimal(x.value);
    assert ',' !in d && '"' !in d by {
      forall i | 0 <= i < |d| ensures d[i] != ',' && d[i] != '"' {
        assert IsDigit(d[i]);
      }
    }
    assert ArgToken(x) == x.name + "=" + d;
  }

  /** The fields after `START ` with an `args="…"` field. */
  function StartFields(id: string, func: string, text: string): string {
    IdField(id) + Middle("func", func) + "args=" + ("\"" + text + "\"")
  }

  /** The fields after `START ` without one. */
  function BareFields(id: string, func: string): string {
    IdField(id) + "func=" + func
  }

  function StartArgs(id: string, func: string, text: string): string {
    if text != "" then StartFields(id, func, text) else BareFields(id, func)
  }

  lemma StartShape(id: string, func: string, text: string)
    ensures StartLine(id, func, text) == "" + "START" + " " + StartArgs(id, func, text)
  {
    BareShape(id, func);
    if text != "" {
      var q := "\"";
      var a := "START module_id=" + id + " func=" + func;
      var b := " args=\"" + text + q;
      assert StartLine(id, func, text) == a + b;
      var f := BareFields(id, func);
      assert b == " " + ("args=" + (q + text + q));
      assert f + " " + ("args=" + (q + text + q)) == StartFields(id, func, text);
    }
  }

  lemma BareShape(id: string, func: string)
    ensures "START module_id=" + id + " func=" + func == "" + "START" + " " + BareFields(id, func)
  {
    assert "START module_id=" == "START" + " " + "module_id=";
    assert " func=" == " " + "func=";
  }

  lemma StartIdField(id: string, func: string, text: string)
    requires PlainValue(id) && |id| < ModuleIdSize
    ensures Param(StartArgs(id, func, text), "module_id", ModuleIdSize) == Some(id)
  {
    var line := StartArgs(id, func, text);
    var tail := " " + line[|IdField(id)|..];
    assert line == IdField(id) + tail[1..];
    IdFieldRead(id, tail, ModuleIdSize);
  }

  lemma StartFuncField(id: string, func: string, text: string)
    requires PlainValue(id) && PlainValue(func) && |func| < FuncNameSize
    ensures Param(StartArgs(id, func, text), "func", FuncNameSize) == Some(func)
  {
    var line := StartArgs(id, func, text);
    var rest := if text != "" then " " + "args=" + ("\"" + text + "\"") else "";
    var tail := "func=" + func + rest;
    assert line == IdField(id) + tail;
    SecondFieldFound(id, "func", tail);
    assert line[|IdField(id)| + 5..] == func + rest;
    ParamValueExact(func, rest, FuncNameSize);
  }

  /** The quoted `args` text is what the agent copies into `args_buf`. */
  lemma StartArgsField(id: string, func: string, text: string)
    requires PlainValue(id) && PlainValue(func)
    requires '"' !in text && |text| < ArgsBufSize
    ensures ArgsText(StartFields(id, func, text)) == Some(text)
  {
    var pre := IdField(id) + Middle("func", func);
    var field := "args=" + ("\"" + text + "\"");
    var line := StartFields(id, func, text);
    assert line == pre + field;
    ThirdFieldFound(id, "func", func, "args", field);
    QuotedAt(pre, text);
    ArgsTextAt(line, |pre| + 5, text);
  }

  lemma QuotedAt(pre: string, text: string)
    ensures var line := pre + ("args=" + ("\"" + text + "\""));
            && line[|pre| + 5] == '"'
            && line[|pre| + 6..] == text + "\""
  {
  }

  /** `args="<text>"` found at `p`: the text up to the closing quote. */
  lemma ArgsTextAt(line: string, p: nat, text: string)
    requires FindParam(line, "args") == Some(p)
    requires p < |line| && line[p] == '"' && line[p + 1..] == text + "\""
    requires '"' !in text && |text| < ArgsBufSize
    ensures ArgsText(line) == Some(text)
  {
    ArgsTextFound(line, p);
    QuotedOf(text);
  }

  /** Found at `p` and opened by a quote, the value is read by `Quoted`. */
  lemma ArgsTextFound(line: string, p: nat)
    requires FindParam(line, "args") == Some(p)
    requires p < |line| && line[p] == '"'
    ensures ArgsText(line) == Quoted(line[p + 1..])
  {
  }

  /** A quoted text shorter than `args_buf` is taken whole. */
  lemma QuotedOf(text: string)
    requires '"' !in text && |text| < ArgsBufSize
    ensures Quoted(text + "\"") == Some(text)
  {
    var body := text + "\"";
    IndexOfAfterFree(text, '"', "\"");
    assert body[..|text|] == text;
    assert Min(|text|, ArgsBufSize - 1) == |text|;
    assert text[..|text|] == text;
  }

  /** Without `args=`, no key `args` is found and no argument is passed. */
  lemma BareNoArgs(id: string, func: string)
    requires PlainValue(id) && PlainValue(func)
    ensures FindParam(BareFields(id, func), "args").None?
  {
    forall j: nat ensures !ParamAt(BareFields(id, func), "args", j) {
      BareNoArgsAt(id, func, j);
    }
  }

  lemma BareNoArgsAt(id: string, func: string, j: nat)
    requires PlainValue(id) && PlainValue(func)
    ensures !ParamAt(BareFields(id, func), "args", j)
  {
    var line := BareFields(id, func);
    var p1 := IdField(id);
    if j + 4 == 9 {
      assert line[8] == 'd';
      LastOfWindow(line, "args", j);
    } else if j + 4 == |p1| + 4 {
      assert line[j + 3] == 'c';
      LastOfWindow(line, "args", j);
    } else if j + 4 < |p1| {
      EqualsOnlyAfterKey(id, j + 4);
      assert line[j + 4] == p1[j + 4];
    } else if j + 4 < |line| {
      BareEquals(id, func, j + 4);
    }
  }

  lemma BareEquals(id: string, func: string, i: nat)
    requires PlainValue(func)
    requires |IdField(id)| <= i < |BareFields(id, func)| && i != |IdField(id)| + 4
    ensures BareFields(id, func)[i] != '='
  {
    var p1 := IdField(id);
    var line := BareFields(id, func);
    if i < |p1| + 5 {
      assert line[i] == "func="[i - |p1|];
    } else {
      assert line[i] == func[i - |p1| - 5];
    }
  }

  /** The argument vector the agent builds from `gw_start`'s line: the
      first four values the caller gave. */
  lemma StartArgvRead(id: string, func: string, xs: seq<Arg>)
    requires PlainValue(id) && PlainValue(func)
    requires forall i | 0 <= i < |xs| :: PlainArg(xs[i])
    requires |ArgsString(xs)| < ArgsBufSize
    ensures ParseArgs(StartArgs(id, func, ArgsString(xs))) == Take(ArgValues(xs), MaxCallArgs)
  {
    ArgsTokens(xs);
    var text := ArgsString(xs);
    if text != "" {
      StartArgsField(id, func, text);
      ValuesOfArgs(xs);
    } else {
      BareNoArgs(id, func);
    }
  }

  /** `gw_start`'s line reaches `handle_start_cmd` with its fields. */
  lemma StartRouted(a: Agent, id: string, func: string, text: string, env: LoadEnv)
    requires PlainValue(func) && |func| > 0
    ensures HandleCommandLine(a, StartLine(id, func, text), env)
              == HandleStart(a, StartArgs(id, func, text))
  {
    var rest := StartArgs(id, func, text);
    StartShape(id, func, text);
    if text != "" {
      assert rest[|rest| - 1] == '"';
    } else {
      assert rest[|rest| - 1] == func[|func| - 1];
    }
    Dispatches(a, "", "START", rest, env);
  }

  /** A `START` for the loaded module, while idle, naming an exported
      function, posts the job and is acknowledged. */
  lemma StartPosted(a: Agent, line: string, func: string)
    requires a.loaded && !a.busy
    requires Param(line, "module_id", ModuleIdSize) == Some(a.moduleId)
    requires Param(line, "func", FuncNameSize) == Some(func) && func in a.exports
    ensures HandleStart(a, line)
              == Step(a.(busy := true, stopRequested := false, run := RunRequest(func, ParseArgs(line))),
                      [StartOk])
  {
  }

  /** The agent takes the `START` line of `gw_start` for the module it
      holds and runs the named function on the first four values given. */
  lemma AgentStarts(a: Agent, func: string, xs: seq<Arg>, env: LoadEnv)
    requires a.loaded && !a.busy && func in a.exports
    requires PlainValue(a.moduleId) && |a.moduleId| < ModuleIdSize
    requires PlainValue(func) && 0 < |func| < FuncNameSize
    requires forall i | 0 <= i < |xs| :: PlainArg(xs[i])
    requires |ArgsString(xs)| < ArgsBufSize
    ensures HandleCommandLine(a, StartLine(a.moduleId, func, ArgsString(xs)), env)
              == Step(a.(busy := true, stopRequested := false,
                         run := RunRequest(func, Take(ArgValues(xs), MaxCallArgs))),
                      [StartOk])
  {
    var id, text := a.moduleId, ArgsString(xs);
    StartRouted(a, id, func, text, env);
    StartIdField(id, func, text);
    StartFuncField(id, func, text);
    StartArgvRead(id, func, xs);
    StartPosted(a, StartArgs(id, func, text), func);
  }

  /** `gw_start` without `wait_result` reports the `START_OK` it hears. */
  lemma StartSucceeds(t: real)
    ensures AwaitStartOk(Heard([StartOk])) == Accepted(1, 1)
    ensures StartAnswer(false, t, Heard([StartOk])).outcome == Replied(Ok("START_OK"))
  {
    assert StartOk == "START_OK" + "\n";
    StripOneLf("START_OK");
    HeardOne(StartOk);
    assert Heard([StartOk]) == [Line("START_OK")] + [];
    assert StartsWith("START_OK", StartPrefixes[0]);
    FirstLineMatches("START_OK", [], StartPrefixes);
    DiffersAt("START_OK", "ERROR", 0);
    DiffersAt("START_OK", "RESULT", 0);
    StartWithoutResultWait(t, Heard([StartOk]));
  }

  /** A `RESULT` line without `O` or `Y` names none of the statuses that
      make `gw_start` give up. */
  lemma NotRejection(t: string)
    requires 'O' !in t && 'Y' !in t
    ensures !IsRejection(t)
  {
    MissingChar(t, "status=NO_MODULE", 'O');
    MissingChar(t, "status=BUSY", 'Y');
    MissingChar(t, "status=NO_FUNC", 'O');
  }

  /** The agent's `BAD_PARAMS` refusal of a `START` is not one `gw_start`
      recognises: it is skipped like a stale `RESULT`, and the gateway
      keeps waiting for a `START_OK` that will not come. */
  lemma StartRefusalSkipped(r: string, ev: seq<Event>)
    requires r == MissingModuleId || r == MissingFunc
    ensures var w := AwaitStartOk(ev);
            AwaitStartOk(Heard([r]) + ev)
              == match w
                 case Accepted(n, u) => Accepted(n + 1, u + 1)
                 case Refused(reply, n, u) => Refused(reply, n + 1, u + 1)
  {
    var t := RefusalHeard(r);
    assert Heard([r]) + ev == [Line(t)] + ev;
    StartSkipsStaleResult(t, ev);
  }

  /** How the gateway hears a `BAD_PARAMS` refusal. */
  lemma RefusalHeard(r: string) returns (t: string)
    requires r == MissingModuleId || r == MissingFunc
    ensures Heard([r]) == [Line(t)]
    ensures StartsWith(t, "RESULT") && !IsRejection(t)
  {
    t := RefusalText(r);
    StripOneLf(t);
    HeardOne(r);
    NotRejection(t);
  }

  /** The refusal is a `RESULT` line without the letters of a rejection. */
  lemma RefusalText(r: string) returns (t: string)
    requires r == MissingModuleId || r == MissingFunc
    ensures r == t + "\n" && |t| > 0 && !IsCrLf(t[|t| - 1])
    ensures StartsWith(t, "RESULT") && 'O' !in t && 'Y' !in t
  {
    var what := if r == MissingModuleId then "missing module_id\"" else "missing func\"";
    t := ResultPrefix + (BadParamsMsg + what);
    assert r == t + "\n";
    assert t[..6] == "RESULT";
    RefusalChars(what);
  }

  lemma RefusalChars(what: string)
    requires what == "missing module_id\"" || what == "missing func\""
    ensures var t := ResultPrefix + (BadParamsMsg + what);
            'O' !in t && 'Y' !in t
  {
    assert 'O' !in ResultPrefix && 'Y' !in ResultPrefix;
    assert 'O' !in BadParamsMsg && 'Y' !in BadParamsMsg;
    assert 'O' !in what && 'Y' !in what;
  }

  /** With nothing else to hear, the refusal ends in the gateway's timeout. */
  lemma StartRefusalTimesOut(r: string)
    requires r == MissingModuleId || r == MissingFunc
    ensures AwaitStartOk(Heard([r]))
              == Refused(Err("timeout in attesa di START_OK/RESULT/ERROR"), 2, 1)
  {
    StartRefusalSkipped(r, []);
    assert Heard([r]) + [] == Heard([r]);
  }

  /** A `RESULT` reply whose status is `code` names `status=` + `code`. */
  lemma StatusNamed(code: string, rest: string)
    ensures StartsWith(ResultPrefix + (code + rest), "RESULT")
    ensures Contains(ResultPrefix + (code + rest), "status=" + code)
  {
    var named := "status=" + code;
    assert ResultPrefix + (code + rest) == "RESULT " + (named + rest);
    StartsWithAppend(named, rest);
    ContainsStart(named + rest, named);
    ContainsSuffix("RESULT ", named + rest, named);
  }

  /** Both `NO_MODULE` refusals name `status=NO_MODULE`. */
  lemma NoModuleNamed(rest: string)
    ensures var t := ResultPrefix + ("NO_MODULE" + rest);
            StartsWith(t, "RESULT") && IsRejection(t)
  {
    StatusNamed("NO_MODULE", rest);
    assert "status=" + "NO_MODULE" == "status=NO_MODULE";
  }

  lemma BusyNamed()
    ensures var t := ResultPrefix + ("BUSY" + "");
            StartsWith(t, "RESULT") && IsRejection(t)
  {
    StatusNamed("BUSY", "");
    assert "status=" + "BUSY" == "status=BUSY";
  }

  lemma NoFuncNamed(func: string)
    ensures var t := ResultPrefix + ("NO_FUNC" + (" name=" + func));
            StartsWith(t, "RESULT") && IsRejection(t)
  {
    StatusNamed("NO_FUNC", " name=" + func);
    assert "status=" + "NO_FUNC" == "status=NO_FUNC";
  }

  /** A refusal `r` that `gw_start` hears as the rejection `t`. */
  predicate HeardAsRejection(r: string, t: string) {
    r == t + "\n" && |t| > 0 && !IsCrLf(t[|t| - 1])
    && StartsWith(t, "RESULT") && IsRejection(t)
  }

  lemma NoModuleText() returns (t: string)
    ensures HeardAsRejection(NoModule, t)
  {
    t := ResultPrefix + ("NO_MODULE" + "");
    NoModuleNamed("");
    assert NoModule == t + "\n";
  }

  lemma IdMismatchText() returns (t: string)
    ensures HeardAsRejection(IdMismatch, t)
  {
    var rest := " msg=\"module_id mismatch\"";
    t := ResultPrefix + ("NO_MODULE" + rest);
    NoModuleNamed(rest);
    assert IdMismatch == t + "\n";
  }

  lemma BusyText() returns (t: string)
    ensures HeardAsRejection(Busy, t)
  {
    t := ResultPrefix + ("BUSY" + "");
    BusyNamed();
    assert Busy == t + "\n";
  }

  lemma NoFuncText(func: string) returns (t: string)
    requires forall i | 0 <= i < |func| :: !EndsValue(func[i])
    ensures HeardAsRejection(NoFuncLine(func), t)
  {
    var rest := " name=" + func;
    t := ResultPrefix + ("NO_FUNC" + rest);
    NoFuncNamed(func);
    assert NoFuncLine(func) == t + "\n";
    if |func| > 0 {
      assert t[|t| - 1] == func[|func| - 1];
    }
  }

  /** The refusals that name `NO_MODULE`, `BUSY` or `NO_FUNC` are `RESULT`
      lines that `gw_start` recognises as rejections. */
  lemma RejectionText(r: string, func: string) returns (t: string)
    requires r == NoModule || r == IdMismatch || r == Busy || r == NoFuncLine(func)
    requires forall i | 0 <= i < |func| :: !EndsValue(func[i])
    ensures r == t + "\n" && |t| > 0 && !IsCrLf(t[|t| - 1])
    ensures StartsWith(t, "RESULT") && IsRejection(t)
  {
    if r == NoModule {
      t := NoModuleText();
    } else if r == IdMismatch {
      t := IdMismatchText();
    } else if r == Busy {
      t := BusyText();
    } else {
      t := NoFuncText(func);
    }
  }

  /** A `NO_MODULE`, `BUSY` or `NO_FUNC` refusal ends `gw_start` on the
      first line it hears, with that line as the error. */
  lemma StartRefusalRejected(r: string, func: string, ev: seq<Event>) returns (t: string)
    requires r == NoModule || r == IdMismatch || r == Busy || r == NoFuncLine(func)
    requires forall i | 0 <= i < |func| :: !EndsValue(func[i])
    ensures r == t + "\n"
    ensures AwaitStartOk(Heard([r]) + ev) == Refused(Err(t), 1, 1)
  {
    t := RejectionText(r, func);
    StripOneLf(t);
    HeardOne(r);
    StartRejected(t, ev);
  }

  /** A reply of `handle_start_cmd` other than `START_OK` and the two
      `BAD_PARAMS` refusals is one of the rejections, and the function it
      names, if any, was read as a value. */
  lemma RefusalCases(a: Agent, line: string) returns (func: string)
    requires var r := HandleStart(a, line).replies[0];
             r != StartOk && r != MissingModuleId && r != MissingFunc
    ensures var r := HandleStart(a, line).replies[0];
            r == NoModule || r == IdMismatch || r == Busy || r == NoFuncLine(func)
    ensures forall i | 0 <= i < |func| :: !EndsValue(func[i])
  {
    func := "";
    var id := Param(line, "module_id", ModuleIdSize);
    if a.loaded && id == Some(a.moduleId) && !a.busy {
      var f := Param(line, "func", FuncNameSize);
      if f.Some? {
        func := f.value;
      }
    }
  }

  /** Whatever the agent's state, when `handle_start_cmd` answers a `START`
      with anything but `START_OK` or a `BAD_PARAMS` refusal, `gw_start`
      reports the agent's reply, less its LF, without waiting further. */
  lemma AgentStartRefused(a: Agent, line: string, ev: seq<Event>)
    requires var r := HandleStart(a, line).replies[0];
             r != StartOk && r != MissingModuleId && r != MissingFunc
    ensures var r := HandleStart(a, line).replies[0];
            |r| > 0 && AwaitStartOk(Heard([r]) + ev) == Refused(Err(r[..|r| - 1]), 1, 1)
  {
    var r := HandleStart(a, line).replies[0];
    var func := RefusalCases(a, line);
    var t := StartRefusalRejected(r, func, ev);
    assert r[..|r| - 1] == t;
  }

  /** With `wait_result`, the gateway reports the runner's verdict after
      `START_OK`: the `RESULT` line as the agent wrote it, less its LF. */
  lemma StartHearsResult(t: real, body: string)
    requires |body| > 0 && !IsCrLf(body[|body| - 1])
    ensures var verdict := ResultPrefix + body;
            StartAnswer(true, t, Heard([StartOk, verdict + "\n"])).outcome == Replied(Ok(verdict))
  {
    var verdict := ResultPrefix + body;
    assert StartOk == "START_OK" + "\n";
    StripOneLf("START_OK");
    StripOneLf(verdict);
    HeardTwo(StartOk, verdict + "\n");
    var ev := [Line("START_OK"), Line(verdict)];
    StartOkFirst(verdict);
    assert ev[1..] == [Line(verdict)] + [];
    assert verdict[..6] == "RESULT";
    assert StartsWith(verdict, ResultPrefixes[0]);
    FirstLineMatches(verdict, [], ResultPrefixes);
    StartWaitsForResult(t, ev);
  }

  /** `START_OK` heard first accepts the start, whatever line follows. */
  lemma StartOkFirst(next: string)
    ensures AwaitStartOk([Line("START_OK"), Line(next)]) == Accepted(1, 1)
  {
    var ev := [Line("START_OK"), Line(next)];
    assert StartsWith("START_OK", StartPrefixes[0]);
    FirstLineMatches("START_OK", [Line(next)], StartPrefixes);
    assert ev == [Line("START_OK")] + [Line(next)];
    DiffersAt("START_OK", "ERROR", 0);
    DiffersAt("START_OK", "RESULT", 0);
  }

  /** The verdict of a call that returns an i32 names the function and the
      value; it fits the runner's buffer whole. */
  lemma OkVerdict(func: string, stop: bool, count: nat, ret: bv32)
    requires PlainValue(func) && |func| < FuncNameSize && count > 0 && !stop
    ensures var body := "OK func=" + func + " ret_i32=" + Decimal(ret as nat);
            && ResultLine(func, stop, Returned(count, ret)) == ResultPrefix + body + "\n"
            && |body| > 0 && !IsCrLf(body[|body| - 1])
  {
    var d := Decimal(ret as nat);
    var body := "OK func=" + func + " ret_i32=" + d;
    assert body[|body| - 1] == d[|d| - 1];
    assert IsDigit(d[|d| - 1]);
  }

  // ---------------------------------------------------------------- STOP

  lemma StopShape(id: string)
    ensures StopLine(id) == "" + "STOP" + " " + ("module_id=" + id)
  {
    assert "STOP module_id=" == "STOP" + " " + "module_id=";
  }

  /** `gw_stop`'s line reaches `handle_stop_cmd`, which reads the id back. */
  lemma StopRouted(a: Agent, id: string, env: LoadEnv)
    requires PlainValue(id) && |id| < ModuleIdSize
    ensures HandleCommandLine(a, StopLine(id), env) == HandleStop(a, "module_id=" + id)
    ensures Param("module_id=" + id, "module_id", ModuleIdSize) == Some(id)
  {
    StopDispatched(a, id, env);
    StopIdRead(id);
  }

  lemma StopDispatched(a: Agent, id: string, env: LoadEnv)
    requires PlainValue(id)
    ensures HandleCommandLine(a, StopLine(id), env) == HandleStop(a, "module_id=" + id)
  {
    var rest := "module_id=" + id;
    StopShape(id);
    if |id| > 0 {
      assert rest[|rest| - 1] == id[|id| - 1];
    } else {
      assert rest[|rest| - 1] == '=';
    }
    Dispatches(a, "", "STOP", rest, env);
  }

  lemma StopIdRead(id: string)
    requires PlainValue(id) && |id| < ModuleIdSize
    ensures Param("module_id=" + id, "module_id", ModuleIdSize) == Some(id)
  {
    var rest := "module_id=" + id;
    assert rest[..9] == "module_id" && rest[9] == '=';
    FindParamFirst(rest, "module_id", 0);
    assert rest[10..] == id + "";
    ParamValueExact(id, "", ModuleIdSize);
  }

  /** The agent records a stop request for the job it is running. */
  lemma AgentStops(a: Agent, env: LoadEnv)
    requires a.busy && PlainValue(a.moduleId) && |a.moduleId| < ModuleIdSize
    ensures HandleCommandLine(a, StopLine(a.moduleId), env)
              == Step(a.(stopRequested := true), [StopPending])
  {
    StopRouted(a, a.moduleId, env);
  }

  /** How the gateway hears `STOP_OK status=PENDING`. */
  lemma PendingHeard() returns (p: string)
    ensures RStripCrLf(StopPending) == p
    ensures StartsWith(p, "STOP_OK") && Contains(p, "status=PENDING")
  {
    p := "STOP_OK " + "status=PENDING";
    assert StopPending == p + "\n";
    StripOneLf(p);
    ContainsStart("status=PENDING", "status=PENDING");
    ContainsSuffix("STOP_OK ", "status=PENDING", "status=PENDING");
  }

  /** `gw_stop` on `PENDING` then a `RESULT`: success with the `RESULT`. */
  lemma StopWaitsForResult(t: real, p: string, v: string)
    requires StartsWith(p, "STOP_OK") && Contains(p, "status=PENDING") && StartsWith(v, "RESULT")
    ensures StopAnswer(t, [Line(p), Line(v)]).outcome == Replied(Ok(v))
  {
    var ev := [Line(p), Line(v)];
    assert StartsWith(p, StopPrefixes[0]);
    FirstLineMatches(p, [Line(v)], StopPrefixes);
    assert ev == [Line(p)] + [Line(v)];
    assert ev[1..] == [Line(v)] + [];
    assert StartsWith(v, ResultPrefixes[0]);
    FirstLineMatches(v, [], ResultPrefixes);
    StopOutcomes(t, ev);
  }

  /** `gw_stop` hears `PENDING`, waits, and reports the `STOPPED` verdict. */
  lemma StopHearsStopped(t: real, func: string)
    requires PlainValue(func)
    ensures var verdict := ResultPrefix + ("STOPPED func=" + func);
            StopAnswer(t, Heard([StopPending, verdict + "\n"])).outcome == Replied(Ok(verdict))
  {
    var verdict := ResultPrefix + ("STOPPED func=" + func);
    var p := PendingHeard();
    if |func| > 0 {
      assert verdict[|verdict| - 1] == func[|func| - 1];
    } else {
      assert verdict[|verdict| - 1] == '=';
    }
    StripOneLf(verdict);
    HeardTwo(StopPending, verdict + "\n");
    assert verdict[..6] == "RESULT";
    StopWaitsForResult(t, p, verdict);
  }

  /** `STOP` while a job runs: the agent answers `PENDING`, the runner's
      verdict is `STOPPED` once the call returns, the runner is idle again,
      and `gw_stop` reports that verdict. */
  lemma StopRoundTrip(a: Agent, env: LoadEnv, count: nat, ret: bv32, t: real)
    requires a.loaded && a.busy && a.run.func in a.exports
    requires PlainValue(a.moduleId) && |a.moduleId| < ModuleIdSize && PlainValue(a.run.func)
    ensures var s1 := HandleCommandLine(a, StopLine(a.moduleId), env);
            var s2 := FinishJob(s1.agent, RunEnv(true, Returned(count, ret)));
            && s2.agent == a.(busy := false, stopRequested := false)
            && StopAnswer(t, Heard(s1.replies + s2.replies)).outcome
                 == Replied(Ok(ResultPrefix + ("STOPPED func=" + a.run.func)))
  {
    var s1 := HandleCommandLine(a, StopLine(a.moduleId), env);
    AgentStops(a, env);
    var s2 := FinishJob(s1.agent, RunEnv(true, Returned(count, ret)));
    RunnerStopped(s1.agent, count, ret);
    StopHearsStopped(t, a.run.func);
    StopComposed(t, a, s1, s2, ResultPrefix + ("STOPPED func=" + a.run.func));
  }

  /** The agent's two steps of a stop, heard by the gateway in order. */
  lemma StopComposed(t: real, a: Agent, s1: Step, s2: Step, v: string)
    requires s1 == Step(a.(stopRequested := true), [StopPending])
    requires s2 == Step(s1.agent.(busy := false, stopRequested := false), [v + "\n"])
    requires StopAnswer(t, Heard([StopPending, v + "\n"])).outcome == Replied(Ok(v))
    ensures s2.agent == a.(busy := false, stopRequested := false)
    ensures StopAnswer(t, Heard(s1.replies + s2.replies)).outcome == Replied(Ok(v))
  {
    assert s1.replies + s2.replies == [StopPending, v + "\n"];
  }

  /** The runner's verdict on a call that returns after a stop request. */
  lemma RunnerStopped(a: Agent, count: nat, ret: bv32)
    requires a.loaded && a.run.func in a.exports && a.stopRequested
    ensures FinishJob(a, RunEnv(true, Returned(count, ret)))
              == Step(a.(busy := false, stopRequested := false),
                      [ResultPrefix + ("STOPPED func=" + a.run.func) + "\n"])
  {
    var f := a.run.func;
    assert ResultPrefix + ("STOPPED func=" + f + "\n") == ResultPrefix + ("STOPPED func=" + f) + "\n";
  }

  // --------------------------------------------------------------- STATUS

  /** The status line as the gateway hears it. */
  function StatusText(loaded: bool, busy: bool): string {
    StatusHead + (if loaded then ModulesLoaded else ModulesNone)
      + RunnerKey + (if loaded && busy then "RUNNING" else "IDLE")
  }

  /** `gw_status`'s bare `STATUS` reaches `handle_status_cmd`. */
  lemma AgentReportsStatus(a: Agent, env: LoadEnv)
    ensures HandleCommandLine(a, "STATUS", env) == Step(a, [StatusLine(a.loaded, a.busy)])
  {
    var line := "STATUS";
    assert StripEol(line) == line by { assert line[5] == 'S'; }
    SplitCommandOf("", line, "");
    assert "" + line == line;
    RoutedBy(a, line, line, "", env);
  }

  /** ... and `gw_status` reports that line. */
  lemma StatusHeard(loaded: bool, busy: bool)
    ensures StatusAnswer(Heard([StatusLine(loaded, busy)])).outcome
              == Replied(Ok(StatusText(loaded, busy)))
  {
    var t := StatusText(loaded, busy);
    StatusTextFacts(loaded, busy);
    StripOneLf(t);
    HeardOne(StatusLine(loaded, busy));
    assert Heard([StatusLine(loaded, busy)]) == [Line(t)] + [];
    assert StartsWith(t, StatusPrefixes[0]);
    FirstLineMatches(t, [], StatusPrefixes);
  }

  lemma StatusTextFacts(loaded: bool, busy: bool)
    ensures var t := StatusText(loaded, busy);
            && StatusLine(loaded, busy) == t + "\n"
            && |t| > 0 && !IsCrLf(t[|t| - 1])
            && StartsWith(t, "STATUS")
  {
    var t := StatusText(loaded, busy);
    var runner := if loaded && busy then "RUNNING" else "IDLE";
    assert t[|t| - 1] == runner[|runner| - 1];
    assert t[..6] == StatusHead[..6];
  }
}

=== FILE: gateway_server.dfy ===
/** The gateway's TCP front end (`handle_client` in gateway.py): collect one
    request, route it by device and command with the documented defaults,
    run the device operation and produce at most one reply.

    JSON decoding is not modelled: the decoder's verdict on the collected
    bytes is an input (`Decoded`), and a decoded object is a record whose
    fields hold values of the type the gateway expects, or nothing when the
    key is absent.
 */
module GatewayServer {
  import opened Common
  import opened Transport
  import opened DeviceProtocol

  const NewLine: byte := 0x0A

  /** `DEVICE_ENDPOINTS`: device name -> endpoint string. */
  const DeviceEndpoints: map<string, string> := map["nucleo" := "COM3", "disco" := "tcp:localhost:3456"]

  const DefaultArgs: string := ""
  const DefaultWait: bool := false
  const DefaultResultTimeout: real := 10.0
  const DefaultMode: string := "wasm"

  datatype Request = Request(
    device: Option<string>,
    cmd: Option<string>,
    moduleId: Option<string>,
    wasmPath: Option<string>,
    funcName: Option<string>,
    funcArgs: Option<string>,
    waitResult: Option<bool>,
    resultTimeout: Option<real>,
    sourcePath: Option<string>,
    mode: Option<string>)

  /** The outcome of `json.loads(buf.decode("utf-8").strip())`: an error
      (whose text is the exception's), a JSON value that is not an object
      (so `req.get` raises), or an object. */
  datatype Decoded = Malformed(reason: string) | NotAnObject | Object(req: Request)

  /** The reply dictionary, with the `step` key of `build_and_deploy`. */
  datatype Response = Response(reply: Reply, step: Option<string>)

  /** At most one reply, and what was done to the device on the way. */
  datatype Served = Served(response: Option<Response>, actions: seq<Action>)

  // ------------------------------------------------------------ collecting

  /** The `recv` loop: chunks are appended until one holds a LF or the peer
      closes (an empty chunk, or the end of `chunks`). */
  function Collect(chunks: seq<seq<byte>>): (buf: seq<byte>)
    ensures |buf| == 0 <==> |chunks| == 0 || |chunks[0]| == 0
    decreases |chunks|
  {
    if |chunks| == 0 || |chunks[0]| == 0 then []
    else if NewLine in chunks[0] then chunks[0]
    else chunks[0] + Collect(chunks[1..])
  }

  function Concat(chunks: seq<seq<byte>>): seq<byte>
    decreases |chunks|
  {
    if |chunks| == 0 then [] else chunks[0] + Concat(chunks[1..])
  }

  /** What is collected is the first `k` chunks for some `k`; no chunk
      before the last one collected holds a LF, so nothing after the first
      chunk with a LF is read. */
  lemma {:induction false} CollectChunks(chunks: seq<seq<byte>>)
    ensures exists k | 0 <= k <= |chunks| ::
      && Collect(chunks) == Concat(chunks[..k])
      && forall i | 0 <= i < k - 1 :: NewLine !in chunks[i]
    decreases |chunks|
  {
    if |chunks| == 0 || |chunks[0]| == 0 {
      assert Concat(chunks[..0]) == [];
    } else if NewLine in chunks[0] {
      assert chunks[..1][1..] == [];
      assert Concat(chunks[..1]) == chunks[0] + Concat([]);
    } else {
      CollectChunks(chunks[1..]);
      var k :| 0 <= k <= |chunks[1..]|
        && Collect(chunks[1..]) == Concat(chunks[1..][..k])
        && forall i | 0 <= i < k - 1 :: NewLine !in chunks[1..][i];
      assert chunks[..k + 1][1..] == chunks[1..][..k];
      assert forall i | 0 <= i < k :: NewLine !in chunks[i] by {
        forall i | 0 <= i < k ensures NewLine !in chunks[i] {
          if i > 0 {
            assert chunks[i] == chunks[1..][i - 1];
          }
        }
      }
    }
  }

  // --------------------------------------------------------------- routing

  /** The calls `handle_client` makes, with the defaults filled in. */
  datatype Call =
    | DeployCall(port: string, moduleId: string, path: string)
    | StartCall(port: string, moduleId: string, func: string, args: string, wait: bool, timeout: real)
    | StopCall(port: string, moduleId: string, timeout: real)
    | StatusCall(port: string)
    | BuildCall(port: string, moduleId: string, sourcePath: string, mode: string)

  /** A call to make, a refusal to send back, or a `KeyError` for a
      missing required key (which escapes, so nothing is sent back). */
  datatype Routed = Dispatch(call: Call) | Refuse(reply: Reply) | MissingKey

  /** Python's `f"{v}"` of an optional string: `None` prints as "None". */
  function Show(v: Option<string>): string {
    if v.None? then "None" else v.value
  }

  function Or<T>(v: Option<T>, default: T): T {
    if v.None? then default else v.value
  }

  predicate KnownCommand(cmd: Option<string>) {
    cmd.Some? && cmd.value in {"deploy", "start", "stop", "status", "build_and_deploy"}
  }

  /** The routing of `handle_client`: the device first, then the command;
      each command reads its own keys. */
  function Route(req: Request, endpoints: map<string, string>): (r: Routed)
    ensures r.Refuse? <==> (req.device.None? || req.device.value !in endpoints || !KnownCommand(req.cmd))
    ensures r.Dispatch? ==> r.call.port == endpoints[req.device.value]
  {
    if req.device.None? || req.device.value !in endpoints then
      Refuse(Err("device sconosciuto: " + Show(req.device)))
    else
      var port := endpoints[req.device.value];
      if req.cmd == Some("deploy") then
        if req.moduleId.None? || req.wasmPath.None? then MissingKey
        else Dispatch(DeployCall(port, req.moduleId.value, req.wasmPath.value))
      else if req.cmd == Some("start") then
        if req.moduleId.None? || req.funcName.None? then MissingKey
        else Dispatch(StartCall(port, req.moduleId.value, req.funcName.value,
                                Or(req.funcArgs, DefaultArgs), Or(req.waitResult, DefaultWait),
                                Or(req.resultTimeout, DefaultResultTimeout)))
      else if req.cmd == Some("stop") then
        if req.moduleId.None? then MissingKey
        else Dispatch(StopCall(port, req.moduleId.value, Or(req.resultTimeout, DefaultResultTimeout)))
      else if req.cmd == Some("status") then
        Dispatch(StatusCall(port))
      else if req.cmd == Some("build_and_deploy") then
        if req.moduleId.None? || req.sourcePath.None? then MissingKey
        else Dispatch(BuildCall(port, req.moduleId.value, req.sourcePath.value, Or(req.mode, DefaultMode)))
      else
        Refuse(Err("comando sconosciuto: " + Show(req.cmd)))
  }

  // ------------------------------------------------------------- the world

  /** `compile_to_wasm` and `compile_to_aot` as pass/fail oracles: the image
      each produces, or `None` when the compiler fails. */
  datatype Compilers = Compilers(sourceExists: bool, wasm: Option<seq<byte>>, aot: Option<seq<byte>>)

  /** Everything outside the gateway: whether the endpoint opens, the files
      on disk, the compilers, and what the device says. */
  datatype World = World(connects: bool, files: map<string, seq<byte>>, compilers: Compilers, ev: seq<Event>)

  function Answer(x: Exchange, step: Option<string>): (s: Served)
    ensures s.actions == x.actions
    ensures s.response.Some? <==> x.outcome.Replied?
  {
    Served(if x.outcome.Replied? then Some(Response(x.outcome.reply, step)) else None, x.actions)
  }

  /** `gw_build_and_deploy`: compile, optionally compile ahead of time (only
      for mode "aot"), then deploy the image the last compiler produced. */
  function BuildAndDeploy(port: string, moduleId: string, sourcePath: string, mode: string,
                          w: World): (s: Served)
    ensures Bracketed(s.actions)
    ensures s.response.Some?
            || (w.compilers.sourceExists && w.compilers.wasm.Some? && (mode == "aot" ==> w.compilers.aot.Some?))
    ensures s.actions != [] ==>
              w.compilers.sourceExists && w.compilers.wasm.Some? && (mode == "aot" ==> w.compilers.aot.Some?)
    ensures s.response.Some? && s.response.value.reply.Ok? ==> s.response.value.step == Some("deploy")
  {
    var c := w.compilers;
    if !c.sourceExists then
      Served(Some(Response(Err("sorgente C non trovato: " + sourcePath), None)), [])
    else if c.wasm.None? then
      Served(Some(Response(Err("errore compilazione C->WASM"), Some("compile_wasm"))), [])
    else if mode == "aot" && c.aot.None? then
      Served(Some(Response(Err("errore compilazione WASM->AOT"), Some("compile_aot"))), [])
    else
      var image := if mode == "aot" then c.aot.value else c.wasm.value;
      SessionBracketed(port, w.connects, DeployExchange(moduleId, image, w.ev));
      var x := Session(port, w.connects, DeployExchange(moduleId, image, w.ev));
      Answer(x, Some("deploy"))
  }

  /** Run a routed call against the world. */
  function Perform(call: Call, w: World): (s: Served)
    ensures Bracketed(s.actions)
    ensures !call.BuildCall? && s.response.Some? ==> s.response.value.step.None?
  {
    match call
    case DeployCall(port, id, path) =>
      var file := if path in w.files then Some(w.files[path]) else None;
      Answer(Deploy(port, id, path, file, w.connects, w.ev), None)
    case StartCall(port, id, func, args, wait, t) =>
      Answer(Start(port, id, func, args, wait, t, w.connects, w.ev), None)
    case StopCall(port, id, t) =>
      Answer(Stop(port, id, t, w.connects, w.ev), None)
    case StatusCall(port) =>
      Answer(Status(port, w.connects, w.ev), None)
    case BuildCall(port, id, src, mode) =>
      BuildAndDeploy(port, id, src, mode, w)
  }

  /** `handle_client`: nothing is sent back for an empty request, a JSON
      value that is not an object, or a missing required key; undecodable
      bytes get the decoder's error; a refused request gets its refusal;
      a routed call is answered by the device operation it names. */
  function HandleClient(chunks: seq<seq<byte>>, decoded: Decoded, endpoints: map<string, string>,
                        w: World): (s: Served)
    ensures Bracketed(s.actions)
    ensures Collect(chunks) == [] ==> s == Served(None, [])
    ensures decoded.NotAnObject? ==> s == Served(None, [])
    ensures s.actions != [] ==>
              Collect(chunks) != [] && decoded.Object? && Route(decoded.req, endpoints).Dispatch?
    ensures Collect(chunks) != [] && decoded.Malformed? ==>
              s == Served(Some(Response(Err("json non valido: " + decoded.reason), None)), [])
    ensures Collect(chunks) != [] && decoded.Object? && Route(decoded.req, endpoints).Refuse? ==>
              s == Served(Some(Response(Route(decoded.req, endpoints).reply, None)), [])
    ensures Collect(chunks) != [] && decoded.Object? && Route(decoded.req, endpoints).MissingKey? ==>
              s == Served(None, [])
    ensures Collect(chunks) != [] && decoded.Object? && Route(decoded.req, endpoints).Dispatch? ==>
              s == Perform(Route(decoded.req, endpoints).call, w)
  {
    var buf := Collect(chunks);
    if |buf| == 0 then Served(None, [])
    else match decoded
      case Malformed(reason) => Served(Some(Response(Err("json non valido: " + reason), None)), [])
      case NotAnObject => Served(None, [])
      case Object(req) =>
        match Route(req, endpoints)
        case Refuse(reply) => Served(Some(Response(reply, None)), [])
        case MissingKey => Served(None, [])
        case Dispatch(call) => Perform(call, w)
  }

  // ---------------------------------------------------------------- lemmas

  /** An unknown device is refused with its name and no endpoint is opened. */
  lemma UnknownDeviceOpensNothing(chunks: seq<seq<byte>>, req: Request, endpoints: map<string, string>, w: World)
    requires Collect(chunks) != []
    requires req.device.None? || req.device.value !in endpoints
    ensures HandleClient(chunks, Object(req), endpoints, w)
      == Served(Some(Response(Err("device sconosciuto: " + Show(req.device)), None)), [])
  {
  }

  /** A known device with a command outside the five is refused with the
      command's name, and nothing is opened. */
  lemma UnknownCommandRefused(chunks: seq<seq<byte>>, req: Request, endpoints: map<string, string>, w: World)
    requires Collect(chunks) != []
    requires req.device.Some? && req.device.value in endpoints
    requires !KnownCommand(req.cmd)
    ensures HandleClient(chunks, Object(req), endpoints, w)
      == Served(Some(Response(Err("comando sconosciuto: " + Show(req.cmd)), None)), [])
  {
  }

  /** A `status` request for a known device is answered with what
      `gw_status` returns on that device's endpoint, after the same traffic;
      nothing is sent back when the endpoint cannot be opened. */
  lemma StatusRequestServed(chunks: seq<seq<byte>>, req: Request, endpoints: map<string, string>, w: World)
    requires Collect(chunks) != []
    requires req.device.Some? && req.device.value in endpoints && req.cmd == Some("status")
    ensures var x := Status(endpoints[req.device.value], w.connects, w.ev);
            var s := HandleClient(chunks, Object(req), endpoints, w);
            && s.actions == x.actions
            && (s.response.Some? <==> x.outcome.Replied?)
            && (x.outcome.Replied? ==> s.response.value == Response(x.outcome.reply, None))
  {
  }

  /** A `deploy` request names a file by path: a path that is not a file is
      answered `file non trovato` before any endpoint is opened; otherwise
      the reply and the traffic are those of `gw_deploy` on the file's
      bytes. */
  lemma DeployRequestServed(chunks: seq<seq<byte>>, req: Request, endpoints: map<string, string>, w: World)
    requires Collect(chunks) != []
    requires req.device.Some? && req.device.value in endpoints && req.cmd == Some("deploy")
    requires req.moduleId.Some? && req.wasmPath.Some?
    ensures var path := req.wasmPath.value;
            var s := HandleClient(chunks, Object(req), endpoints, w);
            && (path !in w.files ==>
                  s == Served(Some(Response(Err("file non trovato: " + path), None)), []))
            && (path in w.files ==>
                  var x := Deploy(endpoints[req.device.value], req.moduleId.value, path,
                                  Some(w.files[path]), w.connects, w.ev);
                  && s.actions == x.actions
                  && (s.response.Some? <==> x.outcome.Replied?)
                  && (x.outcome.Replied? ==> s.response.value == Response(x.outcome.reply, None)))
  {
  }

  /** The defaults of `start`: no arguments, no wait for the result, and a
      ten-second result timeout, each unless the request says otherwise. */
  lemma StartDefaults(req: Request, endpoints: map<string, string>)
    requires req.device.Some? && req.device.value in endpoints && req.cmd == Some("start")
    requires req.moduleId.Some? && req.funcName.Some?
    ensures var c := Route(req, endpoints).call;
            && c.StartCall?
            && (req.funcArgs.None? ==> c.args == "")
            && (req.funcArgs.Some? ==> c.args == req.funcArgs.value)
            && (req.waitResult.None? ==> !c.wait)
            && (req.waitResult.Some? ==> c.wait == req.waitResult.value)
            && (req.resultTimeout.None? ==> c.timeout == 10.0)
            && (req.resultTimeout.Some? ==> c.timeout == req.resultTimeout.value)
            && c.moduleId == req.moduleId.value && c.func == req.funcName.value
  {
  }

  /** `stop` waits ten seconds for the result by default; `build_and_deploy`
      builds for the interpreter by default. */
  lemma StopAndBuildDefaults(req: Request, endpoints: map<string, string>)
    requires req.device.Some? && req.device.value in endpoints
    requires req.moduleId.Some? && req.resultTimeout.None? && req.mode.None? && req.sourcePath.Some?
    ensures req.cmd == Some("stop") ==> Route(req, endpoints).call.timeout == 10.0
    ensures req.cmd == Some("build_and_deploy") ==> Route(req, endpoints).call.mode == "wasm"
  {
  }

  /** A missing required key sends nothing back and opens nothing. */
  lemma MissingKeyNoReply(chunks: seq<seq<byte>>, req: Request, endpoints: map<string, string>, w: World)
    requires Collect(chunks) != []
    requires req.device.Some? && req.device.value in endpoints
    requires req.cmd == Some("deploy") || req.cmd == Some("start") || req.cmd == Some("stop")
    requires req.moduleId.None?
    ensures HandleClient(chunks, Object(req), endpoints, w) == Served(None, [])
  {
  }

  /** Only mode "aot" consults the ahead-of-time compiler: in any other mode
      the reply does not depend on it. */
  lemma BuildAotOnlyInAotMode(port: string, id: string, src: string, mode: string, w: World,
                              aot: Option<seq<byte>>)
    requires mode != "aot"
    ensures var w2 := w.(compilers := w.compilers.(aot := aot));
            BuildAndDeploy(port, id, src, mode, w2) == BuildAndDeploy(port, id, src, mode, w)
  {
  }
}

=== FILE: numerals.dfy ===
/** Number <-> text conversions used on the two ends of the device protocol:
    the gateway prints sizes with Python `f"{n}"` and checksums with
    `f"{crc:08x}"`; the agent reads them back with C `atoi` and
    `strtoul(.., 16)` on a 32-bit target (`long` is 32 bits wide).
 */
module Numerals {

  import opened Common

  const TwoTo31: int := 0x8000_0000
  const TwoTo32: int := 0x1_0000_0000

  function Pow16(w: nat): (r: nat)
    ensures r >= 1
  {
    if w == 0 then 1 else 16 * Pow16(w - 1)
  }

  function Pow10(k: nat): (r: nat)
    ensures r >= 1
  {
    if k == 0 then 1 else 10 * Pow10(k - 1)
  }

  // ---------------------------------------------------------------- digits

  predicate IsDigit(c: char) {
    '0' <= c <= '9'
  }

  predicate IsHexDigit(c: char) {
    IsDigit(c) || 'a' <= c <= 'f' || 'A' <= c <= 'F'
  }

  /** C `isspace` in the "C" locale. */
  predicate IsCSpace(c: char) {
    c == ' ' || c == '\t' || c == '\n' || c == '\U{B}' || c == '\U{C}' || c == '\r'
  }

  function DigitChar(d: nat): char
    requires d < 10
  {
    ['0', '1', '2', '3', '4', '5', '6', '7', '8', '9'][d]
  }

  function HexChar(d: nat): char
    requires d < 16
  {
    ['0', '1', '2', '3', '4', '5', '6', '7', '8', '9', 'a', 'b', 'c', 'd', 'e', 'f'][d]
  }

  function DigitValue(c: char): (r: nat)
    requires IsHexDigit(c)
    ensures r < 16
    ensures IsDigit(c) ==> r < 10
  {
    if IsDigit(c) then c as int - '0' as int
    else if 'a' <= c <= 'f' then c as int - 'a' as int + 10
    else c as int - 'A' as int + 10
  }

  lemma DigitCharValue(d: nat)
    requires d < 10
    ensures IsDigit(DigitChar(d)) && DigitValue(DigitChar(d)) == d
  {
  }

  lemma HexCharValue(d: nat)
    requires d < 16
    ensures IsHexDigit(HexChar(d)) && DigitValue(HexChar(d)) == d
    ensures !IsCSpace(HexChar(d)) && HexChar(d) != 'x' && HexChar(d) != 'X'
    ensures HexChar(d) != '+' && HexChar(d) != '-'
  {
  }

  // ------------------------------------------------- Python-side formatting

  /** Python `f"{n}"` for a non-negative integer: no sign, no leading zero. */
  function Decimal(n: nat): (r: string)
    ensures 0 < |r|
    ensures forall i | 0 <= i < |r| :: IsDigit(r[i])
    ensures n > 0 ==> r[0] != '0'
  {
    if n < 10 then [DigitChar(n)] else Decimal(n / 10) + [DigitChar(n % 10)]
  }

  /** Exactly `w` lowercase hex digits of `n mod 16^w`, most significant first. */
  function HexFixed(n: nat, w: nat): (r: string)
    ensures |r| == w
    ensures forall i | 0 <= i < |r| :: IsHexDigit(r[i]) && !('A' <= r[i] <= 'F')
  {
    if w == 0 then [] else HexFixed(n / 16, w - 1) + [HexChar(n % 16)]
  }

  /** Python `f"{v:08x}"` of a value already masked to 32 bits. */
  function Hex8(v: bv32): (r: string)
    ensures |r| == 8
  {
    HexFixed(v as nat, 8)
  }

  // ----------------------------------------------------- C-side parsing

  /** Length of the longest prefix of `s` all of whose characters satisfy the
      digit class (`hex` selects hexadecimal digits). */
  function DigitRun(s: string, hex: bool): (k: nat)
    ensures k <= |s|
    ensures forall i | 0 <= i < k :: if hex then IsHexDigit(s[i]) else IsDigit(s[i])
    ensures k < |s| ==> !(if hex then IsHexDigit(s[k]) else IsDigit(s[k]))
  {
    if |s| == 0 || !(if hex then IsHexDigit(s[0]) else IsDigit(s[0])) then 0
    else 1 + DigitRun(s[1..], hex)
  }

  /** Value of a digit string in the given base (most significant first). */
  function ValueOf(d: string, base: nat): nat
    requires base == 10 || base == 16
    requires forall i | 0 <= i < |d| :: IsHexDigit(d[i])
  {
    if |d| == 0 then 0 else ValueOf(d[..|d| - 1], base) * base + DigitValue(d[|d| - 1])
  }

  function SkipSpace(s: string): (r: string)
    ensures |r| <= |s| && r == s[|s| - |r|..]
    ensures |r| > 0 ==> !IsCSpace(r[0])
  {
    if |s| > 0 && IsCSpace(s[0]) then SkipSpace(s[1..]) else s
  }

  /** Value of the longest run of digits at the front of `u` (0 when there is none). */
  function LeadingValue(u: string, hex: bool): nat
  {
    var k := DigitRun(u, hex);
    ValueOf(u[..k], if hex then 16 else 10)
  }

  /** C `atoi` as newlib implements it on a 32-bit target, `(int)strtol(s, NULL, 10)`:
      leading white space, an optional sign, then the longest run of decimal
      digits; an out-of-range magnitude saturates at `LONG_MIN`/`LONG_MAX`. */
  function Atoi(s: string): (r: int)
    ensures -TwoTo31 <= r < TwoTo31
  {
    var t := SkipSpace(s);
    if |t| > 0 && t[0] == '-' then
      var v: int := LeadingValue(t[1..], false);
      if v >= TwoTo31 then -TwoTo31 else -v
    else
      var u := if |t| > 0 && t[0] == '+' then t[1..] else t;
      Min(LeadingValue(u, false), TwoTo31 - 1)
  }

  /** Without white space or sign in front, `atoi` reads the leading digits. */
  lemma AtoiUnsigned(s: string)
    requires |s| > 0 && IsDigit(s[0])
    ensures Atoi(s) == Min(LeadingValue(s, false), TwoTo31 - 1)
  {
    assert SkipSpace(s) == s;
  }

  /** The C cast `(uint32_t)` of a signed 32-bit value. */
  function ToUint32(x: int): (r: nat)
    ensures r < TwoTo32
    ensures 0 <= x < TwoTo32 ==> r == x
  {
    x % TwoTo32
  }

  /** C `strtoul(s, NULL, 16)` with a 32-bit `unsigned long`: leading white
      space, an optional sign, an optional `0x`/`0X`, then the longest run of
      hex digits; a value beyond `ULONG_MAX` saturates, and a `-` sign negates
      modulo 2^32. */
  function StrToUlHex(s: string): (r: nat)
    ensures r < TwoTo32
  {
    var t := SkipSpace(s);
    var neg := |t| > 0 && t[0] == '-';
    var u := if |t| > 0 && (t[0] == '-' || t[0] == '+') then t[1..] else t;
    var w := if |u| >= 2 && u[0] == '0' && (u[1] == 'x' || u[1] == 'X') then u[2..] else u;
    var v := LeadingValue(w, true);
    if v >= TwoTo32 then TwoTo32 - 1
    else if neg then (TwoTo32 - v) % TwoTo32
    else v
  }

  // ------------------------------------------------------- round trips

  lemma {:induction false} DecimalValue(n: nat)
    ensures ValueOf(Decimal(n), 10) == n
    decreases n
  {
    if n >= 10 {
      var d := Decimal(n);
      assert d[..|d| - 1] == Decimal(n / 10);
      DecimalValue(n / 10);
      DigitCharValue(n % 10);
    } else {
      DigitCharValue(n);
    }
  }

  lemma {:induction false} HexFixedValue(n: nat, w: nat)
    ensures ValueOf(HexFixed(n, w), 16) == n % Pow16(w)
    decreases w
  {
    if w > 0 {
      var h := HexFixed(n, w);
      assert h[..|h| - 1] == HexFixed(n / 16, w - 1);
      HexFixedValue(n / 16, w - 1);
      HexCharValue(n % 16);
      DivModPow16(n, w);
    }
  }

  lemma DivModPow16(n: nat, w: nat)
    requires w > 0
    ensures (n / 16) % Pow16(w - 1) * 16 + n % 16 == n % Pow16(w)
  {
    var p := Pow16(w - 1);
    var q := n / 16;
    assert n == q * 16 + n % 16;
    assert q == (q / p) * p + q % p;
    assert n == (q / p) * (16 * p) + (q % p * 16 + n % 16);
    assert 0 <= q % p * 16 + n % 16 < 16 * p;
    ModUnique(n, q / p, 16 * p, q % p * 16 + n % 16);
  }

  lemma ModUnique(n: int, a: int, m: int, b: int)
    requires m > 0 && 0 <= b < m && n == a * m + b
    ensures n % m == b
  {
    var q, r := n / m, n % m;
    assert n == q * m + r && 0 <= r < m;
    assert (a - q) * m == r - b;
    if a - q >= 1 {
      MulAtLeast(a - q, m);
    } else if a - q <= -1 {
      MulAtLeast(q - a, m);
    }
  }

  lemma MulAtLeast(k: int, m: int)
    requires k >= 1 && m > 0
    ensures k * m >= m
  {
  }

  /** The agent's `atoi` reads back every size the gateway prints that fits a
      signed 32-bit `int`. */
  lemma AtoiDecimal(n: nat)
    requires n < TwoTo31
    ensures Atoi(Decimal(n)) == n
  {
    var d := Decimal(n);
    DigitRunAll(d, false);
    assert d[..|d|] == d;
    DecimalValue(n);
    assert LeadingValue(d, false) == n;
    AtoiUnsigned(d);
  }

  /** Without white space, sign or `0x` in front, `strtoul(.., 16)` reads the
      leading hex digits. */
  lemma StrToUlHexPlain(s: string)
    requires |s| > 1 && IsHexDigit(s[0]) && s[1] != 'x' && s[1] != 'X'
    ensures StrToUlHex(s) == Min(LeadingValue(s, true), TwoTo32 - 1)
  {
    assert SkipSpace(s) == s;
    assert !(s[0] == '-' || s[0] == '+');
    assert !(s[0] == '0' && (s[1] == 'x' || s[1] == 'X'));
  }

  /** The agent's `strtoul(.., 16)` reads back every checksum the gateway prints. */
  lemma StrToUlHex8(v: bv32)
    ensures StrToUlHex(Hex8(v)) == v as nat
  {
    StrToUlHexFixed(v as nat);
  }

  lemma Pow16Eight()
    ensures Pow16(8) == TwoTo32
  {
    assert Pow16(2) == 256;
    assert Pow16(4) == 256 * 256;
    assert Pow16(6) == 256 * 256 * 256;
  }

  lemma StrToUlHexFixed(n: nat)
    requires n < TwoTo32
    ensures StrToUlHex(HexFixed(n, 8)) == n
  {
    var h := HexFixed(n, 8);
    DigitRunAll(h, true);
    assert h[..|h|] == h;
    HexFixedValue(n, 8);
    Pow16Eight();
    assert n % TwoTo32 == n;
    assert LeadingValue(h, true) == n;
    StrToUlHexPlain(h);
  }

  lemma {:induction false} DigitRunAll(s: string, hex: bool)
    requires forall i | 0 <= i < |s| :: if hex then IsHexDigit(s[i]) else IsDigit(s[i])
    ensures DigitRun(s, hex) == |s|
    decreases |s|
  {
    if |s| > 0 {
      DigitRunAll(s[1..], hex);
    }
  }

  /** A number below `10^k` prints in at most `k` digits. */
  lemma {:induction false} DecimalFits(n: nat, k: nat)
    requires 0 < k && n < Pow10(k)
    ensures |Decimal(n)| <= k
    decreases k
  {
    if n >= 10 {
      assert k > 1;
      DecimalFits(n / 10, k - 1);
    }
  }

  /** Every 32-bit size prints in at most ten digits. */
  lemma DecimalOfWord(n: nat)
    requires n < TwoTo32
    ensures |Decimal(n)| <= 10
  {
    assert Pow10(10) == 10_000_000_000;
    DecimalFits(n, 10);
  }
}

=== FILE: transport.dfy ===
/** The gateway's `Transport` (gateway.py): how bytes arriving from the
    device are assembled into lines, how a line is written, and how an
    endpoint string selects a socket or a serial port.

    Reading is modelled over a finite sequence of `RxEvent`s, one per pass of
    the receive loop of `read_line`; the clock is replaced by an explicit
    `Deadline` event, and running out of events counts as reaching it.
 */
module Transport {
  import opened Common
  import opened Numerals

  const LF: byte := 0x0A
  const CR: byte := 0x0D

  /** What one pass of the receive loop of `read_line` observes. */
  datatype RxEvent =
    | Byte(b: byte)  // `read(1)` or `recv(1)` returned one byte
    | Idle           // the read returned nothing: serial read timeout or `socket.timeout`
    | Closed         // `recv` returned b"": the peer closed the socket
    | Deadline       // the clock passed the read's deadline

  /** The bytes as a stream of arrivals, with no pause in between. */
  function Arrive(bytes: seq<byte>): (r: seq<RxEvent>)
    ensures |r| == |bytes|
    ensures forall i | 0 <= i < |r| :: r[i] == Byte(bytes[i])
  {
    if |bytes| == 0 then [] else [Byte(bytes[0])] + Arrive(bytes[1..])
  }

  // ----------------------------------------------------------- read_line

  /** The receive loop of `read_line`: the collected bytes, whether the loop
      ended because the deadline passed, and the events not yet consumed. */
  datatype Gathered = Gathered(buf: seq<byte>, expired: bool, rest: seq<RxEvent>)

  /** The bytes among a run of receive events, in order. */
  function Received(ev: seq<RxEvent>): seq<byte> {
    if |ev| == 0 then [] else (if ev[0].Byte? then [ev[0].b] else []) + Received(ev[1..])
  }

  lemma ReceivedFirst(ev: seq<RxEvent>, n: nat)
    requires 1 <= n <= |ev|
    ensures Received(ev[..n]) == (if ev[0].Byte? then [ev[0].b] else []) + Received(ev[1..][..n - 1])
  {
    assert ev[..n][1..] == ev[1..][..n - 1];
  }

  /** The receive loop: it always consumes an event when there is one, and
      leaves the others unread. */
  function Gather(ev: seq<RxEvent>, buf: seq<byte>): (g: Gathered)
    ensures |g.rest| <= |ev| && g.rest == ev[|ev| - |g.rest|..]
    ensures |ev| > 0 ==> |g.rest| < |ev|
    decreases |ev|
  {
    if |ev| == 0 then Gathered(buf, true, [])
    else match ev[0]
      case Deadline => Gathered(buf, true, ev[1..])
      case Idle => Gather(ev[1..], buf)
      case Closed => Gathered(buf, false, ev[1..])
      case Byte(b) =>
        if b == LF then Gathered(buf + [b], false, ev[1..])
        else Gather(ev[1..], buf + [b])
  }

  /** The buffer grows by exactly the bytes of the events the loop consumes. */
  lemma {:induction false} GatherReceived(ev: seq<RxEvent>, buf: seq<byte>)
    ensures var g := Gather(ev, buf);
            g.buf == buf + Received(ev[..|ev| - |g.rest|])
    decreases |ev|
  {
    if |ev| > 0 {
      var g := Gather(ev, buf);
      ReceivedFirst(ev, |ev| - |g.rest|);
      match ev[0]
      case Deadline =>
      case Idle => GatherReceived(ev[1..], buf);
      case Closed =>
      case Byte(b) =>
        if b != LF {
          GatherReceived(ev[1..], buf + [b]);
        }
    }
  }

  /** `bytes.decode("ascii", errors="ignore")`: bytes above 127 are dropped. */
  function DecodeAscii(bytes: seq<byte>): (s: string)
    ensures IsAscii(s)
    ensures |s| <= |bytes|
  {
    if |bytes| == 0 then []
    else if bytes[0] < 128 then [bytes[0] as char] + DecodeAscii(bytes[1..])
    else DecodeAscii(bytes[1..])
  }

  predicate IsCrLf(c: char) {
    c == '\r' || c == '\n'
  }

  /** Python `s.rstrip("\r\n")`. */
  function RStripCrLf(s: string): (r: string)
    ensures |r| <= |s| && r == s[..|r|]
    ensures |r| > 0 ==> !IsCrLf(r[|r| - 1])
    ensures forall i | |r| <= i < |s| :: IsCrLf(s[i])
  {
    if |s| > 0 && IsCrLf(s[|s| - 1]) then RStripCrLf(s[..|s| - 1]) else s
  }

  datatype LineRead = LineRead(line: Option<string>, expired: bool, rest: seq<RxEvent>)

  /** `Transport.read_line`: collect bytes up to and including the first LF,
      or until the deadline passes or the peer closes; no bytes at all gives
      `None`, otherwise the decoded bytes without trailing CR/LF. A partial
      line collected before the deadline is returned too. */
  function ReadLine(ev: seq<RxEvent>): (r: LineRead)
    ensures |r.rest| <= |ev| && r.rest == ev[|ev| - |r.rest|..]
    ensures |ev| > 0 ==> |r.rest| < |ev|
    ensures r.line.Some? ==> IsAscii(r.line.value) && Free(r.line.value, '\n')
    ensures r.line.Some? && |r.line.value| > 0 ==> !IsCrLf(r.line.value[|r.line.value| - 1])
  {
    var g := Gather(ev, []);
    GatherNoInnerLf(ev, []);
    if |g.buf| == 0 then LineRead(None, g.expired, g.rest)
    else
      var line := RStripCrLf(DecodeAscii(g.buf));
      StrippedLineFree(g.buf);
      LineRead(Some(line), g.expired, g.rest)
  }

  /** No byte before the last one of a gathered buffer is a LF. */
  predicate LfOnlyAtEnd(buf: seq<byte>) {
    forall i | 0 <= i < |buf| - 1 :: buf[i] != LF
  }

  lemma {:induction false} GatherNoInnerLf(ev: seq<RxEvent>, buf: seq<byte>)
    requires forall i | 0 <= i < |buf| :: buf[i] != LF
    ensures LfOnlyAtEnd(Gather(ev, buf).buf)
    decreases |ev|
  {
    if |ev| > 0 {
      match ev[0]
      case Deadline =>
      case Idle => GatherNoInnerLf(ev[1..], buf);
      case Closed =>
      case Byte(b) =>
        if b != LF {
          GatherNoInnerLf(ev[1..], buf + [b]);
        }
    }
  }

  /** The decoded, stripped form of a gathered buffer is ASCII and holds no LF. */
  lemma StrippedLineFree(buf: seq<byte>)
    requires |buf| > 0 && LfOnlyAtEnd(buf)
    ensures IsAscii(RStripCrLf(DecodeAscii(buf)))
    ensures Free(RStripCrLf(DecodeAscii(buf)), '\n')
  {
    StrippedNoLf(buf);
    PrefixAscii(DecodeAscii(buf), RStripCrLf(DecodeAscii(buf)));
  }

  lemma StrippedNoLf(buf: seq<byte>)
    requires |buf| > 0 && LfOnlyAtEnd(buf)
    ensures Free(RStripCrLf(DecodeAscii(buf)), '\n')
  {
    var a, last := SplitLast(buf);
    StrippedLast(a, last);
  }

  /** A gathered buffer is a LF-free body and one last byte. */
  lemma SplitLast(buf: seq<byte>) returns (a: seq<byte>, last: byte)
    requires |buf| > 0 && LfOnlyAtEnd(buf)
    ensures buf == a + [last]
    ensures forall i | 0 <= i < |a| :: a[i] != LF
  {
    a, last := buf[..|buf| - 1], buf[|buf| - 1];
    assert buf == a + [last];
  }

  /** The last byte either is the LF that the strip removes or is kept as a non-LF. */
  lemma StrippedLast(a: seq<byte>, last: byte)
    requires forall i | 0 <= i < |a| :: a[i] != LF
    ensures Free(RStripCrLf(DecodeAscii(a + [last])), '\n')
  {
    DecodeKeepsLfFree(a);
    DecodeAppend(a, [last]);
    var t, u := DecodeAscii(a), DecodeAscii([last]);
    if last == LF {
      assert u == "\n";
      StripFinalLf(t);
    } else {
      DecodeOneNotLf(last);
      FreeAppend(t, u, '\n');
      PrefixFree(t + u, RStripCrLf(t + u), '\n');
    }
  }

  lemma DecodeOneNotLf(b: byte)
    requires b != LF
    ensures Free(DecodeAscii([b]), '\n')
  {
  }

  /** Stripping a LF-free text followed by a LF leaves a LF-free prefix. */
  lemma StripFinalLf(t: string)
    requires Free(t, '\n')
    ensures Free(RStripCrLf(t + "\n"), '\n')
  {
    assert (t + "\n")[..|t|] == t;
    PrefixFree(t, RStripCrLf(t), '\n');
  }

  lemma PrefixFree(s: string, p: string, x: char)
    requires Free(s, x) && |p| <= |s| && p == s[..|p|]
    ensures Free(p, x)
  {
    assert forall i | 0 <= i < |p| :: p[i] == s[i];
  }

  lemma PrefixAscii(s: string, p: string)
    requires IsAscii(s) && |p| <= |s| && p == s[..|p|]
    ensures IsAscii(p)
  {
    assert forall i | 0 <= i < |p| :: p[i] == s[i];
  }

  lemma FreeAppend(a: string, b: string, x: char)
    requires Free(a, x) && Free(b, x)
    ensures Free(a + b, x)
  {
    assert forall i | |a| <= i < |a + b| :: (a + b)[i] == b[i - |a|];
  }

  lemma {:induction false} DecodeKeepsLfFree(bytes: seq<byte>)
    requires forall i | 0 <= i < |bytes| :: bytes[i] != LF
    ensures Free(DecodeAscii(bytes), '\n')
    decreases |bytes|
  {
    if |bytes| > 0 {
      DecodeKeepsLfFree(bytes[1..]);
    }
  }

  lemma {:induction false} DecodeAppend(a: seq<byte>, b: seq<byte>)
    ensures DecodeAscii(a + b) == DecodeAscii(a) + DecodeAscii(b)
    decreases |a|
  {
    if |a| == 0 {
      assert a + b == b;
    } else {
      assert (a + b)[1..] == a[1..] + b;
      DecodeAppend(a[1..], b);
    }
  }

  /** `read_line` returns `None` exactly when no byte arrived before the
      read ended. */
  lemma ReadLineNoneIffNoByte(ev: seq<RxEvent>)
    ensures ReadLine(ev).line.None? <==> |Gather(ev, []).buf| == 0
  {
  }

  // ---------------------------------------------------------- write_line

  /** `Transport.write_line`: the text and a LF, encoded as ASCII; `None` is
      the `UnicodeEncodeError` a non-ASCII character raises. */
  function WriteLineBytes(text: string): (r: Option<seq<byte>>)
    ensures r.Some? <==> IsAscii(text)
    ensures r.Some? ==> |r.value| == |text| + 1 && r.value[|text|] == LF
  {
    if IsAscii(text) then
      assert IsAscii(text + "\n");
      Some(AsciiBytes(text + "\n"))
    else None
  }

  /** A line written by the gateway is read back unchanged by a `read_line`
      on the other end of the wire, and nothing after it is consumed. */
  lemma WrittenLineReadBack(text: string, rest: seq<RxEvent>)
    requires IsAscii(text) && Free(text, '\n')
    requires |text| > 0 ==> text[|text| - 1] != '\r'
    ensures WriteLineBytes(text).Some?
    ensures ReadLine(Arrive(WriteLineBytes(text).value) + rest) == LineRead(Some(text), false, rest)
  {
    var bytes := WriteLineBytes(text).value;
    var ev := Arrive(bytes) + rest;
    var body := WrittenLineGathered(text, rest);
    assert Gather(ev, []).buf == body + [LF];
    assert DecodeAscii(body + [LF]) == text + "\n" by {
      DecodeAppend(body, [LF]);
      DecodeAsciiPlain(body, text);
      assert DecodeAscii([LF]) == "\n";
    }
    assert RStripCrLf(text + "\n") == text by {
      assert (text + "\n")[..|text|] == text;
    }
  }

  /** The bytes of a written line are gathered up to and including its LF. */
  lemma WrittenLineGathered(text: string, rest: seq<RxEvent>) returns (body: seq<byte>)
    requires IsAscii(text) && Free(text, '\n')
    ensures WriteLineBytes(text).Some?
    ensures |body| == |text|
    ensures forall i | 0 <= i < |body| :: body[i] < 128 && body[i] as char == text[i]
    ensures Gather(Arrive(WriteLineBytes(text).value) + rest, []) == Gathered(body + [LF], false, rest)
  {
    body := WrittenBytes(text);
    GatherLine(body, rest);
  }

  lemma GatherLine(body: seq<byte>, rest: seq<RxEvent>)
    requires forall i | 0 <= i < |body| :: body[i] != LF
    ensures Gather(Arrive(body + [LF]) + rest, []) == Gathered(body + [LF], false, rest)
  {
    ArriveLine(body, rest);
    GatherBody(body, [LF], rest, []);
    assert [] + body + [LF] == body + [LF];
  }

  lemma ArriveLine(body: seq<byte>, rest: seq<RxEvent>)
    ensures Arrive(body + [LF]) + rest == Arrive(body) + ([Byte(LF)] + rest)
  {
    ArriveAppend(body, [LF]);
    assert Arrive([LF]) == [Byte(LF)];
  }

  /** The bytes `write_line` sends: the text's codes, then a LF. */
  lemma WrittenBytes(text: string) returns (body: seq<byte>)
    requires IsAscii(text) && Free(text, '\n')
    ensures WriteLineBytes(text) == Some(body + [LF])
    ensures |body| == |text|
    ensures forall i | 0 <= i < |body| :: body[i] != LF && body[i] < 128 && body[i] as char == text[i]
  {
    var bytes := WriteLineBytes(text).value;
    body := bytes[..|text|];
    assert bytes == body + [LF];
    forall i | 0 <= i < |body|
      ensures body[i] != LF && body[i] < 128 && body[i] as char == text[i]
    {
      assert text[i] != '\n';
      assert bytes[i] as int == (text + "\n")[i] as int;
    }
  }

  lemma {:induction false} ArriveAppend(a: seq<byte>, b: seq<byte>)
    ensures Arrive(a + b) == Arrive(a) + Arrive(b)
  {
    assert |Arrive(a + b)| == |Arrive(a) + Arrive(b)|;
    forall i | 0 <= i < |a| + |b|
      ensures Arrive(a + b)[i] == (Arrive(a) + Arrive(b))[i]
    {
      if i < |a| {
        assert (a + b)[i] == a[i];
      } else {
        assert (a + b)[i] == b[i - |a|];
      }
    }
  }

  /** Bytes that are not LF are gathered one by one; the final LF ends the read. */
  lemma {:induction false} GatherBody(body: seq<byte>, tail: seq<byte>, rest: seq<RxEvent>, buf: seq<byte>)
    requires forall i | 0 <= i < |body| :: body[i] != LF
    requires tail == [LF]
    ensures Gather(Arrive(body) + ([Byte(LF)] + rest), buf) == Gathered(buf + body + [LF], false, rest)
    decreases |body|
  {
    if |body| == 0 {
      assert Arrive(body) + ([Byte(LF)] + rest) == [Byte(LF)] + rest;
      assert ([Byte(LF)] + rest)[1..] == rest;
      assert buf + body == buf;
    } else {
      var ev := Arrive(body) + ([Byte(LF)] + rest);
      assert ev[0] == Byte(body[0]);
      assert ev[1..] == Arrive(body[1..]) + ([Byte(LF)] + rest);
      GatherByte(ev, buf);
      GatherBody(body[1..], tail, rest, buf + [body[0]]);
      assert buf + [body[0]] + body[1..] == buf + body;
    }
  }

  /** A byte other than LF is gathered and the loop goes on. */
  lemma GatherByte(ev: seq<RxEvent>, buf: seq<byte>)
    requires |ev| > 0 && ev[0].Byte? && ev[0].b != LF
    ensures Gather(ev, buf) == Gather(ev[1..], buf + [ev[0].b])
  {
  }

  lemma {:induction false} DecodeAsciiPlain(bytes: seq<byte>, text: string)
    requires |bytes| == |text|
    requires forall i | 0 <= i < |bytes| :: bytes[i] < 128 && bytes[i] as char == text[i]
    ensures DecodeAscii(bytes) == text
    decreases |bytes|
  {
    if |bytes| > 0 {
      DecodeAsciiPlain(bytes[1..], text[1..]);
    }
  }

  // ------------------------------------------------------- open_transport

  datatype Endpoint =
    | Socket(host: string, port: int)
    | SerialPort(name: string)

  /** The ASCII white space that Python's `int()` skips around a numeral. */
  predicate IsPySpace(c: char) {
    c == ' ' || c == '\t' || c == '\n' || c == '\r' || c == '\U{B}' || c == '\U{C}'
  }

  function TrimSpace(s: string): (r: string)
    ensures |r| <= |s|
    ensures |r| > 0 ==> !IsPySpace(r[0]) && !IsPySpace(r[|r| - 1])
    ensures (forall i | 0 <= i < |s| :: !IsPySpace(s[i])) ==> r == s
  {
    if |s| > 0 && IsPySpace(s[0]) then TrimSpace(s[1..])
    else if |s| > 0 && IsPySpace(s[|s| - 1]) then TrimSpace(s[..|s| - 1])
    else s
  }

  /** The digit strings Python's `int()` accepts in base 10: digits, with
      single underscores allowed between two digits. */
  predicate IsDigitGroups(d: string) {
    && |d| > 0
    && IsDigit(d[0])
    && IsDigit(d[|d| - 1])
    && (forall i | 0 <= i < |d| :: IsDigit(d[i]) || d[i] == '_')
    && (forall i | 0 <= i < |d| - 1 :: d[i] == '_' ==> d[i + 1] != '_')
  }

  function DropUnderscores(d: string): (r: string)
    ensures |r| <= |d|
    ensures (forall i | 0 <= i < |d| :: d[i] != '_') ==> r == d
    ensures (forall i | 0 <= i < |d| :: IsDigit(d[i]) || d[i] == '_') ==> forall i | 0 <= i < |r| :: IsDigit(r[i])
  {
    if |d| == 0 then []
    else if d[0] == '_' then DropUnderscores(d[1..])
    else [d[0]] + DropUnderscores(d[1..])
  }

  /** Python `int(s)` on a `str`: surrounding white space, an optional sign,
      then grouped decimal digits; `None` is the `ValueError` it raises. */
  function PyInt(s: string): (r: Option<int>)
    ensures r.Some? ==> |TrimSpace(s)| > 0
  {
    var t := TrimSpace(s);
    var signed := |t| > 0 && (t[0] == '+' || t[0] == '-');
    var d := if signed then t[1..] else t;
    if !IsDigitGroups(d) then None
    else
      var v: int := ValueOf(DropUnderscores(d), 10);
      Some(if signed && t[0] == '-' then -v else v)
  }

  /** `open_transport`, up to the point where a connection is made: `tcp:`
      selects a socket, to `host:port` or to `localhost:port`; anything else
      names a serial port. `None` is the `ValueError` of a port that is not
      an integer. Whether the connection itself succeeds is outside the model. */
  function ParseEndpoint(port: string): (r: Option<Endpoint>)
    ensures r.Some? && r.value.SerialPort? <==> !StartsWith(port, "tcp:")
    ensures r.Some? && r.value.SerialPort? ==> r.value.name == port
    ensures r.Some? && r.value.Socket? ==> ':' !in r.value.host
  {
    if StartsWith(port, "tcp:") then
      var rest := port[4..];
      match IndexOf(rest, ':')
      case Some(k) =>
        var p := PyInt(rest[k + 1..]);
        if p.None? then None else Some(Socket(rest[..k], p.value))
      case None =>
        var p := PyInt(rest);
        if p.None? then None else Some(Socket("localhost", p.value))
    else Some(SerialPort(port))
  }

  /** `int()` reads back every decimal numeral. */
  lemma PyIntDecimal(n: nat)
    ensures PyInt(Decimal(n)) == Some(n)
  {
    var d := Decimal(n);
    assert forall i | 0 <= i < |d| :: !IsPySpace(d[i]);
    assert TrimSpace(d) == d;
    assert forall i | 0 <= i < |d| :: d[i] != '_';
    DecimalValue(n);
  }

  /** The two socket spellings round-trip through `open_transport`'s parser. */
  lemma EndpointSocketRoundTrip(host: string, port: nat)
    requires ':' !in host
    ensures ParseEndpoint("tcp:" + host + ":" + Decimal(port)) == Some(Socket(host, port))
    ensures ParseEndpoint("tcp:" + Decimal(port)) == Some(Socket("localhost", port))
  {
    EndpointWithHost(host, port);
    EndpointWithoutHost(port);
  }

  lemma EndpointWithHost(host: string, port: nat)
    requires ':' !in host
    ensures ParseEndpoint("tcp:" + host + ":" + Decimal(port)) == Some(Socket(host, port))
  {
    var d := Decimal(port);
    var s := "tcp:" + host + ":" + d;
    assert StartsWith(s, "tcp:") by { assert s[..4] == "tcp:"; }
    var rest := s[4..];
    assert rest == host + (":" + d);
    IndexOfAfterFree(host, ':', ":" + d);
    assert rest[..|host|] == host;
    assert rest[|host| + 1..] == d;
    PyIntDecimal(port);
  }

  lemma EndpointWithoutHost(port: nat)
    ensures ParseEndpoint("tcp:" + Decimal(port)) == Some(Socket("localhost", port))
  {
    var d := Decimal(port);
    var s := "tcp:" + d;
    assert StartsWith(s, "tcp:") by { assert s[..4] == "tcp:"; }
    assert s[4..] == d;
    assert ':' !in d by {
      forall i | 0 <= i < |d| ensures d[i] != ':' { assert IsDigit(d[i]); }
    }
    PyIntDecimal(port);
  }
}
